=== FILE: README.md ===
# Repository code assistant: a verified model of its core

The system analyses a GitHub repository and answers questions about it. It fetches the
repository's files through the GitHub API and cuts every file into chunks. Python files are
cut by their syntax tree, JavaScript by brace-matched declarations, and Markdown by headers
and code fences. Each chunk is embedded and stored, together with a role tag that a model
writes, in a per-session vector collection. A chat request embeds the question and retrieves
chunks. Chunks whose role tag matches the question's tag are selected first; when too few
match, the selection is backfilled in retrieval order. A prompt is built, cut to a length
limit, and sent to the language model. A code-modification request also decides whether the
user wants the change pushed to GitHub and splits the model's reply into a file name and code.
A conversation memory stores earlier question/answer pairs, skips near duplicates and
retrieves similar ones.

The model is written as pure functions over immutable datatypes. Everything the code cannot
compute itself is a parameter:

- the tokenizer (`encode`, `decode`);
- the Python parser (its tree is an input);
- the embedding, tagging and completion calls;
- the MD5 hash;
- the vector store's answers.

Each module follows one part of the program:

| module | what it models |
|---|---|
| `Text` | the Python string built-ins the code relies on (`strip`, `split`, `splitlines`, `find`, `lower`, `os.path.splitext`, `str(int)`) |
| `TokenWindows`, `Chunks` | `split_by_tokens` and the shared chunk tuple and window budget |
| `PyChunker`, `JsChunker`, `MdChunker` | the three structural chunkers |
| `Embedder` | extension dispatch, seven-position normalisation, record ids, chunk type and metadata |
| `RepoUrl`, `Fetcher`, `DirTree` | URL parsing, API response handling, the fetcher constructor, the directory tree and the token file edit |
| `AnalyzerV1` | the earlier analyzer revision (`github_analyzer_test1.py`) |
| `LlmResponse`, `PushIntent`, `Scope`, `ChatContext`, `ChatFlow` | the chat handler: reply parsing, push-intent detection, scope extraction, context selection and truncation, and the error precedence of both request handlers |
| `ChatMemory`, `LlmRetrieve` | the two conversation memories |
| `RepoViewer` | the stand-alone viewer's content requests and the URL and extension checks its tests define |

## Behaviour of the code worth knowing

- **Normalising a question.** The code only strips the question and collapses its whitespace. It does not lowercase it or remove punctuation (`chat_memory.py:76-82`).
- **Saving a conversation.** The code does not save a new entry when any retrieved distance is below 0.2, and it never replaces an older entry (`chat_memory.py:116-123`). An exact repeat is skipped only because its id is already taken.
- **Selecting the context.** The code takes role-tag matches first and backfills to five chunks when fewer than three match (`chat_handler.py:239-270`). There is no relevance score. The context is cut by characters, at 100000 and 80000, not by tokens (`chat_handler.py:361-371`).
- **Python parse failure.** The chunk type is derived from the name fields, which are empty for the fallback chunks, so those chunks are stored as `code` (`github_analyzer.py:1073-1076`).
- **Chunk size.** A split definition's header chunk is the imports plus the definition line, and nothing bounds its token count. `JsChunker.ChunkJsShape` states the window bound with that exception.

## Model

| member | source | states |
|---|---|---|
| TokenWindows.Windows | github_analyzer.py:540-551 | every window lies inside the token list, holds at most `max_tokens` ids, and its text is the decoding of exactly those ids |
| TokenWindows.WindowsCover | github_analyzer.py:540-551 | every token position lies in some window: the windows leave no gap |
| TokenWindows.WindowsStitch | github_analyzer.py:540-551 | consecutive windows overlap by exactly the declared overlap, and stitching the windows back together gives the original token list |
| TokenWindows.WindowsTile | github_analyzer.py:540-551 | there are windows exactly when there are tokens; the first starts at 0, the last ends at the token count, and each next window starts `overlap` ids before a full previous window ends |
| TokenWindows.SplitByTokens | github_analyzer.py:540-551 | the `while` loop with its early `break` produces exactly the windows defined above |
| Chunks.FromWindows | github_analyzer.py:657-662 | one chunk per window, keeping the window's text and token range and the entity's names, lines and complexity |
| Chunks.WindowChunksCover | github_analyzer.py:540-551 | the chunks made from the windows of a token list tile it: none exactly when the list is empty, first at 0, last at the end, consecutive overlap exact, and stitched back they give the list |
| Chunks.Budget | github_analyzer.py:629-630 | the window size lies in 128..512 and the overlap in 32..128; the overlap is always smaller; complexity 12 or more reaches the 512/128 cap |
| PyChunker.WalkCountsBranches | github_analyzer.py:581-588 | counting `if`/`for`/`while`/`try` nodes over `ast.walk` equals counting them over the tree |
| PyChunker.FunctionComplexity | github_analyzer.py:581-588 | a function's complexity is 1 plus its parameter count plus its branch statements, so it is at least 1 plus the parameter count |
| PyChunker.DefChunks | github_analyzer.py:611-716 | the chunks of one class or function, without its nested definitions |
| PyChunker.DefChunksWholeOrSplit | github_analyzer.py:611-716 | a definition within its budget becomes one chunk of its whole text; otherwise a header chunk followed by exactly the token windows of the body, each no larger than the budget (at most 512); every chunk carries the definition's names, parent and complexity |
| PyChunker.DefChunksSplit | github_analyzer.py:640-662 | in the split case the first chunk is the header and the later chunks are exactly the body's token windows, in order, each spanning the definition's lines |
| PyChunker.DefChunksBodyWindows | github_analyzer.py:640-662 | the body chunks cover the body's tokens: there are some exactly when the body has tokens, the first starts at 0 and the last ends at the token count, consecutive chunks overlap by the budget's overlap, each holds the decoding of its own range, and stitching them gives the body's token list back |
| PyChunker.HeaderImports | github_analyzer.py:640-696 | a split class's or top-level function's header starts with the imports and a blank line; a split method's header starts with its `def` line |
| PyChunker.MethodsOfClass | github_analyzer.py:664-716 | processing a class gives its own chunks followed by the chunks of its body, and every chunk of a function directly inside it appears there with the function's name, the class as its class name and no parent function |
| PyChunker.BodyContains | github_analyzer.py:707-716 | every chunk produced for one statement of a body is among the chunks of the whole body |
| PyChunker.ChunkPythonNonEmpty | github_analyzer.py:552-727 | a source whose encoding is non-empty always yields at least one chunk, via the token-window fallback when no definition is found |
| PyChunker.ChunkPythonOrdered | github_analyzer.py:552-727 | in a non-empty source every chunk's start line is at most its end line |
| PyChunker.ParseFailureSingleChunk | github_analyzer.py:552-557 | a source that does not parse is one chunk: all its text, all its tokens, lines 1 to the line count, no names, complexity 0 |
| JsChunker.FindBlockEnd | github_analyzer.py:830-838 | the running-balance loop returns the first line where the balance counted from the start drops to zero or below, or the last line |
| JsChunker.BlockEndFrom | github_analyzer.py:830-838 | the block end lies at or after the start line and inside the file |
| JsChunker.DeclComplexity | github_analyzer.py:873-874 | a declaration's complexity is never below 1 |
| JsChunker.MethodSpansWithin | github_analyzer.py:929-973 | every method found in a class body starts inside the class, after its declaration line, and does not end before it starts |
| JsChunker.ChunkJsShape | github_analyzer.py:810-984 | every chunk spans at most 512 tokens unless it is a one-line declaration header; a source whose encoding is non-empty yields chunks |
| JsChunker.ScanFromBounded | github_analyzer.py:841-977 | the declaration scan from any line yields only bounded chunks |
| JsChunker.DeclAllBounded | github_analyzer.py:880-926 | the whole, header and body chunks of one declaration, and its methods, are bounded |
| JsChunker.MethodScanBounded | github_analyzer.py:929-973 | method chunks, cut at half the class budget, are bounded |
| JsChunker.MethodsInsideClass | github_analyzer.py:929-973 | every method chunk names the class and a method, and starts on a line of the class after its declaration line |
| MdChunker.MergeSorted | github_analyzer.py:738-746 | sorting the headers and code blocks together by position yields position order |
| MdChunker.MergePermutes | github_analyzer.py:738-746 | the merged marker list holds every marker once and adds none |
| MdChunker.CodeLang | github_analyzer.py:779-781 | a code block's language consists only of word characters |
| MdChunker.CodeLangOfFence | github_analyzer.py:779-781 | a block opening with three backquotes and a language name reports exactly that name |
| MdChunker.PieceChunks | github_analyzer.py:752-762 | a piece of text becomes chunks of at most 256 tokens, all with the piece's title and no line numbers |
| MdChunker.ChunkMarkdownShape | github_analyzer.py:729-808 | every chunk is plain text, a section titled by one of the headers found, or a code block; a file whose encoding is non-empty yields chunks |
| MdChunker.NoMarkersOneChunk | github_analyzer.py:793-801 | text without markers, of at most 256 tokens, is one plain-text chunk of the stripped text |
| Embedder.Normalize7 | github_analyzer.py:1011-1021 | every tuple is cut or padded with `None` to exactly seven positions, keeping the positions it has |
| Embedder.Normalize7Idempotent | github_analyzer.py:1011-1021 | normalising a normalised tuple changes nothing |
| Embedder.NormalizeChunk | github_analyzer.py:1011-1021 | a structural chunk keeps its text, token range, two name positions and line range; parent, complexity and inheritance are dropped |
| Embedder.FileTuples | github_analyzer.py:990-1021 | every tuple has exactly seven positions; a `.py`, `.md` or `.js` file (extension lower-cased) gets the normalised chunks of the Python, Markdown or JavaScript chunker; any other file gets one tuple per token window of 256 with overlap 64, holding its text and offsets, no names, and lines 1 to the file's line count |
| Embedder.FileTuplesWellTyped | github_analyzer.py:990-1027 | whatever the extension, every tuple that reaches storage has text, two token offsets, and optional names and lines |
| Embedder.ChunkType | github_analyzer.py:1073-1076 | the type is `class`, `method`, `function` or `code`, each exactly when its condition on the two name fields holds |
| Embedder.MarkdownChunkTypes | github_analyzer.py:1073-1076 | markdown plain text and sections are stored as classes, and code blocks with a language as methods |
| Embedder.Embedding | github_analyzer.py:1032-1040 | a failed embedding call stores a zero vector of width 1536 |
| Embedder.MakeRecord | github_analyzer.py:1087-1107 | the id is `path_index` and the document is the chunk text; the chunk type comes from the two name fields; complexity is always 1; parent and inheritance are empty; a missing start line is stored as -1 |
| Embedder.RecordIdInjective | github_analyzer.py:1107 | two records with the same id have the same path and index, because the index is the digits after the last underscore |
| RepoUrl.ExtractRepoInfo | github_analyzer.py:184-212 | a URL with no `github.com` segment after normalisation gives `(None, None, None)`; owner and repository never contain a slash |
| RepoUrl.ExtractRoundTrip | github_analyzer.py:184-212 | a URL built from an owner, a repository and path segments parses back to exactly those |
| RepoUrl.DropGitSuffix | github_analyzer.py:196-198 | a single trailing `.git` does not change the result |
| RepoUrl.NormalizeClean | github_analyzer.py:196-198 | a trimmed URL ending in neither `/` nor `.git` is left unchanged |
| RepoUrl.AcceptedRoundTrip | chahae/github_repo_viewer.py:531-541 | a URL built from a non-empty owner and repository and clean path segments is accepted by the input loop |
| RepoUrl.EmptyOwnerRejected | chahae/github_repo_viewer.py:531-541 | a URL whose owner segment is empty is refused by the input loop |
| RepoUrl.EmptyOwnerExample | chahae/github_repo_viewer.py:531-541 | `https://github.com//r` is refused |
| RepoUrl.SelectsAllIff | chahae/github_repo_viewer.py:549 | a path selects the whole repository exactly when it is three letters spelling `all` in any mix of cases |
| RepoUrl.SelectsAllExamples | chahae/github_repo_viewer.py:549 | `all`, `ALL` and `All` select everything; `al` and `all/` do not |
| Fetcher.HandleGithubResponse | github_analyzer.py:147-182 | JSON exactly on status 200; otherwise an error carrying the status; a 404 names the path when one is given; any other status quotes the body |
| Fetcher.StatusTable | github_analyzer.py:147-182 | the whole table: 403 the rate-limit message, 404 the file (named) or resource message, 401 the private-repository message, any other non-200 status the generic message quoting the body, and 200 the JSON |
| Fetcher.MessageNamesStatus | github_analyzer.py:158-174 | two equal error messages come from the same status whenever either status is 401, 403 or 404: the message alone names the error |
| Fetcher.NewFetcher | github_analyzer.py:101-128 | the constructor fails exactly on an unparseable URL or when opening the repository's collection raises, with that message; otherwise owner and repository are non-empty, the default session id is `owner_repo`, the clone path is `./repos/<session>`, and an authorisation header exists exactly when a token is given |
| Fetcher.NewFetcherRoundTrip | github_analyzer.py:101-128 | a fetcher built from an owner/repository URL holds those two and the default session id |
| Fetcher.FileType | github_analyzer.py:391 | the file type holds no dot, and a dot-free name is its own type |
| Fetcher.FileTypeOfName | github_analyzer.py:391 | the type of `stem.ext` is `ext` |
| Fetcher.BuildTree | github_analyzer.py:402-413 | the recursively fetched tree is well formed: keys are sorted and unique at every level |
| Fetcher.AddItemsKeeps | github_analyzer.py:407-411 | a later listing entry never removes the key of an earlier one |
| Fetcher.AddItemsHasFile | github_analyzer.py:407-411 | every file of a listing is present in its tree |
| Fetcher.UpdateTokenLines | github_analyzer.py:492-501 | the first `GITHUB_TOKEN=` line is replaced, or the token line is appended when there is none |
| Fetcher.UpdateTokenIdempotent | github_analyzer.py:492-501 | storing the same token twice changes nothing the second time |
| Fetcher.UpdateTokenStores | github_analyzer.py:492-501 | afterwards the first token line holds the new token |
| Fetcher.ReadLines | github_analyzer.py:488-489 | the line split `readlines` applies after newline translation: the lines concatenate to the text, and each ends in a newline except possibly the last |
| Fetcher.Translate | github_analyzer.py:488-489 | text-mode reading leaves no carriage return, and text without one is unchanged |
| Fetcher.TranslateFinalCr | github_analyzer.py:488-489 | a final lone carriage return is read as a newline |
| Fetcher.ReadFile | github_analyzer.py:488-489 | the lines read from the file are well split, hold no carriage return, and concatenate to the translated text |
| Fetcher.ReadFileConcat | github_analyzer.py:488-505 | reading back written lines that hold no carriage return gives the same lines |
| Fetcher.ReadConcat | github_analyzer.py:488-505 | splitting the concatenation of well-split lines gives the same lines; `ReadFileConcat` lifts this to the file read with newline translation |
| Fetcher.UnterminatedLosesToken | github_analyzer.py:488-505 | for any one-line file whose line has no newline and stores no token, the token is glued onto that line and a later read finds no token line |
| Fetcher.GluedExample | github_analyzer.py:497-501 | `A=1` with token `e` becomes `A=1GITHUB_TOKEN=e\n`, and neither line starts with the key |
| Fetcher.CarriageReturnKeepsToken | github_analyzer.py:488-505 | a one-line file ended by a lone carriage return is read with a newline, so the token is written on a line of its own and found again |
| Fetcher.CarriageExample | github_analyzer.py:488-505 | `A=1\r` with token `e` is written back as `A=1\nGITHUB_TOKEN=e\n` |
| Fetcher.FixedStoresToken | github_analyzer.py:488-505 | with the fix, a later read finds the new token on the first token line, and every other line is kept |
| Fetcher.FixedNoCr | github_analyzer.py:492-501 | the fixed edit brings in no carriage return when the token has none |
| Fetcher.FixedAgrees | github_analyzer.py:488-505 | the fix agrees with the code when the file as read is empty, ends in a newline, or already has a token line |
| DirTree.Set | github_analyzer.py:409-411 | assigning a key keeps entries sorted; the key maps to the new value and every other key keeps its value |
| DirTree.RenderPrefix | github_analyzer.py:416-421 | every rendered line starts with the indentation it was rendered at |
| DirTree.RenderLevel | github_analyzer.py:416-421 | the unindented lines are exactly the top-level keys, in sorted order, with children following their parent |
| DirTree.RenderSortedLevel | github_analyzer.py:416-421 | top-level lines appear in strictly ascending key order |
| DirTree.Insert | github_analyzer_test1.py:205-220 | inserting a path keeps the tree well formed |
| DirTree.InsertPresent | github_analyzer_test1.py:205-220 | an inserted path is present afterwards, and a non-blob leaf is an empty directory |
| DirTree.InsertBlobKeeps | github_analyzer_test1.py:205-220 | inserting a file removes no path that was present |
| AnalyzerV1.ParseGithubRepo | github_analyzer_test1.py:78-94 | an accepted URL yields a non-empty, slash-free owner and repository; a rejected one gives the invalid-URL error |
| AnalyzerV1.ParseRoundTrip | github_analyzer_test1.py:91 | owner and repository come back unchanged, a `.git` suffix included, whatever path follows |
| AnalyzerV1.ParseNeedsRepo | github_analyzer_test1.py:91 | a URL without a repository segment is rejected |
| AnalyzerV1.Build | github_analyzer_test1.py:194-220 | the structure built from the listing is well formed: sorted, unique keys at every level |
| AnalyzerV1.BuildSkips | github_analyzer_test1.py:200-202 | an entry under `.git` or a hidden path leaves the structure unchanged |
| AnalyzerV1.BuildKeepsBlobs | github_analyzer_test1.py:194-220 | in a listing of blobs, every file that is not skipped ends up in the structure |
| AnalyzerV1.FilterMainFiles | github_analyzer_test1.py:262-268 | a path is kept exactly when it is listed and ends in `.py`, `.js` or `.md` |
| AnalyzerV1.FilterIdempotent | github_analyzer_test1.py:262-268 | filtering twice is filtering once |
| AnalyzerV1.FilterAppend | github_analyzer_test1.py:262-268 | filtering a concatenation gives the concatenation of the filtered parts |
| AnalyzerV1.FixedChunksConcat | github_analyzer_test1.py:376-378 | the 500-character chunks of a file concatenate back to its content |
| AnalyzerV1.FixedChunksFromCount | github_analyzer_test1.py:376-378 | a content of length n gives ceil(n/500) chunks |
| AnalyzerV1.FixedChunkIdsDistinct | github_analyzer_test1.py:378 | chunk ids within one file are pairwise distinct |
| AnalyzerV1.CountStoredZero | github_analyzer_test1.py:391-430 | nothing is stored exactly when no chunk has an accepted, non-empty embedding |
| AnalyzerV1.ChunkAndEmbed | github_analyzer_test1.py:376-433 | the loop returns the number of stored chunks; it fails, counting every chunk as an error, exactly when there were chunks and none was stored |
| AnalyzerV1.FetchDocs | github_analyzer_test1.py:285-305 | a document is kept exactly when its path is listed and its fetched content is not empty, and it carries that content |
| AnalyzerV1.AllChunksEmpty | github_analyzer_test1.py:376-378 | documents with content give chunks exactly when there is at least one document |
| AnalyzerV1.Pipeline | github_analyzer_test1.py:459-477 | a successful run up to the structure text carries the listing it read |
| AnalyzerV1.EmbedStep | github_analyzer_test1.py:376-433 | once the earlier steps succeed, the embedding loop fails exactly when the corrected analysis reports the all-failed message, with the loop's error count in it; otherwise it stores chunks of exactly the result's files |
| AnalyzerV1.AnalyzeAsWrittenAlwaysFails | github_analyzer_test1.py:436-504 | as written, the analysis returns the error result for every input, and reports the missing method whenever every step before it succeeds |
| AnalyzerV1.AnalyzeAsWrittenCounterexample | github_analyzer_test1.py:481 | for any `https://github.com/<owner>/<repo>` whose only file is `README`, with every step succeeding, the analysis as written is an error and the corrected one a success |
| AnalyzerV1.AnalyzeAsWrittenDiffers | github_analyzer_test1.py:481 | whenever every step before the structure text succeeds, the code reports the missing method and the corrected analysis reports success |
| AnalyzerV1.ReadmeNotMain | github_analyzer_test1.py:262-268 | a listing holding only `README` has no main file |
| AnalyzerV1.AnalyzeSucceeds | github_analyzer_test1.py:436-504 | the corrected analysis succeeds exactly when the URL parses, the clone, listing and collection steps succeed and some chunk is stored or there are none; its files are then exactly the listed main blobs with non-empty fetched content, each with that content, some chunk was stored when there is a file, and the structure text is that of the listing |
| AnalyzerV1.AnalyzeFailure | github_analyzer_test1.py:494-504 | a parse, clone, listing or collection failure, or the failure of every chunk, gives the error result with no files and no structure; in the last case the message counts the chunks |
| LlmResponse.ParseLlmCodeResponse | chat_handler.py:76-84 | without a header the name is absent and the code is the whole stripped reply; with a header the code is strictly shorter than the reply |
| LlmResponse.FileHeaderRoundTrip | chat_handler.py:78-80 | the reply `pre // FILE: name\ncode`, with no earlier `// FILE:` in it, gives the stripped name and the stripped code; name and code may hold slashes |
| LlmResponse.NameHeaderRoundTrip | chat_handler.py:81-83 | the reply `파일명: name\ncode`, with no `// FILE:` in name or code, gives the stripped name and code; the name may be a path |
| LlmResponse.NoHeader | chat_handler.py:84 | a reply with neither header is all code, with no name |
| LlmResponse.SearchFound | chat_handler.py:78 | a found code part is a proper suffix of the reply |
| LlmResponse.BlankNameExample | chat_handler.py:81-83 | `\s*` after the colon may swallow the newline of an empty name line, so the name comes back blank and the code starts on the next line |
| LlmResponse.PathRepliesAdmitted | chat_handler.py:78-83 | a reply with prose mentioning `src/a.py` before the header, and a `파일명:` reply naming `src/app.py`, satisfy the round-trip conditions |
| PushIntent.DetectPushIntent | chat_handler.py:871-927 | any keyword pattern match gives true; otherwise the result is true exactly when the model answered and its stripped answer starts with `네` |
| PushIntent.SearchFromHits | chat_handler.py:901-904 | the left-to-right search finds a match exactly when one exists at or after the start |
| PushIntent.AnyPatternFromExact | chat_handler.py:878-904 | the keyword rule fires exactly when some pattern of the table matches |
| PushIntent.KeywordHitExact | chat_handler.py:900-904 | the rule is applied to the lower-cased message |
| PushIntent.KeywordForcesPush | chat_handler.py:878-904 | a message containing `push`, `commit`, `pr` or `pull request` is a push request whatever the model says |
| PushIntent.UpperCaseKeyword | chat_handler.py:900 | `PUSH` counts, because the message is lower-cased first |
| PushIntent.OracleFailureNoPush | chat_handler.py:906-927 | without a keyword match, a failed model call gives no push intent |
| PushIntent.ParticleExample | chat_handler.py:879 | `깃허브에 올려줘` matches the first pattern |
| Scope.FindAll | chat_handler.py:1020-1023 | `findall` returns one group per match, in order |
| Scope.FindAllSound | chat_handler.py:1020-1023 | every returned name is the group of a match of its pattern, at increasing, non-overlapping positions |
| Scope.ScanNonEmpty | chat_handler.py:1020-1023 | the scan finds something exactly when an anchor of the pattern occurs at or after the start |
| Scope.ScopeNonEmpty | chat_handler.py:1016-1029 | each of the four lists is non-empty exactly when its pattern's anchor occurs; for example, functions when a word character is followed by `함수`, with at most one space between |
| Scope.FunctionMention | chat_handler.py:1021-1022 | `name 함수` mentions exactly that function, and `name 클래스` exactly that class |
| Scope.NamedMention | chat_handler.py:1021-1022 | a name, a space and the tail word give exactly that name |
| Scope.DirMention | chat_handler.py:1023 | a path followed by `/` mentions the part before its last slash |
| Scope.FileMention | chat_handler.py:1020 | a name, a dot and an extension form one file name, extension included |
| ChatContext.FirstPass | chat_handler.py:239-253 | the first pass never returns more entries than there are hits |
| ChatContext.FirstPassAdmits | chat_handler.py:239-253 | the first pass holds one rendering per role-matching hit, and nothing else |
| ChatContext.FirstPassComplete | chat_handler.py:239-253 | every role-matching hit is admitted |
| ChatContext.RenderAgree | chat_handler.py:245-266 | a hit the first pass admits renders identically in the backfill, so the backfill does not repeat it |
| ChatContext.AddNew | chat_handler.py:267-268 | a rendering is appended only when absent, so a duplicate-free list stays duplicate-free |
| ChatContext.BackfillShape | chat_handler.py:255-270 | the backfill keeps its input as a prefix, adds only renderings of hits, adds no duplicate, and grows a short list to at most five |
| ChatContext.BackfillComplete | chat_handler.py:255-270 | a backfill that stops short of five has taken every hit |
| ChatContext.BackfillLoop | chat_handler.py:255-270 | the loop with its `break` computes the backfill |
| ChatContext.SelectShape | chat_handler.py:239-270 | the selection starts with every matching chunk; it backfills only when fewer than three matched, and then stays within five |
| ChatContext.NoTagPlainBackfill | chat_handler.py:236-238 | when the tagging call fails, the selection is the retrieval order without duplicates, cut at five |
| ChatContext.ContextText | chat_handler.py:326-332 | the context is the banner, then the whole files when any were loaded, else the chunks, joined by blank lines |
| ChatContext.FitContext | chat_handler.py:361-371 | the context is unchanged while the first prompt fits in 100000 characters; beyond that it is the context's first 80000 characters followed by the cut notice, and no longer than those two together |
| ChatContext.TruncationBounds | chat_handler.py:361-371 | a cut context keeps a prefix and ends with the notice, is at most 80000 characters plus the notice, and is kept whole only when the prompt was within the limit |
| ChatContext.TruncatesIff | chat_handler.py:361-371 | for contexts long enough that cutting changes them, truncation happens exactly when the prompt exceeds 100000 characters |
| ChatFlow.HandleChat | chat_handler.py:86-411 | the chat path never reports `no_results`, `no_related_files`, `file_load_error`, `empty_code` or `empty_parsed_code`; it reports `search_error` only for a query result that cannot be read; a successful answer is non-empty with no leading whitespace |
| ChatFlow.Answer | chat_handler.py:339-411 | after retrieval, the only errors are `empty_response`, `empty_answer` and `llm_error` |
| ChatFlow.SessionCheckedFirst | chat_handler.py:92-100 | a missing session gives `session_not_found` whatever the provider and the store would have done |
| ChatFlow.MissingCollection | chat_handler.py:172-177 | once the earlier checks pass, a collection missing from the listing gives `collection_not_found` |
| ChatFlow.EmptyCollectionStops | chat_handler.py:193-204 | a zero count gives `empty_collection`; a count that cannot be taken lets the request continue as if it were non-empty |
| ChatFlow.UnreadableResult | chat_handler.py:240-295 | once the query succeeds, a result that raises while it is read gives `search_error` with the exception's text |
| ChatFlow.ChatSucceedsIff | chat_handler.py:86-411 | the request succeeds exactly when every check passes, the query result reads cleanly, and the model's stripped reply to the fitted prompt is non-empty |
| ChatFlow.Push | chat_handler.py:419-422 | confirmation is required exactly when push intent is detected, and the push message is non-empty exactly then |
| ChatFlow.HandleModify | chat_handler.py:413-866 | every reply carries the push fields decided first; `answer` and `error` are absent together on success; a successful reply carries non-empty code |
| ChatFlow.ModifySteps | chat_handler.py:427-866 | the modify path never reports `embedding_error` or `empty_answer` |
| ChatFlow.ModifyAnswer | chat_handler.py:598-745 | after retrieval the errors are those of result checking, file loading and the model call |
| ChatFlow.ModifyCall | chat_handler.py:790-866 | the model call fails only with `llm_error`, `empty_response`, `empty_code` or `empty_parsed_code` |
| ChatFlow.RelatedFiles | chat_handler.py:612-617 | the related files are exactly the paths of the retrieved chunks |
| ChatFlow.NoRelatedFilesUnreachable | chat_handler.py:619-630 | stored chunks always carry a path, so `no_related_files` cannot occur |
| ChatFlow.ModifyReachesAnswer | chat_handler.py:413-866 | once every check up to retrieval passes, the reply is that of the post-retrieval stage on the retrieved hits, carrying the push fields decided first |
| ChatFlow.ModifyCallParses | chat_handler.py:826-855 | an accepted reply becomes the parsed code and file name of the stripped reply |
| ChatFlow.ModifyTakesHeader | chat_handler.py:826-855 | a reply `// FILE: name\ncode` gives the stripped name and code as the modified file |
| ChatFlow.ModifyTakesReply | chat_handler.py:826-855 | a stripped, non-empty reply that parses to a name and non-empty code becomes the modified file, with that name |
| ChatMemory.Normalize | chat_memory.py:76-82 | the normal form has no surrounding whitespace, and its only whitespace is single spaces |
| ChatMemory.NormalizeKeepsWords | chat_memory.py:76-82 | the normal form keeps the question's words, in order |
| ChatMemory.NormalizeIdempotent | chat_memory.py:76-82 | normalising twice is normalising once |
| ChatMemory.SameWordsSameId | chat_memory.py:88-92 | questions that differ only in whitespace get the same id, whatever the hash |
| ChatMemory.GetOrCreate | chat_memory.py:45-74 | there is no collection exactly when there is no client or a store call raises; otherwise `chat_memory_<id>` exists afterwards and every other collection is unchanged |
| ChatMemory.Add | chat_memory.py:126-135 | an id already present is skipped; any other entry is appended |
| ChatMemory.SaveConversation | chat_memory.py:84-141 | without a client the result is `None`; when opening the session's collection raises nothing changes; otherwise that collection exists afterwards and every other collection is unchanged |
| ChatMemory.SaveDecision | chat_memory.py:84-141 | the entry is added exactly when the collection opens, the query succeeds, finds no distance below 0.2, and the id is new; a failed open changes nothing, and any other refusal only creates the collection |
| ChatMemory.DuplicateNotSaved | chat_memory.py:116-123 | any distance below 0.2 in a non-empty result stops the save |
| ChatMemory.ResaveKeepsOne | chat_memory.py:126-135 | saving a stored question again, or a whitespace variant of it, changes nothing |
| ChatMemory.ConversationsExact | chat_memory.py:176-190 | formatting succeeds exactly when no rank fails, and then yields something exactly when some rank has similarity at least 0.4 |
| ChatMemory.GetRelevant | chat_memory.py:143-202 | without a client, or when opening the collection raises, the sentinel comes back and nothing changes; otherwise retrieval creates the session's collection as a save does, and any text other than the sentinel starts with a conversation label |
| ChatMemory.SentinelIff | chat_memory.py:143-202 | the sentinel is returned exactly when there is no client, opening the collection or a later call fails, nothing is found, a rank fails, or nothing is similar enough |
| ChatMemory.NoDistancesNothingKept | chat_memory.py:178-183 | without distances every rank has similarity 0, so nothing is kept |
| ChatMemory.RankGapExample | chat_memory.py:185-189 | ranks keep their own numbers: when the first rank is dropped, the text starts with conversation 2 |
| ChatMemory.OriginalShownIff | chat_memory.py:185-189 | the original question is shown exactly when it is non-empty and differs from the normalised query |
| ChatMemory.ResetMemory | chat_memory.py:204-229 | the reset reports success exactly when there is a client and either a session id is given or the listing succeeds and no delete of a listed `memory_` collection raises; it only ever removes collections |
| ChatMemory.ResetWith | chat_memory.py:204-229 | with a session, `<prefix><id>` is gone unless its delete raised and every other collection is kept; without one, every collection outside the prefix is kept and, on success, every listed collection under it is gone |
| ChatMemory.DeleteListed | chat_memory.py:220-225 | the loop succeeds exactly when no listed name under the prefix fails to delete; it keeps every collection it was not asked to delete and, on success, removes every listed one under the prefix |
| ChatMemory.ResetAllFailures | chat_memory.py:220-229 | a failing listing, or a failing delete of a listed `memory_` collection, answers `False` |
| ChatMemory.ResetMissesMemory | chat_memory.py:212-223 | as written, a reset never deletes a conversation collection, whatever the store answers |
| ChatMemory.ResetThenStillStored | chat_memory.py:204-229 | a saved conversation is still stored after its session is reset, and the reset reports success |
| ChatMemory.ResetFixedClears | chat_memory.py:204-229 | the corrected reset removes the session's `chat_memory_` collection unless its delete raised, and keeps the others; a successful reset of all sessions over a complete listing leaves no `chat_memory_` collection; collections outside the prefix are always kept |
| ChatMemory.ResetFixedForgets | chat_memory.py:204-229 | after the corrected reset, retrieval for the session has a collection exactly when opening it succeeds, and when the delete succeeded that collection is new and empty |
| LlmRetrieve.Delete | sangwon/llm_retrieve.py:50-58 | the deletion pass only removes entries and never changes one that survives |
| LlmRetrieve.DeleteExact | sangwon/llm_retrieve.py:50-58 | only the hashes of question hits above the threshold are deleted, and all of them when nothing fails |
| LlmRetrieve.UpdateHistory | sangwon/llm_retrieve.py:43-75 | the update fails exactly when embedding the query raises; otherwise the new document is stored under the query's hash unless the add raised, in which case nothing is added; every other surviving entry is unchanged |
| LlmRetrieve.UpdateDeletes | sangwon/llm_retrieve.py:43-75 | an entry other than the new one disappears only if a doomed hit names it |
| LlmRetrieve.NonQuestionsKept | sangwon/llm_retrieve.py:51 | a search that returns no question deletes nothing |
| LlmRetrieve.ThresholdStrict | sangwon/llm_retrieve.py:55 | a similarity equal to the threshold does not delete |
| LlmRetrieve.BuildContext | sangwon/llm_retrieve.py:130-136 | the context is the memory section under its header, then the code documents under theirs |
| LlmRetrieve.EmptyMemorySentinel | sangwon/llm_retrieve.py:134 | with no remembered conversation the sentinel fills the memory section |
| LlmRetrieve.BuildContextSections | sangwon/llm_retrieve.py:130-136 | given the length of the code section, both sections can be read back from the context |
| RepoViewer.GetRepoContent | chahae/github_repo_viewer.py:227-268 | the body exactly on status 200 with a body that is not JSON null; `None` on a null body, on every other status and on a failed request |
| RepoViewer.GetDirectoryContents | chahae/github_repo_viewer.py:339-383 | a listing exactly when the content request gives a list, whatever its items are; an object or null body gives `None` |
| RepoViewer.BodyShapes | chahae/github_repo_viewer.py:250-262 | a null body gives `None`, a list body is the listing as it is, and an object body is not a listing |
| RepoViewer.GetRepoContentWithMetadata | chahae/github_repo_viewer.py:270-337 | on 200 with an object, exactly the nine metadata fields plus the decoded `content`, which is null when absent or undecodable; `{}` otherwise |
| RepoViewer.FailuresAgree | chahae/github_repo_viewer.py:250-303 | the plain and metadata requests fail together on every non-200 status |
| RepoViewer.UndecodableContent | chahae/github_repo_viewer.py:320-328 | a file whose content does not decode keeps its metadata and has null content |
| RepoViewer.BuiltUrlValid | chahae/github_repo_viewer.py:387-415 | every HTTPS URL the viewer parses back into owner and repository passes the URL check |
| RepoViewer.ValidUrlExamples | chahae/tests/test_utils.py:51-66 | the three URLs the test accepts pass the check |
| RepoViewer.InvalidUrlExamples | chahae/tests/test_utils.py:59-69 | text that is not a URL, a non-GitHub host, and a GitHub address without a scheme are all rejected |
| RepoViewer.ExtensionCaseInsensitive | chahae/tests/test_utils.py:92-95 | an extension is valid exactly when its lower-cased form is |
| RepoViewer.ValidExtensionExamples | chahae/tests/test_utils.py:71-77 | the six extensions the test accepts are valid |
| RepoViewer.InvalidExtensionExamples | chahae/tests/test_utils.py:71-80 | the four extensions the test rejects are invalid |
| RepoViewer.UpperExtensionExample | chahae/tests/test_utils.py:92-95 | `.PY` is valid |
| Text.Strip | chat_handler.py:80 | the result is the contiguous middle of the input left after removing all leading and all trailing whitespace: what was removed is whitespace, and the result has no whitespace at either end |
| Text.NextIndexOf | github_analyzer_test1.py:91 | the first occurrence of the character at or after the start, or the length when there is none |
| Text.SplitLines | github_analyzer.py:559 | no line holds a line break, and there are no lines exactly when the text is empty |
| Text.SplitLinesJoin | github_analyzer.py:559 | joining the lines with `\n` gives the text with every line break (`\r\n` as one) turned into `\n`, less a final break; the line count is the number of breaks, plus one when text follows the last |
| Text.SplitLinesUnix | github_analyzer.py:559 | for text whose only breaks are `\n`, joining the lines gives the text back up to a final break, and the line count is the number of `\n` plus one when text follows the last |
| Text.SplitExt | github_analyzer.py:990 | the extension is non-empty exactly when the last path component has a dot after a non-dot character, and is then the path from its last dot on; it starts with a dot, ends the path, and holds no slash and no further dot |
| Text.SplitExtOfName | github_analyzer.py:990 | a file name with a stem and a single-dot extension, under any directory, has exactly that extension |
| Text.DotFileNoExt | github_analyzer.py:990 | a hidden file whose name has no further dot has no extension |
| Text.NatToStringInjective | github_analyzer.py:1107 | different indices print differently |

## Left out

- **I/O and networking.** File reads and writes, HTTP requests and `git clone` are left out. Their outcomes enter the model as parameters: responses, listings, loaded files, and the lines of `.env`.
- **External calls.** The tokenizer, the Python parser, embeddings, the completion and tagging models, MD5, Fernet encryption and base64/UTF-8 decoding are oracles passed in as functions.
- **Vector stores.** Chroma and LangChain appear only through the answers the model uses, or as a map from collection names to entry lists.
- **Concurrency.** The asyncio fan-out over chunks, with at most 20 in flight, is left out. Results are gathered in chunk order, which is what the model computes.
- **Regular expressions.** The JavaScript declaration and method regexes, and the Markdown header and code-fence `finditer` results, are inputs. Only the parts that decide chunk boundaries are modelled: the balance scan, sorting and slicing. Every other regex the core uses is written out as a matcher.
- **Word characters.** `\w` is ASCII letters, digits, `_` and Hangul syllables. Other Unicode letters are not word characters here.
- **Lower-casing.** `lower()` maps only ASCII capitals. This matters for the push keywords and file extensions, which are ASCII.
- **Formatting and time.** Similarity is formatted with `.2f`, which the model keeps as an oracle. The timestamp stored with a conversation is left out. Debug printing and the literal text of prompts are left out; prompts are templates with their slots.
- Fetcher.BuildTree: stops at a recursion `depth` parameter. The code recurses as deep as the repository goes.
- TokenWindows.Windows: requires the overlap to be smaller than the window, because the code loops forever otherwise. Every caller satisfies this.
- RepoUrl.ExtractRepoInfo: models HTTPS-style URLs split on `/`. An SSH URL `git@github.com:o/r` has no `github.com` segment and is rejected, as in the code.
- Fetcher.UpdateTokenFile: writes each `\n` as itself, as text mode does on Linux. On Windows text mode would write `\r\n`; that translation is not modelled.
- Fetcher.UpdateTokenFile: models only the successful update. The `False` that `update_token` returns when the encryption raises or `.env` cannot be read or written (github_analyzer.py:483-510) is file and cipher I/O, which is left out.
- AnalyzerV1.Analyze: the progress callback and the removal of an earlier `repo_<session>` collection are not modelled; a failure there is only reported in the code. Creating the collection, reading the API key and the test embedding call are one step, `Steps.store`, whose failure message becomes the error message.
- LlmRetrieve.UpdateHistory: a failing `persist()` after a successful add is treated like a successful add. The in-memory store then holds the document even though it was not persisted.
- **safe_meta.** Every metadata value the code builds is already a string or a number (`github_analyzer.py:1087-1105`), so the `None`-to-`''` mapping changes nothing and is not modelled separately.
- ChatFlow.HandleModify: An exception from the embedding call, or from reading the query result, reaches the outer handler and is reported as `search_error`. The model returns that code without modelling the exception message.
- ChatFlow.HandleChat: which malformed query results raise (a result without `documents`, a `None` metadata entry) is not derived from the result; the store says so through `readError`, the exception's text. Both handlers see the same `readError`, although their reading code differs.
- **Unreachable code.** The second keyword loop after `return False` in `detect_github_push_intent` (`chat_handler.py:929-941`) is dead code and is not modelled.
- **GitHub fallback for file loading.** It imports `GitHubAnalyzer` from `github_analyzer`, which defines no such class (`chat_handler.py:704`), so that branch always falls into the failure list. The model takes the loaded files as given.
- **Out of scope.** The full-file request in `handle_chat` is modelled only through the list of whole files it yields. `apply_changes` and git operations, the Flask app, the database layer, the package installer and key setup in the viewer, and the memory retriever under `han/` are not part of this model.
- **test_chat_memory.py:22** expects `save_conversation` to return a truthy value. The function returns `None`. The model follows the function.

## Findings

| source | as written | input that shows it | evidently intended | confidence | as-written member | corrected member |
|---|---|---|---|---|---|---|
| github_analyzer_test1.py:481 | `analyze_repository` calls `get_directory_structure_text`, which `GitHubAnalyzer` does not define, so the `AttributeError` is caught and the error result returned | any URL, with every earlier step succeeding | return the structure text that `fetch_file_list` stored, with status `success` | high (not executed) | AnalyzerV1.AnalyzeAsWrittenCounterexample | AnalyzerV1.AnalyzeSucceeds |
| chat_memory.py:212-223 | `reset_memory` deletes `memory_<id>` or every `memory_` collection, but conversations live in `chat_memory_<id>` | save a conversation for session `s`, then `reset_memory("s")`: it is still stored | delete `chat_memory_<id>` or every `chat_memory_` collection | high (not executed) | ChatMemory.ResetThenStillStored | ChatMemory.ResetFixedClears |
| github_analyzer.py:497-501 | `update_token` appends the token line after a last line that lacks its newline, gluing the two into one line | `.env` containing `A=1` with no trailing newline: the file becomes `A=1GITHUB_TOKEN=...` | terminate the last line before appending, so a later read finds the token | medium (not executed) | Fetcher.UnterminatedLosesToken | Fetcher.FixedStoresToken |


=== FILE: analyzer_v1.dfy ===
/** The earlier analyzer revision: the URL is matched against
    `https?://github.com/([^/]+)/([^/]+)`, the directory structure is built from the flat
    tree listing of the repository, the main files are those ending in `.py`, `.js` or `.md`,
    and file contents are cut into fixed 500-character chunks. */
module AnalyzerV1 {
  import opened Wrappers
  import opened Text
  import DirTree
  import Embedder

  // ---------------------------------------------------------------------------
  // parse_github_repo
  // ---------------------------------------------------------------------------

  const InvalidUrl := "잘못된 GitHub URL"

  /** The index just past a leading `http://` or `https://`. */
  function SchemeEnd(url: string): Option<nat> {
    if StartsWith(url, "https://") then Some(8)
    else if StartsWith(url, "http://") then Some(7)
    else None
  }

  /** `github.com/` at `i`, where the unescaped dot matches any character but a newline. */
  predicate HostAt(url: string, i: nat) {
    i + 11 <= |url| && url[i..i + 6] == "github" && url[i + 6] != '\n' && url[i + 7..i + 11] == "com/"
  }

  /** `re.match` anchors at the start only; whatever follows the repository is ignored. */
  function ParseGithubRepo(url: string): (r: Result<(string, string), string>)
    ensures r.Err? ==> r.error == InvalidUrl
    ensures r.Ok? ==> r.value.0 != "" && r.value.1 != "" && '/' !in r.value.0 && '/' !in r.value.1
  {
    var a := SchemeEnd(url);
    if a.None? || !HostAt(url, a.value) then Err(InvalidUrl)
    else
      var o := a.value + 11;
      var oe := NextIndexOf(url, '/', o);
      if oe == o || oe == |url| then Err(InvalidUrl)
      else
        var re := NextIndexOf(url, '/', oe + 1);
        if re == oe + 1 then Err(InvalidUrl)
        else Ok((url[o..oe], url[oe + 1..re]))
  }

  /** The segment end found in a string built as prefix, slash-free segment, then nothing or
      a slash. */
  lemma SegEndAt(s: string, i: nat, seg: string)
    requires i + |seg| <= |s| && s[i..i + |seg|] == seg && '/' !in seg
    requires i + |seg| == |s| || s[i + |seg|] == '/'
    ensures NextIndexOf(s, '/', i) == i + |seg|
  {
    assert forall k :: i <= k < i + |seg| ==> s[k] == seg[k - i];
    NextIndexOfAt(s, '/', i, i + |seg|);
  }

  const HttpsPrefix := "https://github.com/"

  /** A URL starting with the HTTPS GitHub prefix passes the scheme and host checks, and the
      owner segment starts right after it. */
  lemma HttpsPrefixParts(url: string)
    requires |url| >= 19 && url[..19] == HttpsPrefix
    ensures SchemeEnd(url) == Some(8) && HostAt(url, 8)
  {
    assert url[..8] == url[..19][..8];
    assert url[8..14] == url[..19][8..14] && url[15..19] == url[..19][15..19];
    assert url[14] == url[..19][14];
  }

  /** The parser's result once the scheme, the host and both segment ends are known. */
  lemma ParseAt(url: string, oe: nat, re: nat)
    requires SchemeEnd(url) == Some(8) && HostAt(url, 8)
    requires 19 < oe < |url| && NextIndexOf(url, '/', 19) == oe
    requires oe + 1 < re && NextIndexOf(url, '/', oe + 1) == re
    ensures ParseGithubRepo(url) == Ok((url[19..oe], url[oe + 1..re]))
  {
  }

  /** Owner and repository of `https://github.com/owner/repo...` come back unchanged, a
      `.git` suffix included, whatever path follows. */
  lemma ParseRoundTrip(owner: string, repo: string, rest: string)
    requires owner != "" && repo != "" && '/' !in owner && '/' !in repo
    requires rest == "" || rest[0] == '/'
    ensures ParseGithubRepo(HttpsPrefix + owner + "/" + repo + rest) == Ok((owner, repo))
  {
    var url := HttpsPrefix + owner + "/" + repo + rest;
    var oe := 19 + |owner|;
    var re := oe + 1 + |repo|;
    assert url[..19] == HttpsPrefix;
    HttpsPrefixParts(url);
    assert url[19..oe] == owner && url[oe] == '/';
    SegEndAt(url, 19, owner);
    assert url[oe + 1..re] == repo;
    assert re < |url| ==> url[re] == rest[0];
    SegEndAt(url, oe + 1, repo);
    ParseAt(url, oe, re);
  }

  /** A URL without a repository segment is rejected. */
  lemma ParseNeedsRepo(owner: string)
    requires owner != "" && '/' !in owner
    ensures ParseGithubRepo(HttpsPrefix + owner).Err?
    ensures ParseGithubRepo(HttpsPrefix + owner + "/").Err?
  {
    NoRepoSegment(HttpsPrefix + owner, owner);
    NoRepoSegment(HttpsPrefix + owner + "/", owner);
  }

  /** The owner segment either runs to the end, or only a slash follows it. */
  lemma NoRepoSegment(url: string, owner: string)
    requires owner != "" && '/' !in owner
    requires url == HttpsPrefix + owner || url == HttpsPrefix + owner + "/"
    ensures ParseGithubRepo(url).Err?
  {
    assert url[..19] == HttpsPrefix;
    HttpsPrefixParts(url);
    assert url[19..19 + |owner|] == owner;
    SegEndAt(url, 19, owner);
  }

  // ---------------------------------------------------------------------------
  // generate_directory_structure
  // ---------------------------------------------------------------------------

  /** One entry of the repository's recursive tree listing. */
  datatype TreeItem = TreeItem(path: string, itemType: string)

  /** The `.git` folder and hidden entries are left out. */
  predicate Skipped(path: string) {
    StartsWith(path, ".git") || Contains(path, "/.")
  }

  /** The structure after the listing's entries, in listing order. */
  function Build(items: seq<TreeItem>): (t: DirTree.Tree)
    ensures DirTree.WellFormed(t)
    decreases |items|
  {
    if |items| == 0 then DirTree.Empty
    else
      var t := Build(items[..|items| - 1]);
      var it := items[|items| - 1];
      if Skipped(it.path) then t else DirTree.Insert(t, Split(it.path, '/'), it.itemType == "blob")
  }

  /** A skipped entry leaves the structure unchanged. */
  lemma BuildSkips(items: seq<TreeItem>, it: TreeItem)
    requires Skipped(it.path)
    ensures Build(items + [it]) == Build(items)
  {
    assert (items + [it])[..|items|] == items;
  }

  /** An entry that is not skipped is present after it has been added. */
  lemma BuildAdds(items: seq<TreeItem>, it: TreeItem)
    requires !Skipped(it.path)
    ensures DirTree.Present(Build(items + [it]), Split(it.path, '/'), it.itemType == "blob")
  {
    assert (items + [it])[..|items|] == items;
    DirTree.InsertPresent(Build(items), Split(it.path, '/'), it.itemType == "blob");
  }

  predicate AllBlobs(items: seq<TreeItem>) {
    forall k :: 0 <= k < |items| ==> items[k].itemType == "blob"
  }

  /** In a listing of blobs, every file that is not skipped ends up in the structure. */
  lemma {:induction false} BuildKeepsBlobs(items: seq<TreeItem>, k: nat)
    requires AllBlobs(items) && k < |items| && !Skipped(items[k].path)
    ensures DirTree.Present(Build(items), Split(items[k].path, '/'), true)
    decreases |items|
  {
    var init := items[..|items| - 1];
    var it := items[|items| - 1];
    assert items == init + [it];
    if k == |items| - 1 {
      BuildAdds(init, it);
    } else {
      assert init[k] == items[k];
      BuildKeepsBlobs(init, k);
      if !Skipped(it.path) {
        DirTree.InsertBlobKeeps(Build(init), Split(it.path, '/'), Split(items[k].path, '/'), true);
      }
    }
  }

  function StructureText(items: seq<TreeItem>): string {
    DirTree.TreeText(Build(items))
  }

  // ---------------------------------------------------------------------------
  // filter_main_files
  // ---------------------------------------------------------------------------

  predicate IsMain(f: string) {
    EndsWith(f, ".py") || EndsWith(f, ".js") || EndsWith(f, ".md")
  }

  function FilterMainFiles(files: seq<string>): (r: seq<string>)
    ensures |r| <= |files|
    ensures forall f :: f in r <==> f in files && IsMain(f)
  {
    if |files| == 0 then []
    else (if IsMain(files[0]) then [files[0]] else []) + FilterMainFiles(files[1..])
  }

  /** Filtering keeps the order: filtering a concatenation concatenates the filtered parts. */
  lemma {:induction false} FilterAppend(a: seq<string>, b: seq<string>)
    ensures FilterMainFiles(a + b) == FilterMainFiles(a) + FilterMainFiles(b)
    decreases |a|
  {
    if |a| == 0 {
      assert a + b == b;
    } else {
      assert (a + b)[0] == a[0] && (a + b)[1..] == a[1..] + b;
      FilterAppend(a[1..], b);
    }
  }

  /** Filtering twice is filtering once. */
  lemma {:induction false} FilterIdempotent(files: seq<string>)
    ensures FilterMainFiles(FilterMainFiles(files)) == FilterMainFiles(files)
    decreases |files|
  {
    if |files| > 0 {
      var head := if IsMain(files[0]) then [files[0]] else [];
      FilterAppend(head, FilterMainFiles(files[1..]));
      FilterIdempotent(files[1..]);
      if IsMain(files[0]) {
        assert FilterMainFiles(head) == head by {
          assert head[1..] == [];
        }
      }
    }
  }

  // ---------------------------------------------------------------------------
  // Fixed-size chunking (chunk_and_embed)
  // ---------------------------------------------------------------------------

  const ChunkSize := 500

  datatype FixedChunk = FixedChunk(id: string, text: string, chunkIndex: string)

  /** `content[i:i+500]` for `i` in `range(from, len(content), 500)`, with id `path_{i//500}`. */
  function FixedChunksFrom(path: string, content: string, from: nat): (cs: seq<FixedChunk>)
    requires from % ChunkSize == 0
    ensures forall k :: 0 <= k < |cs| ==>
              cs[k].id == Embedder.RecordId(path, from / ChunkSize + k)
              && cs[k].chunkIndex == NatToString(from / ChunkSize + k)
              && 0 < |cs[k].text| <= ChunkSize
    decreases |content| - from
  {
    if from >= |content| then []
    else
      var k := from / ChunkSize;
      [FixedChunk(Embedder.RecordId(path, k), Slice(content, from, from + ChunkSize), NatToString(k))]
      + FixedChunksFrom(path, content, from + ChunkSize)
  }

  function FixedChunks(path: string, content: string): (cs: seq<FixedChunk>)
    ensures forall k :: 0 <= k < |cs| ==> cs[k].id == Embedder.RecordId(path, k) && 0 < |cs[k].text| <= ChunkSize
  {
    FixedChunksFrom(path, content, 0)
  }

  function Concat(cs: seq<FixedChunk>): string {
    if |cs| == 0 then "" else cs[0].text + Concat(cs[1..])
  }

  /** The chunks are consecutive: together they are the content from `from` on. */
  lemma {:induction false} FixedChunksFromConcat(path: string, content: string, from: nat)
    requires from % ChunkSize == 0 && from <= |content|
    ensures Concat(FixedChunksFrom(path, content, from)) == content[from..]
    decreases |content| - from
  {
    if from < |content| {
      if from + ChunkSize <= |content| {
        FixedChunksFromConcat(path, content, from + ChunkSize);
        assert content[from..] == content[from..from + ChunkSize] + content[from + ChunkSize..];
      } else {
        assert FixedChunksFrom(path, content, from + ChunkSize) == [];
      }
    }
  }

  /** Joining the chunks gives the content back. */
  lemma FixedChunksConcat(path: string, content: string)
    ensures Concat(FixedChunks(path, content)) == content
  {
    FixedChunksFromConcat(path, content, 0);
  }

  /** There are `ceil(len / 500)` chunks. */
  lemma {:induction false} FixedChunksFromCount(path: string, content: string, from: nat)
    requires from % ChunkSize == 0
    ensures |FixedChunksFrom(path, content, from)|
            == if from >= |content| then 0 else (|content| - from + ChunkSize - 1) / ChunkSize
    decreases |content| - from
  {
    if from < |content| {
      FixedChunksFromCount(path, content, from + ChunkSize);
    }
  }

  /** Chunk ids within one file are pairwise distinct. */
  lemma FixedChunkIdsDistinct(path: string, content: string, i: nat, j: nat)
    requires i < j < |FixedChunks(path, content)|
    ensures FixedChunks(path, content)[i].id != FixedChunks(path, content)[j].id
  {
    if FixedChunks(path, content)[i].id == FixedChunks(path, content)[j].id {
      Embedder.RecordIdInjective(path, i, path, j);
    }
  }

  // ---------------------------------------------------------------------------
  // Storing and the all-failed rule
  // ---------------------------------------------------------------------------

  /** A document to chunk: its path and its text. */
  datatype Doc = Doc(path: string, content: string)

  function AllChunks(docs: seq<Doc>): seq<FixedChunk> {
    if |docs| == 0 then [] else FixedChunks(docs[0].path, docs[0].content) + AllChunks(docs[1..])
  }

  /** A chunk is stored when its embedding call returns a non-empty vector and the store
      accepts it; any other outcome is counted as an error. */
  predicate Stored(c: FixedChunk, embed: string -> Option<seq<real>>, accepts: string -> bool) {
    embed(c.text).Some? && embed(c.text).value != [] && accepts(c.id)
  }

  function CountStored(cs: seq<FixedChunk>, embed: string -> Option<seq<real>>, accepts: string -> bool): (n: nat)
    ensures n <= |cs|
  {
    if |cs| == 0 then 0
    else (if Stored(cs[0], embed, accepts) then 1 else 0) + CountStored(cs[1..], embed, accepts)
  }

  /** Nothing is stored exactly when no chunk is accepted with a non-empty embedding. */
  lemma {:induction false} CountStoredZero(cs: seq<FixedChunk>, embed: string -> Option<seq<real>>, accepts: string -> bool)
    ensures CountStored(cs, embed, accepts) == 0 <==> forall k :: 0 <= k < |cs| ==> !Stored(cs[k], embed, accepts)
  {
    if |cs| > 0 {
      CountStoredZero(cs[1..], embed, accepts);
      assert forall k :: 1 <= k < |cs| ==> cs[k] == cs[1..][k - 1];
    }
  }

  /** The build step over the chunks of all documents: the number of stored chunks, or a
      failure carrying the error count when there were errors and nothing was stored. */
  method ChunkAndEmbed(cs: seq<FixedChunk>, embed: string -> Option<seq<real>>, accepts: string -> bool)
    returns (r: Result<nat, nat>)
    ensures r.Ok? ==> r.value == CountStored(cs, embed, accepts)
    ensures r.Err? ==> r.error == |cs|
    ensures r.Err? <==> |cs| > 0 && CountStored(cs, embed, accepts) == 0
  {
    var stored, errors := 0, 0;
    var i := 0;
    while i < |cs|
      invariant 0 <= i <= |cs|
      invariant stored + errors == i
      invariant stored + CountStored(cs[i..], embed, accepts) == CountStored(cs, embed, accepts)
    {
      CountStoredStep(cs, i, embed, accepts);
      if Stored(cs[i], embed, accepts) {
        stored := stored + 1;
      } else {
        errors := errors + 1;
      }
      i := i + 1;
    }
    if errors > 0 && stored == 0 {
      r := Err(errors);
    } else {
      r := Ok(stored);
    }
  }

  lemma CountStoredStep(cs: seq<FixedChunk>, i: nat, embed: string -> Option<seq<real>>, accepts: string -> bool)
    requires i < |cs|
    ensures CountStored(cs[i..], embed, accepts)
            == (if Stored(cs[i], embed, accepts) then 1 else 0) + CountStored(cs[i + 1..], embed, accepts)
  {
    assert cs[i..][1..] == cs[i + 1..];
  }

  // ---------------------------------------------------------------------------
  // analyze_repository
  // ---------------------------------------------------------------------------

  /** The files of the result: each main file whose fetched content is not empty, with that
      content. `fetch` answers the raw-content request, `""` standing for a non-200 status or a
      raised request. */
  function FetchDocs(paths: seq<string>, fetch: string -> string): (docs: seq<Doc>)
    ensures |docs| <= |paths|
    ensures forall d :: d in docs <==> d.path in paths && d.content == fetch(d.path) && d.content != ""
  {
    if |paths| == 0 then []
    else
      var rest := FetchDocs(paths[1..], fetch);
      assert forall p :: p in paths <==> p == paths[0] || p in paths[1..];
      (if fetch(paths[0]) != "" then [Doc(paths[0], fetch(paths[0]))] else []) + rest
  }

  /** Non-empty documents give chunks exactly when there is at least one document. */
  lemma {:induction false} AllChunksEmpty(docs: seq<Doc>)
    requires forall d :: d in docs ==> d.content != ""
    ensures |AllChunks(docs)| == 0 <==> |docs| == 0
  {
    if |docs| > 0 {
      FixedChunksFromCount(docs[0].path, docs[0].content, 0);
    }
  }

  datatype Analysis = Analysis(files: seq<Doc>, structure: string, status: string, errorMessage: string)

  /** What the steps of the analysis meet outside the model: the clone failure, the tree
      listing, the raw-content fetch, the failure message of creating the collection, reading
      the API key or creating the embedding client, and the per-chunk embedding and store
      answers. */
  datatype Steps = Steps(clone: Option<string>, listing: Result<seq<TreeItem>, string>,
                         fetch: string -> string, store: Option<string>,
                         embed: string -> Option<seq<real>>, accepts: string -> bool)

  const MissingMethod := "'GitHubAnalyzer' object has no attribute 'get_directory_structure_text'"

  /** The message raised when every chunk failed. */
  function EmbedFailure(errors: nat): string {
    "임베딩 실패: 모든 " + NatToString(errors) + " 청크의 임베딩이 실패했습니다."
  }

  function ErrorResult(message: string): Analysis {
    Analysis([], "", "error", message)
  }

  /** The main files of a listing. */
  function MainPaths(items: seq<TreeItem>): seq<string> {
    FilterMainFiles(FilterBlobs(items))
  }

  /** The steps up to and including `chunk_and_embed`, in order: the URL, the clone, the
      listing, the collection and client, and the all-failed rule. On success, the fetched
      documents and the listing. */
  function Pipeline(url: string, s: Steps): (r: Result<(seq<Doc>, seq<TreeItem>), string>)
    ensures r.Ok? ==> s.listing.Ok? && r.value.1 == s.listing.value
  {
    var p := ParseGithubRepo(url);
    if p.Err? then Err(p.error)
    else if s.clone.Some? then Err(s.clone.value)
    else if s.listing.Err? then Err(s.listing.error)
    else
      var docs := FetchDocs(MainPaths(s.listing.value), s.fetch);
      var cs := AllChunks(docs);
      if s.store.Some? then Err(s.store.value)
      else if |cs| > 0 && CountStored(cs, s.embed, s.accepts) == 0 then Err(EmbedFailure(|cs|))
      else Ok((docs, s.listing.value))
  }

  /** As written: after every step succeeds, the structure text is requested from a method
      the class does not define, which raises, so the outcome is always the error result. */
  function AnalyzeAsWritten(url: string, s: Steps): (a: Analysis)
  {
    var r := Pipeline(url, s);
    if r.Err? then ErrorResult(r.error) else ErrorResult(MissingMethod)
  }

  lemma AnalyzeAsWrittenAlwaysFails(url: string, s: Steps)
    ensures AnalyzeAsWritten(url, s).status == "error"
    ensures AnalyzeAsWritten(url, s).files == [] && AnalyzeAsWritten(url, s).structure == ""
    ensures Pipeline(url, s).Ok? ==> AnalyzeAsWritten(url, s).errorMessage == MissingMethod
  {
  }

  /** Whenever every step up to the structure text succeeds, the analysis as written
      reports the missing method where the corrected one reports success. */
  lemma AnalyzeAsWrittenDiffers(url: string, s: Steps)
    requires Pipeline(url, s).Ok?
    ensures AnalyzeAsWritten(url, s).status == "error" && AnalyzeAsWritten(url, s).errorMessage == MissingMethod
    ensures Analyze(url, s).status == "success"
  {
  }

  /** A repository whose only file is `README`, every step succeeding, whatever the fetch
      and embedding answers: as written the result is an error, corrected it is a success. */
  lemma AnalyzeAsWrittenCounterexample(owner: string, repo: string, s: Steps)
    requires owner != "" && repo != "" && '/' !in owner && '/' !in repo
    requires s.clone.None? && s.listing == Ok([TreeItem("README", "blob")]) && s.store.None?
    ensures AnalyzeAsWritten(HttpsPrefix + owner + "/" + repo, s).status == "error"
    ensures Analyze(HttpsPrefix + owner + "/" + repo, s).status == "success"
  {
    var url := HttpsPrefix + owner + "/" + repo;
    ParseRoundTrip(owner, repo, "");
    assert url + "" == url;
    ReadmeNotMain(s.listing.value);
    assert FetchDocs([], s.fetch) == [];
    assert AllChunks([]) == [];
    AnalyzeAsWrittenDiffers(url, s);
  }

  lemma ReadmeNotMain(items: seq<TreeItem>)
    requires items == [TreeItem("README", "blob")]
    ensures MainPaths(items) == []
  {
    assert FilterBlobs(items[1..]) == [];
    assert FilterBlobs(items) == ["README"];
    assert !IsMain("README") by {
      assert "README"[|"README"| - 1] != "y"[0];
      assert "README"[|"README"| - 2] != "j"[0];
    }
    assert FilterMainFiles(["README"][1..]) == [];
  }

  /** Corrected: the structure text is the one the listing step stored on the analyzer, and
      the files are the fetched documents. */
  function Analyze(url: string, s: Steps): (a: Analysis)
    ensures a.status == "success" || a == ErrorResult(a.errorMessage)
  {
    var r := Pipeline(url, s);
    if r.Err? then ErrorResult(r.error)
    else Analysis(r.value.0, StructureText(r.value.1), "success", "")
  }

  /** `[item['path'] for item in tree_data if item['type'] == 'blob']`. */
  function FilterBlobs(items: seq<TreeItem>): (paths: seq<string>)
    ensures forall p :: p in paths <==> exists k :: 0 <= k < |items| && items[k].itemType == "blob" && items[k].path == p
  {
    if |items| == 0 then []
    else
      var rest := FilterBlobs(items[1..]);
      assert forall k :: 1 <= k < |items| ==> items[k] == items[1..][k - 1];
      (if items[0].itemType == "blob" then [items[0].path] else []) + rest
  }

  /** The corrected analysis succeeds exactly when the URL parses, the clone, the listing and
      the collection and client steps succeed, and some chunk is stored or there is no chunk at
      all. Its files are then exactly the main blobs whose fetched content is not empty, each
      with that content; when there is one, some chunk was stored; the structure text is that
      of the listing. */
  lemma AnalyzeSucceeds(url: string, s: Steps)
    ensures var a := Analyze(url, s);
            a.status == "success" <==>
              ParseGithubRepo(url).Ok? && s.clone.None? && s.listing.Ok? && s.store.None?
              && var cs := AllChunks(FetchDocs(MainPaths(s.listing.value), s.fetch));
                 |cs| == 0 || CountStored(cs, s.embed, s.accepts) > 0
    ensures var a := Analyze(url, s);
            a.status == "success" ==>
              a.structure == StructureText(s.listing.value) && a.errorMessage == ""
              && (forall d :: d in a.files <==>
                    d.path in FilterBlobs(s.listing.value) && IsMain(d.path)
                    && d.content == s.fetch(d.path) && d.content != "")
              && (|a.files| > 0 ==> CountStored(AllChunks(a.files), s.embed, s.accepts) > 0)
  {
    var a := Analyze(url, s);
    if a.status == "success" {
      var docs := FetchDocs(MainPaths(s.listing.value), s.fetch);
      assert a.files == docs;
      AllChunksEmpty(docs);
    }
  }

  /** Any failing step gives the error result with no files and no structure; when only the
      embedding fails for every chunk, the message counts them. */
  lemma AnalyzeFailure(url: string, s: Steps)
    requires ParseGithubRepo(url).Err? || s.clone.Some? || s.listing.Err? || s.store.Some?
             || (s.listing.Ok? && var cs := AllChunks(FetchDocs(MainPaths(s.listing.value), s.fetch));
                 |cs| > 0 && CountStored(cs, s.embed, s.accepts) == 0)
    ensures Analyze(url, s).status == "error" && Analyze(url, s).files == [] && Analyze(url, s).structure == ""
    ensures ParseGithubRepo(url).Ok? && s.clone.None? && s.listing.Ok? && s.store.None? ==>
              var cs := AllChunks(FetchDocs(MainPaths(s.listing.value), s.fetch));
              Analyze(url, s).errorMessage == EmbedFailure(|cs|)
  {
  }

  /** The embedding step the analysis applies is the loop: it fails, with every chunk
      counted as an error, exactly when the corrected analysis reports the all-failed
      message. */
  method EmbedStep(url: string, s: Steps) returns (r: Result<nat, nat>)
    requires ParseGithubRepo(url).Ok? && s.clone.None? && s.listing.Ok? && s.store.None?
    ensures r.Err? <==> Analyze(url, s).status == "error"
    ensures r.Err? ==> Analyze(url, s).errorMessage == EmbedFailure(r.error)
    ensures r.Ok? ==> r.value == CountStored(AllChunks(Analyze(url, s).files), s.embed, s.accepts)
  {
    var cs := AllChunks(FetchDocs(MainPaths(s.listing.value), s.fetch));
    r := ChunkAndEmbed(cs, s.embed, s.accepts);
  }
}

=== FILE: chat_context.dfy ===
/** The context-selection block of `handle_chat`: the retrieved chunks whose role tag matches
    the question's go first, then, when fewer than three matched, the retrieval order fills
    the list up to five distinct entries; the context is a banner line followed by the chosen
    entries separated by blank lines. When the filled-in prompt is too long, the context is cut. */
module ChatContext {
  import opened Wrappers
  import opened Text
  import Embedder

  /** One query result: the stored document and its metadata, paired as `zip` pairs them. */
  datatype Hit = Hit(doc: string, meta: Embedder.Meta)

  const Banner := "아래는 [파일/함수/클래스/라인/역할] 단위로 추출된 컨텍스트입니다."
  const FirstPassMin := 3
  const BackfillMax := 5

  /** The metadata labels shown for every present (truthy) field, role excluded. */
  function Labels(m: Embedder.Meta): seq<string> {
    (if m.fileName != "" then ["파일명: " + m.fileName] else [])
    + (if m.functionName != "" then ["함수: " + m.functionName] else [])
    + (if m.className != "" then ["클래스: " + m.className] else [])
    + (if m.startLine != 0 && m.endLine != 0
       then ["라인: " + IntToString(m.startLine) + "~" + IntToString(m.endLine)] else [])
    + (if m.sha != "" then ["sha: " + m.sha] else [])
  }

  /** `[label/label/...]\ndoc`. */
  function Render(h: Hit, withRole: bool): string {
    var labels := Labels(h.meta) + (if withRole then ["역할: " + h.meta.roleTag] else []);
    "[" + Join(labels, "/") + "]\n" + h.doc
  }

  /** The first pass always shows the role; the backfill shows it when it is non-empty. */
  function FirstRender(h: Hit): string { Render(h, true) }
  function BackfillRender(h: Hit): string { Render(h, h.meta.roleTag != "") }

  /** Both tags non-empty and one contained in the other. */
  predicate RoleMatch(question: string, role: string) {
    question != "" && role != "" && (Contains(role, question) || Contains(question, role))
  }

  /** The first pass, in retrieval order. */
  function FirstPass(question: string, hits: seq<Hit>): (r: seq<string>)
    ensures |r| <= |hits|
  {
    if hits == [] then []
    else (if RoleMatch(question, hits[0].meta.roleTag) then [FirstRender(hits[0])] else [])
         + FirstPass(question, hits[1..])
  }

  /** Reference reading of the first pass: one entry per matching hit. */
  function MatchCount(question: string, hits: seq<Hit>): nat {
    if hits == [] then 0
    else (if RoleMatch(question, hits[0].meta.roleTag) then 1 else 0) + MatchCount(question, hits[1..])
  }

  /** Every first-pass entry is the rendering of a matching hit, one per matching hit. */
  lemma {:induction false} FirstPassAdmits(question: string, hits: seq<Hit>)
    ensures |FirstPass(question, hits)| == MatchCount(question, hits)
    ensures forall x :: x in FirstPass(question, hits) ==>
              exists k :: 0 <= k < |hits| && RoleMatch(question, hits[k].meta.roleTag) && x == FirstRender(hits[k])
  {
    if hits != [] {
      FirstPassAdmits(question, hits[1..]);
      forall x | x in FirstPass(question, hits)
        ensures exists k :: 0 <= k < |hits| && RoleMatch(question, hits[k].meta.roleTag) && x == FirstRender(hits[k])
      {
        var head := if RoleMatch(question, hits[0].meta.roleTag) then [FirstRender(hits[0])] else [];
        if x in head {
          assert RoleMatch(question, hits[0].meta.roleTag) && x == FirstRender(hits[0]);
        } else {
          assert x in FirstPass(question, hits[1..]);
          var k :| 0 <= k < |hits[1..]| && RoleMatch(question, hits[1..][k].meta.roleTag) && x == FirstRender(hits[1..][k]);
          assert hits[k + 1] == hits[1..][k];
        }
      }
    }
  }

  /** Every matching hit is admitted. */
  lemma {:induction false} FirstPassComplete(question: string, hits: seq<Hit>, k: nat)
    requires k < |hits| && RoleMatch(question, hits[k].meta.roleTag)
    ensures FirstRender(hits[k]) in FirstPass(question, hits)
  {
    if k > 0 {
      assert hits[1..][k - 1] == hits[k];
      FirstPassComplete(question, hits[1..], k - 1);
    }
  }

  /** A chunk the first pass admits renders identically in the backfill, so the backfill
      never repeats it. */
  lemma RenderAgree(question: string, h: Hit)
    requires RoleMatch(question, h.meta.roleTag)
    ensures BackfillRender(h) == FirstRender(h)
  {
  }

  /** The backfill loop: each hit's rendering is appended unless already present, and the loop
      stops as soon as the list holds five or more. */
  function Backfill(chunks: seq<string>, hits: seq<Hit>): seq<string>
    decreases |hits|
  {
    if hits == [] then chunks
    else
      var c := AddNew(chunks, BackfillRender(hits[0]));
      if |c| >= BackfillMax then c else Backfill(c, hits[1..])
  }

  /** Appends `s` unless it is already present. */
  function AddNew(chunks: seq<string>, s: string): (c: seq<string>)
    ensures s in c && chunks <= c && |c| <= |chunks| + 1
    ensures forall i :: |chunks| <= i < |c| ==> c[i] == s
    ensures Distinct(chunks) ==> Distinct(c)
  {
    if s in chunks then chunks else chunks + [s]
  }

  /** One step of the loop over the hits from `i`. */
  lemma BackfillStep(r: seq<string>, hits: seq<Hit>, i: nat)
    requires i < |hits|
    ensures Backfill(r, hits[i..]) ==
            (var c := AddNew(r, BackfillRender(hits[i]));
             if |c| >= BackfillMax then c else Backfill(c, hits[i + 1..]))
  {
    assert hits[i..][0] == hits[i] && hits[i..][1..] == hits[i + 1..];
  }

  predicate Distinct(xs: seq<string>) {
    forall i, j :: 0 <= i < j < |xs| ==> xs[i] != xs[j]
  }

  /** The backfill keeps what it is given as a prefix, adds only renderings of hits, never adds
      a duplicate, and grows a short list to at most five. */
  lemma BackfillShape(chunks: seq<string>, hits: seq<Hit>)
    ensures chunks <= Backfill(chunks, hits)
    ensures forall i :: |chunks| <= i < |Backfill(chunks, hits)| ==> Backfill(chunks, hits)[i] in Renders(hits)
    ensures Distinct(chunks) ==> Distinct(Backfill(chunks, hits))
    ensures |chunks| < BackfillMax ==> |Backfill(chunks, hits)| <= BackfillMax
    ensures |Backfill(chunks, hits)| <= |chunks| + |hits|
  {
    BackfillBounds(chunks, hits);
    BackfillOrigins(chunks, hits);
  }

  /** The prefix, duplicate and size part of the backfill's shape. */
  lemma {:induction false} BackfillBounds(chunks: seq<string>, hits: seq<Hit>)
    ensures chunks <= Backfill(chunks, hits)
    ensures Distinct(chunks) ==> Distinct(Backfill(chunks, hits))
    ensures |chunks| < BackfillMax ==> |Backfill(chunks, hits)| <= BackfillMax
    ensures |Backfill(chunks, hits)| <= |chunks| + |hits|
    decreases |hits|
  {
    if hits != [] {
      var c := AddNew(chunks, BackfillRender(hits[0]));
      if |c| < BackfillMax {
        var r := Backfill(chunks, hits);
        assert r == Backfill(c, hits[1..]);
        BackfillBounds(c, hits[1..]);
        assert r[..|chunks|] == r[..|c|][..|chunks|];
      } else {
        assert Backfill(chunks, hits) == c;
      }
    }
  }

  /** The rendering of every hit, in order. */
  function Renders(hits: seq<Hit>): (r: seq<string>)
    ensures |r| == |hits| && forall k :: 0 <= k < |hits| ==> r[k] == BackfillRender(hits[k])
  {
    if hits == [] then [] else [BackfillRender(hits[0])] + Renders(hits[1..])
  }

  /** Every entry the backfill adds renders one of the hits. */
  lemma {:induction false} BackfillOrigins(chunks: seq<string>, hits: seq<Hit>)
    ensures forall i :: |chunks| <= i < |Backfill(chunks, hits)| ==> Backfill(chunks, hits)[i] in Renders(hits)
    decreases |hits|
  {
    if hits != [] {
      var c := AddNew(chunks, BackfillRender(hits[0]));
      var r := Backfill(chunks, hits);
      assert Renders(hits) == [BackfillRender(hits[0])] + Renders(hits[1..]);
      if |c| < BackfillMax {
        BackfillOrigins(c, hits[1..]);
        assert r == Backfill(c, hits[1..]);
        BackfillBounds(c, hits[1..]);
        forall i | |chunks| <= i < |r|
          ensures r[i] in Renders(hits)
        {
          if i < |c| {
            assert r[i] == c[i];
          }
        }
      } else {
        assert r == c;
      }
    } else {
      assert Backfill(chunks, hits) == chunks;
    }
  }

  /** A backfill that stops short of five has taken every hit. */
  lemma {:induction false} BackfillComplete(chunks: seq<string>, hits: seq<Hit>, k: nat)
    requires k < |hits| && |Backfill(chunks, hits)| < BackfillMax
    ensures BackfillRender(hits[k]) in Backfill(chunks, hits)
    decreases |hits|
  {
    var c := AddNew(chunks, BackfillRender(hits[0]));
    var r := Backfill(chunks, hits);
    assert |c| < BackfillMax && r == Backfill(c, hits[1..]);
    if k == 0 {
      BackfillBounds(c, hits[1..]);
      InPrefix(c, r, BackfillRender(hits[0]));
    } else {
      assert hits[1..][k - 1] == hits[k];
      BackfillComplete(c, hits[1..], k - 1);
    }
  }

  lemma InPrefix(c: seq<string>, r: seq<string>, s: string)
    requires c <= r && s in c
    ensures s in r
  {
    var j :| 0 <= j < |c| && c[j] == s;
    assert r[j] == c[j];
  }

  /** The loop of the source, step by step; it computes the backfill. */
  method BackfillLoop(chunks: seq<string>, hits: seq<Hit>) returns (r: seq<string>)
    ensures r == Backfill(chunks, hits)
  {
    r := chunks;
    var i := 0;
    while i < |hits|
      invariant 0 <= i <= |hits|
      invariant Backfill(r, hits[i..]) == Backfill(chunks, hits)
      decreases |hits| - i
    {
      var s := BackfillRender(hits[i]);
      BackfillStep(r, hits, i);
      if s !in r {
        r := r + [s];
      }
      if |r| >= BackfillMax {
        return;
      }
      i := i + 1;
    }
    assert hits[i..] == [];
  }

  /** The chosen entries: the first pass, backfilled only when it admitted fewer than three. */
  function Select(question: string, hits: seq<Hit>): seq<string> {
    var first := FirstPass(question, hits);
    if |first| < FirstPassMin then Backfill(first, hits) else first
  }

  /** The selection starts with every matching chunk, backfills only when short, and stays
      within five entries whenever it backfills. */
  lemma SelectShape(question: string, hits: seq<Hit>)
    ensures FirstPass(question, hits) <= Select(question, hits)
    ensures MatchCount(question, hits) >= FirstPassMin ==> Select(question, hits) == FirstPass(question, hits)
    ensures MatchCount(question, hits) < FirstPassMin ==> |Select(question, hits)| <= BackfillMax
  {
    FirstPassAdmits(question, hits);
    BackfillShape(FirstPass(question, hits), hits);
  }

  /** An empty question tag matches no role. */
  lemma {:induction false} NoTagNoMatch(hits: seq<Hit>)
    ensures MatchCount("", hits) == 0
  {
    if hits != [] {
      NoTagNoMatch(hits[1..]);
    }
  }

  /** With no question tag (the tagging call failed), the selection is the plain retrieval
      order, de-duplicated and cut at five. */
  lemma NoTagPlainBackfill(hits: seq<Hit>)
    ensures Select("", hits) == Backfill([], hits)
  {
    FirstPassAdmits("", hits);
    NoTagNoMatch(hits);
  }

  /** The context handed to the model: the banner, a newline, then the whole files when a
      full-file request found any, else the selected chunks, separated by blank lines. */
  function ContextText(chunks: seq<string>, fullFiles: seq<string>): (c: string)
    ensures StartsWith(c, Banner + "\n")
    ensures fullFiles != [] ==> c[|Banner| + 1..] == Join(fullFiles, "\n\n")
    ensures fullFiles == [] ==> c[|Banner| + 1..] == Join(chunks, "\n\n")
  {
    var body := Join(if fullFiles != [] then fullFiles else chunks, "\n\n");
    var c := Banner + "\n" + body;
    assert c[..|Banner| + 1] == Banner + "\n";
    assert c[|Banner| + 1..] == body;
    c
  }

  /** A prompt template with its fixed text around the three slots: directory structure,
      context and question, in that order. */
  datatype Template = Template(head: string, afterStructure: string, afterContext: string, tail: string)

  function Fill(t: Template, structure: string, context: string, question: string): (p: string)
    ensures |p| == |t.head| + |structure| + |t.afterStructure| + |context| + |t.afterContext| + |question| + |t.tail|
  {
    t.head + structure + t.afterStructure + context + t.afterContext + question + t.tail
  }

  const NoStructure := "프로젝트 구조 정보가 없습니다. 파일 내용만 참고하여 응답하겠습니다."
  const PromptLimit := 100000
  const ContextKeep := 80000
  const CutNotice := "\n... (컨텍스트 길이 제한으로 인해 일부 내용이 생략되었습니다) ..."

  /** The structure text, or the stand-in when the session has none. */
  function StructureOr(structure: string): string {
    if structure != "" then structure else NoStructure
  }

  /** The context actually sent: unchanged unless the first prompt is over the limit, then its
      first 80000 characters and a notice. */
  function FitContext(t: Template, structure: string, context: string, question: string): (c: string)
    ensures |Fill(t, StructureOr(structure), context, question)| <= PromptLimit ==> c == context
    ensures |Fill(t, StructureOr(structure), context, question)| > PromptLimit ==>
              StartsWith(c, Slice(context, 0, ContextKeep)) && EndsWith(c, CutNotice)
              && |c| == |Slice(context, 0, ContextKeep)| + |CutNotice|
  {
    if |Fill(t, StructureOr(structure), context, question)| > PromptLimit
    then Slice(context, 0, ContextKeep) + CutNotice
    else context
  }

  /** The prompt sent to the model. */
  function Prompt(t: Template, structure: string, context: string, question: string): string {
    Fill(t, StructureOr(structure), FitContext(t, structure, context, question), question)
  }

  /** Cutting keeps a prefix of the context and shortens every context longer than the notice
      allows; the prompt then exceeds the fixed text by at most 80000 characters and the notice. */
  lemma TruncationBounds(t: Template, structure: string, context: string, question: string)
    ensures var c := FitContext(t, structure, context, question);
            c == context || (Slice(context, 0, ContextKeep) <= c && EndsWith(c, CutNotice))
    ensures |FitContext(t, structure, context, question)| <= |context| || |context| < ContextKeep + |CutNotice|
    ensures |FitContext(t, structure, context, question)| <= ContextKeep + |CutNotice| || FitContext(t, structure, context, question) == context
    ensures FitContext(t, structure, context, question) == context ==>
              |Prompt(t, structure, context, question)| <= PromptLimit
              || |Fill(t, StructureOr(structure), context, question)| > PromptLimit
  {
    var c := FitContext(t, structure, context, question);
    if c != context {
      var k := Slice(context, 0, ContextKeep);
      assert c[..|k|] == k;
      assert c[|c| - |CutNotice|..] == CutNotice;
    }
  }

  /** Truncation happens exactly when the untruncated prompt is over 100000 characters, for
      contexts long enough that cutting changes them. */
  lemma TruncatesIff(t: Template, structure: string, context: string, question: string)
    requires |context| > ContextKeep && context[ContextKeep..] != CutNotice
    ensures FitContext(t, structure, context, question) != context
            <==> |Fill(t, StructureOr(structure), context, question)| > PromptLimit
  {
    var c := FitContext(t, structure, context, question);
    if |Fill(t, StructureOr(structure), context, question)| > PromptLimit {
      assert c[ContextKeep..] == CutNotice;
    }
  }
}

=== FILE: chat_flow.dfy ===
/** `handle_chat` and `handle_modify_request`: a fixed chain of checks, each of which can end
    the request with an answer text and an error code, then one model call. The session table,
    the embedding and completion calls and the vector store are inputs: a missing session is
    `None`, a call that raises is `Err` with the exception's text. */
module ChatFlow {
  import opened Wrappers
  import opened Text
  import Embedder
  import ChatContext
  import LlmResponse
  import PushIntent

  /** What the request needs from the session: the stored directory text and token, the
      whole-file texts a full-file question loads, and the texts the modify path loads for the
      retrieved paths (`// FILE: path\ncontent`, one per file read). */
  datatype Session = Session(structure: string, token: string, fullFiles: seq<string>, loadedFiles: seq<string>)

  /** The vector store as the handlers see it. `listing` is the list of collection names;
      `access` opens the session's collection and yields its count, `None` when counting raised.
      `readError` is the text of the exception a handler raises while reading a query result
      of the wrong shape (no `documents`, or a `None` metadata entry), `None` when the result
      reads cleanly. */
  datatype Store = Store(ready: bool, listing: Result<seq<string>, string>, access: Result<Option<nat>, string>,
                         query: seq<real> -> Result<seq<ChatContext.Hit>, string>, readError: Option<string>)

  /** The model provider: the API key, the embedding call, the intent-tag call (`None` when it
      raised) and the completion call (`Ok(None)` for a reply without a message). */
  datatype Provider = Provider(apiKey: string, embed: string -> Result<seq<real>, string>,
                               tag: string -> Option<string>,
                               complete: string -> Result<Option<string>, string>)

  /** The `error` codes of both handlers. */
  datatype Code =
    | SessionNotFound | ApiKeyMissing | EmbeddingError | EmptyEmbedding | ChromaClientNotInitialized
    | CollectionListError | CollectionNotFound | CollectionAccessError | EmptyCollection | QueryError
    | NoResults | NoRelatedFiles | SearchError | FileLoadError | EmptyResponse | EmptyAnswer | EmptyCode
    | EmptyParsedCode | LlmError

  /** The code as the reply spells it. */
  function CodeName(c: Code): string {
    match c
    case SessionNotFound => "session_not_found"
    case ApiKeyMissing => "api_key_missing"
    case EmbeddingError => "embedding_error"
    case EmptyEmbedding => "empty_embedding"
    case ChromaClientNotInitialized => "chroma_client_not_initialized"
    case CollectionListError => "collection_list_error"
    case CollectionNotFound => "collection_not_found"
    case CollectionAccessError => "collection_access_error"
    case EmptyCollection => "empty_collection"
    case QueryError => "query_error"
    case NoResults => "no_results"
    case NoRelatedFiles => "no_related_files"
    case SearchError => "search_error"
    case FileLoadError => "file_load_error"
    case EmptyResponse => "empty_response"
    case EmptyAnswer => "empty_answer"
    case EmptyCode => "empty_code"
    case EmptyParsedCode => "empty_parsed_code"
    case LlmError => "llm_error"
  }

  datatype ChatReply = ChatReply(answer: string, error: Option<Code>)

  const NoSessionText := "세션 데이터가 없습니다. 새로운 레포지토리를 분석해주세요."
  const NoKeyText := "OpenAI API 키가 설정되지 않았습니다."
  const EmptyEmbeddingText := "임베딩 생성 중 오류가 발생했습니다: 임베딩 결과가 비어 있습니다."
  const EmbeddingErrorPrefix := "임베딩 생성 중 오류가 발생했습니다: "
  const NoClientText := "저장소 분석 데이터에 접근할 수 없습니다. 서버를 재시작하고 저장소를 다시 분석해주세요."
  const AccessErrorPrefix := "저장소 분석 데이터 접근 중 오류가 발생했습니다: "
  const NoCollectionText := "저장소 분석 데이터를 찾을 수 없습니다. 저장소를 다시 분석해주세요."
  const EmptyCollectionText := "저장소 분석 데이터가 비어 있습니다. 저장소를 다시 분석해주세요."
  const SearchErrorPrefix := "코드 검색 중 오류가 발생했습니다: "

  /** The session's collection. */
  function CollectionName(sessionId: string): string {
    "repo_" + sessionId
  }

  function Fail(answer: string, code: Code): ChatReply {
    ChatReply(answer, Some(code))
  }

  /** After retrieval: tag the question, select the chunks, build and fit the prompt, ask. */
  function Answer(message: string, s: Session, hits: seq<ChatContext.Hit>, p: Provider,
                  t: ChatContext.Template): (r: ChatReply)
    ensures r.error.None? || r.error.value in {EmptyResponse, EmptyAnswer, LlmError}
    ensures r.error.None? ==> r.answer != "" && !IsSpace(r.answer[0])
  {
    var chunks := ChatContext.Select(Embedder.RoleTag(p.tag(message)), hits);
    var context := ChatContext.ContextText(chunks, s.fullFiles);
    match p.complete(ChatContext.Prompt(t, s.structure, context, message))
    case Err(e) => Fail("응답 생성 중 오류가 발생했습니다: " + e, LlmError)
    case Ok(None) => Fail("응답 생성 중 오류가 발생했습니다. 다시 시도해주세요.", EmptyResponse)
    case Ok(Some(c)) =>
      var a := Strip(c);
      if a == "" then Fail("질문에 대한 답변을 생성하지 못했습니다. 다른 질문을 시도해주세요.", EmptyAnswer)
      else ChatReply(a, None)
  }

  /** `handle_chat`. A query result that cannot be read is caught by the outer handler and
      reported as `search_error`. */
  function HandleChat(sessionId: string, message: string, session: Option<Session>, p: Provider,
                      st: Store, t: ChatContext.Template): (r: ChatReply)
    ensures r.error.None? || r.error.value !in {NoResults, NoRelatedFiles, FileLoadError, EmptyCode, EmptyParsedCode}
    ensures r.error == Some(SearchError) ==> st.readError.Some?
    ensures r.error.None? ==> r.answer != "" && !IsSpace(r.answer[0])
  {
    if session.None? then Fail(NoSessionText, SessionNotFound)
    else if p.apiKey == "" then Fail(NoKeyText, ApiKeyMissing)
    else match p.embed(message)
    case Err(e) => Fail(EmbeddingErrorPrefix + e, EmbeddingError)
    case Ok(v) =>
      if v == [] then Fail(EmptyEmbeddingText, EmptyEmbedding)
      else if !st.ready then Fail(NoClientText, ChromaClientNotInitialized)
      else match st.listing
      case Err(e) => Fail(AccessErrorPrefix + e, CollectionListError)
      case Ok(names) =>
        if CollectionName(sessionId) !in names then Fail(NoCollectionText, CollectionNotFound)
        else match st.access
        case Err(e) => Fail(AccessErrorPrefix + e, CollectionAccessError)
        case Ok(count) =>
          if count == Some(0) then Fail(EmptyCollectionText, EmptyCollection)
          else match st.query(v)
          case Err(e) => Fail(SearchErrorPrefix + e, QueryError)
          case Ok(hits) =>
            if st.readError.Some? then Fail(SearchErrorPrefix + st.readError.value, SearchError)
            else Answer(message, session.value, hits, p, t)
  }

  /** Everything before the model call passes. */
  predicate ChatReady(sessionId: string, message: string, session: Option<Session>, p: Provider, st: Store) {
    session.Some? && p.apiKey != "" && p.embed(message).Ok? && p.embed(message).value != []
    && st.ready && st.listing.Ok? && CollectionName(sessionId) in st.listing.value
    && st.access.Ok? && st.access.value != Some(0) && st.query(p.embed(message).value).Ok?
    && st.readError.None?
  }

  /** Once the query succeeds, a result that cannot be read ends the chat request with
      `search_error` and the exception's text. */
  lemma UnreadableResult(sessionId: string, message: string, s: Session, p: Provider, st: Store, t: ChatContext.Template)
    requires p.apiKey != "" && p.embed(message).Ok? && p.embed(message).value != [] && st.ready
    requires st.listing.Ok? && CollectionName(sessionId) in st.listing.value
    requires st.access.Ok? && st.access.value != Some(0) && st.query(p.embed(message).value).Ok?
    requires st.readError.Some?
    ensures HandleChat(sessionId, message, Some(s), p, st, t) == Fail(SearchErrorPrefix + st.readError.value, SearchError)
  {
  }

  /** A missing session ends the request first: the answer is the same whatever the provider,
      the store and the template would have done. */
  lemma SessionCheckedFirst(sessionId: string, message: string, p: Provider, st: Store, t: ChatContext.Template,
                            p2: Provider, st2: Store, t2: ChatContext.Template)
    ensures HandleChat(sessionId, message, None, p, st, t) == HandleChat(sessionId, message, None, p2, st2, t2)
    ensures HandleChat(sessionId, message, None, p, st, t).error == Some(SessionNotFound)
  {
  }

  /** Once everything before the lookup passed, a collection missing from the listing gives
      `collection_not_found`. */
  lemma MissingCollection(sessionId: string, message: string, s: Session, p: Provider, st: Store, t: ChatContext.Template)
    requires p.apiKey != "" && p.embed(message).Ok? && p.embed(message).value != [] && st.ready
    requires st.listing.Ok? && CollectionName(sessionId) !in st.listing.value
    ensures HandleChat(sessionId, message, Some(s), p, st, t) == Fail(NoCollectionText, CollectionNotFound)
  {
  }

  /** A collection that reports zero documents gives `empty_collection`; a count that could
      not be taken lets the request go on as if the collection were non-empty. */
  lemma EmptyCollectionStops(sessionId: string, message: string, s: Session, p: Provider, st: Store, t: ChatContext.Template,
                        n: nat)
    requires p.apiKey != "" && p.embed(message).Ok? && p.embed(message).value != [] && st.ready
    requires st.listing.Ok? && CollectionName(sessionId) in st.listing.value
    ensures st.access == Ok(Some(0)) ==>
              HandleChat(sessionId, message, Some(s), p, st, t) == Fail(EmptyCollectionText, EmptyCollection)
    ensures n > 0 ==> HandleChat(sessionId, message, Some(s), p, st.(access := Ok(None)), t)
                      == HandleChat(sessionId, message, Some(s), p, st.(access := Ok(Some(n))), t)
  {
  }

  /** The request succeeds exactly when every check passes and the model's stripped reply is
      non-empty; the answer is then that stripped reply to the fitted prompt. */
  lemma ChatSucceedsIff(sessionId: string, message: string, session: Option<Session>, p: Provider,
                        st: Store, t: ChatContext.Template)
    ensures HandleChat(sessionId, message, session, p, st, t).error.None? <==>
            ChatReady(sessionId, message, session, p, st)
            && var hits := st.query(p.embed(message).value).value;
               var context := ChatContext.ContextText(ChatContext.Select(Embedder.RoleTag(p.tag(message)), hits),
                                                      session.value.fullFiles);
               var reply := p.complete(ChatContext.Prompt(t, session.value.structure, context, message));
               reply.Ok? && reply.value.Some? && Strip(reply.value.value) != ""
  {
  }

  // ---------------------------------------------------------------------------------------
  // handle_modify_request

  /** Every reply of the modify path carries the push fields; `answer` and `error` are absent
      from a successful reply. */
  datatype ModifyReply = ModifyReply(answer: Option<string>, error: Option<Code>, modifiedCode: string,
                                     fileName: string, hasPushIntent: bool, tokenExists: bool,
                                     requiresConfirmation: bool, pushIntentMessage: string)

  const ConfirmText := "깃허브에 적용하려면 확인이 필요합니다."
  const ModifySearchErrorText := "코드 검색 중 오류가 발생했습니다. 새로운 레포지토리를 분석해주세요."

  /** The push fields, decided before anything else. */
  datatype PushFields = PushFields(hasPushIntent: bool, tokenExists: bool, requiresConfirmation: bool, message: string)

  function Push(message: string, pushAnswer: Option<string>, session: Option<Session>): (pf: PushFields)
    ensures pf.requiresConfirmation == pf.hasPushIntent == PushIntent.DetectPushIntent(message, pushAnswer)
    ensures pf.message != "" <==> pf.hasPushIntent
  {
    var has := PushIntent.DetectPushIntent(message, pushAnswer);
    PushFields(has, session.Some? && session.value.token != "", has, if has then ConfirmText else "")
  }

  /** The reply carries the push fields decided up front. */
  predicate Carries(r: ModifyReply, pf: PushFields) {
    r.hasPushIntent == pf.hasPushIntent && r.tokenExists == pf.tokenExists
    && r.requiresConfirmation == pf.requiresConfirmation && r.pushIntentMessage == pf.message
  }

  function ModifyFail(pf: PushFields, answer: string, code: Code): (r: ModifyReply)
    ensures Carries(r, pf) && r.error == Some(code) && r.answer == Some(answer)
  {
    ModifyReply(Some(answer), Some(code), "", "", pf.hasPushIntent, pf.tokenExists, pf.requiresConfirmation, pf.message)
  }

  /** The context of a modify prompt: the loaded files, then the retrieved chunk texts. */
  function ModifyContext(files: seq<string>, hits: seq<ChatContext.Hit>): string {
    "\n\n=== 관련 파일 전체 내용 ===\n\n" + Join(files, "\n\n---\n\n")
    + "\n\n=== 관련 코드 청크 ===\n\n" + Join(Docs(hits), "\n---\n")
  }

  function Docs(hits: seq<ChatContext.Hit>): (d: seq<string>)
    ensures |d| == |hits| && forall i :: 0 <= i < |hits| ==> d[i] == hits[i].doc
  {
    if hits == [] then [] else [hits[0].doc] + Docs(hits[1..])
  }

  /** The set of retrieved paths. */
  function RelatedFiles(hits: seq<ChatContext.Hit>): (r: set<string>)
    ensures forall i :: 0 <= i < |hits| ==> hits[i].meta.path in r
    ensures forall x :: x in r ==> exists i :: 0 <= i < |hits| && hits[i].meta.path == x
  {
    set i | 0 <= i < |hits| :: hits[i].meta.path
  }

  /** A non-empty result names at least one file. */
  lemma RelatedFilesNonEmpty(hits: seq<ChatContext.Hit>)
    requires hits != []
    ensures RelatedFiles(hits) != {}
  {
    assert hits[0].meta.path in RelatedFiles(hits);
  }

  /** After retrieval: check the result and the loaded files, then ask. */
  function ModifyAnswer(message: string, s: Session, hits: seq<ChatContext.Hit>, p: Provider,
                        t: ChatContext.Template, pf: PushFields): (r: ModifyReply)
    ensures r.error.None? || r.error.value in {NoResults, NoRelatedFiles, FileLoadError, LlmError, EmptyResponse, EmptyCode, EmptyParsedCode}
    ensures Carries(r, pf) && (r.error.None? <==> r.answer.None?)
    ensures r.error.None? ==> r.modifiedCode != ""
  {
    if hits == [] then ModifyFail(pf, "질문과 관련된 코드를 찾을 수 없습니다. 다른 질문을 시도해보세요.", NoResults)
    else if RelatedFiles(hits) == {} then
      ModifyFail(pf, "질문과 관련된 코드 파일을 찾을 수 없습니다. 다른 질문을 시도해보세요.", NoRelatedFiles)
    else if s.loadedFiles == [] then
      ModifyFail(pf, "관련 코드 파일을 로드하지 못했습니다. 저장소를 다시 분석해주세요.", FileLoadError)
    else ModifyCall(message, s, hits, p, t, pf)
  }

  /** The model call of the modify path: build the prompt, ask, and split the reply into the
      file name and the code. */
  function ModifyCall(message: string, s: Session, hits: seq<ChatContext.Hit>, p: Provider,
                      t: ChatContext.Template, pf: PushFields): (r: ModifyReply)
    ensures r.error.None? || r.error.value in {LlmError, EmptyResponse, EmptyCode, EmptyParsedCode}
    ensures Carries(r, pf) && (r.error.None? <==> r.answer.None?)
    ensures r.error.None? ==> r.modifiedCode != ""
  {
    var context := ModifyContext(s.loadedFiles, hits);
    match p.complete(ChatContext.Prompt(t, s.structure, context, message))
    case Err(e) => ModifyFail(pf, "코드 수정 중 오류가 발생했습니다: " + e, LlmError)
    case Ok(None) => ModifyFail(pf, "코드 수정 중 오류가 발생했습니다. 다시 시도해주세요.", EmptyResponse)
    case Ok(Some(c)) =>
      if Strip(c) == "" then
        ModifyFail(pf, "코드 수정을 생성하지 못했습니다. 다른 수정 요청을 시도해주세요.", EmptyCode)
      else
        var parsed := LlmResponse.ParseLlmCodeResponse(Strip(c));
        if parsed.1 == "" then
          ModifyFail(pf, "코드 수정을 생성하지 못했습니다. 다른 수정 요청을 시도해주세요.", EmptyParsedCode)
        else
          ModifyReply(None, None, parsed.1, parsed.0.GetOr(""), pf.hasPushIntent, pf.tokenExists,
                      pf.requiresConfirmation, pf.message)
  }

  /** `handle_modify_request`. `pushAnswer` is the reply of the intent model, asked only when
      no keyword matched. An exception from the embedding call, or from reading the query
      result, is caught by the outer handler and reported as `search_error`. */
  function HandleModify(sessionId: string, message: string, pushAnswer: Option<string>, session: Option<Session>,
                        p: Provider, st: Store, t: ChatContext.Template): (r: ModifyReply)
    ensures r.requiresConfirmation == r.hasPushIntent == PushIntent.DetectPushIntent(message, pushAnswer)
    ensures r.pushIntentMessage != "" <==> r.hasPushIntent
    ensures r.error.None? <==> r.answer.None?
    ensures r.error.None? ==> r.modifiedCode != ""
  {
    ModifySteps(sessionId, message, session, p, st, t, Push(message, pushAnswer, session))
  }

  /** The checks and the model call, with the push fields already decided. */
  function ModifySteps(sessionId: string, message: string, session: Option<Session>,
                       p: Provider, st: Store, t: ChatContext.Template, pf: PushFields): (r: ModifyReply)
    ensures r.error.None? || r.error.value !in {EmbeddingError, EmptyAnswer}
    ensures Carries(r, pf) && (r.error.None? <==> r.answer.None?)
    ensures r.error.None? ==> r.modifiedCode != ""
  {
    if session.None? then ModifyFail(pf, NoSessionText, SessionNotFound)
    else if p.apiKey == "" then ModifyFail(pf, NoKeyText, ApiKeyMissing)
    else match p.embed(message)
    case Err(_) => ModifyFail(pf, ModifySearchErrorText, SearchError)
    case Ok(v) =>
      if v == [] then ModifyFail(pf, EmptyEmbeddingText, EmptyEmbedding)
      else if !st.ready then ModifyFail(pf, NoClientText, ChromaClientNotInitialized)
      else match st.listing
      case Err(e) => ModifyFail(pf, AccessErrorPrefix + e, CollectionListError)
      case Ok(names) =>
        if CollectionName(sessionId) !in names then ModifyFail(pf, NoCollectionText, CollectionNotFound)
        else match st.access
        case Err(e) => ModifyFail(pf, AccessErrorPrefix + e, CollectionAccessError)
        case Ok(count) =>
          if count == Some(0) then ModifyFail(pf, EmptyCollectionText, EmptyCollection)
          else match st.query(v)
          case Err(e) => ModifyFail(pf, SearchErrorPrefix + e, QueryError)
          case Ok(hits) =>
            if st.readError.Some? then ModifyFail(pf, ModifySearchErrorText, SearchError)
            else ModifyAnswer(message, session.value, hits, p, t, pf)
  }

  /** Once every check before the model call passed, the modify path is its last stage. */
  lemma ModifyReachesAnswer(sessionId: string, message: string, pushAnswer: Option<string>, session: Option<Session>,
                            p: Provider, st: Store, t: ChatContext.Template)
    requires ChatReady(sessionId, message, session, p, st)
    ensures HandleModify(sessionId, message, pushAnswer, session, p, st, t)
            == ModifyAnswer(message, session.value, st.query(p.embed(message).value).value, p, t,
                            Push(message, pushAnswer, session))
  {
  }

  /** Stored chunks always carry a path, so a non-empty result always names a file and the
      `no_related_files` branch cannot be taken. */
  lemma NoRelatedFilesUnreachable(message: string, s: Session, hits: seq<ChatContext.Hit>, p: Provider,
                                  t: ChatContext.Template, pf: PushFields)
    ensures ModifyAnswer(message, s, hits, p, t, pf).error != Some(NoRelatedFiles)
  {
    if hits != [] {
      RelatedFilesNonEmpty(hits);
    }
  }

  /** With a non-empty result and loaded files, the modify path goes on to the model call. */
  lemma AnswerIsCall(message: string, s: Session, hits: seq<ChatContext.Hit>, p: Provider,
                     t: ChatContext.Template, pf: PushFields)
    requires hits != [] && s.loadedFiles != []
    ensures ModifyAnswer(message, s, hits, p, t, pf) == ModifyCall(message, s, hits, p, t, pf)
  {
    RelatedFilesNonEmpty(hits);
  }

  /** A reply the model call accepts becomes the modified file: the code and name the parser
      reads from the stripped reply. */
  lemma ModifyCallParses(message: string, s: Session, hits: seq<ChatContext.Hit>, p: Provider,
                         t: ChatContext.Template, pf: PushFields, c: string)
    requires p.complete(ChatContext.Prompt(t, s.structure, ModifyContext(s.loadedFiles, hits), message)) == Ok(Some(c))
    requires Strip(c) != "" && LlmResponse.ParseLlmCodeResponse(Strip(c)).1 != ""
    ensures var parsed := LlmResponse.ParseLlmCodeResponse(Strip(c));
            var r := ModifyCall(message, s, hits, p, t, pf);
            r.error.None? && r.modifiedCode == parsed.1 && r.fileName == parsed.0.GetOr("")
  {
  }

  /** A header reply with no surrounding whitespace is its own strip and parses to its name
      and code. */
  lemma HeaderReply(name: string, code: string, reply: string)
    requires reply == LlmResponse.FileMarker + name + "\n" + code
    requires name != "" && '\n' !in name && Strip(code) != "" && !IsSpace(code[|code| - 1])
    ensures reply != "" && Strip(reply) == reply
    ensures LlmResponse.ParseLlmCodeResponse(reply) == (Some(Strip(name)), Strip(code))
  {
    assert reply[0] == LlmResponse.FileMarker[0];
    assert reply[|reply| - 1] == code[|code| - 1];
    StripNoop(reply);
    assert "" + reply == reply;
    LlmResponse.FileHeaderRoundTrip("", name, code);
  }

  /** A reply `// FILE: name\ncode` gives the stripped name and code as the modified file. */
  lemma ModifyTakesHeader(message: string, s: Session, hits: seq<ChatContext.Hit>, p: Provider,
                          t: ChatContext.Template, pf: PushFields, name: string, code: string, reply: string)
    requires hits != [] && s.loadedFiles != []
    requires reply == LlmResponse.FileMarker + name + "\n" + code
    requires p.complete(ChatContext.Prompt(t, s.structure, ModifyContext(s.loadedFiles, hits), message)) == Ok(Some(reply))
    requires name != "" && '\n' !in name && Strip(code) != "" && !IsSpace(code[|code| - 1])
    ensures var r := ModifyAnswer(message, s, hits, p, t, pf);
            r.error.None? && r.modifiedCode == Strip(code) && r.fileName == Strip(name)
  {
    HeaderReply(name, code, reply);
    ModifyTakesReply(message, s, hits, p, t, pf, reply, Strip(name), Strip(code));
  }

  /** A stripped reply that parses to a name and a non-empty code becomes the modified file. */
  lemma ModifyTakesReply(message: string, s: Session, hits: seq<ChatContext.Hit>, p: Provider,
                         t: ChatContext.Template, pf: PushFields, c: string, name: string, code: string)
    requires hits != [] && s.loadedFiles != []
    requires p.complete(ChatContext.Prompt(t, s.structure, ModifyContext(s.loadedFiles, hits), message)) == Ok(Some(c))
    requires c != "" && Strip(c) == c && LlmResponse.ParseLlmCodeResponse(c) == (Some(name), code) && code != ""
    ensures var r := ModifyAnswer(message, s, hits, p, t, pf);
            r.error.None? && r.modifiedCode == code && r.fileName == name
  {
    ModifyCallParses(message, s, hits, p, t, pf, c);
    AnswerIsCall(message, s, hits, p, t, pf);
  }
}

=== FILE: chat_memory.dfy ===
/** The conversation memory: one collection of question/answer documents per session, a
    normalised question as the duplicate key, a skip-on-near-duplicate save, a similarity
    filter on retrieval, and the reset of the collections.

    The collections are a map from collection name to the entries stored in it. The
    embedding model, the nearest-neighbour query, the md5 hash and the `.2f` rendering of a
    similarity are oracles; the clock (the `timestamp` metadata field) is left out. */
module ChatMemory {
  import opened Wrappers
  import opened Text

  // ---------------------------------------------------------------------------
  // Normalisation and ids
  // ---------------------------------------------------------------------------

  /** `normalize_question`: strip, then join the whitespace-separated words by one space. */
  function Normalize(question: string): (n: string)
    ensures SingleSpaced(n)
  {
    var ws := Words(Strip(question));
    JoinWordsSingleSpaced(ws);
    Join(ws, " ")
  }

  /** The normal form keeps the words of the question, in order. */
  lemma NormalizeKeepsWords(question: string)
    ensures Words(Normalize(question)) == Words(Strip(question))
  {
    WordsOfJoin(Words(Strip(question)));
  }

  /** Normalising twice is normalising once. */
  lemma NormalizeIdempotent(question: string)
    ensures Normalize(Normalize(question)) == Normalize(question)
  {
    var n := Normalize(question);
    StripNoop(n);
    NormalizeKeepsWords(question);
  }

  /** The store id of a question: the session id, `_` and the hash of the normal form. */
  function EntryId(sessionId: string, question: string, hash: string -> string): (id: string)
    ensures StartsWith(id, sessionId + "_")
    ensures id[|sessionId| + 1..] == hash(Normalize(question))
  {
    sessionId + "_" + hash(Normalize(question))
  }

  /** Questions that differ only in surrounding or repeated whitespace get the same id, whatever
      the hash. */
  lemma SameWordsSameId(sessionId: string, q1: string, q2: string, hash: string -> string)
    requires Words(Strip(q1)) == Words(Strip(q2))
    ensures EntryId(sessionId, q1, hash) == EntryId(sessionId, q2, hash)
  {
  }

  /** Storing a normalised question again lands on the id of the original. */
  lemma NormalFormSameId(sessionId: string, question: string, hash: string -> string)
    ensures EntryId(sessionId, Normalize(question), hash) == EntryId(sessionId, question, hash)
  {
    NormalizeIdempotent(question);
  }

  // ---------------------------------------------------------------------------
  // Collections
  // ---------------------------------------------------------------------------

  /** One stored conversation: id, document and the metadata fields other than the time. */
  datatype Entry = Entry(id: string, document: string, sessionId: string, questionHash: string,
                         originalQuestion: string)

  type Collections = map<string, seq<Entry>>

  const CollectionPrefix := "chat_memory_"

  function CollectionName(sessionId: string): (name: string)
    ensures StartsWith(name, CollectionPrefix)
  {
    CollectionPrefix + sessionId
  }

  /** `get_or_create_collection`: `None` without a client, or when listing, creating or getting
      the collection raises (`fails`); otherwise the client with the session's collection
      present (created empty when missing). */
  function GetOrCreate(client: Option<Collections>, sessionId: string, fails: bool): (r: Option<Collections>)
    ensures r.Some? <==> client.Some? && !fails
    ensures r.Some? ==> CollectionName(sessionId) in r.value
    ensures r.Some? ==> forall k :: k in client.value ==> k in r.value && r.value[k] == client.value[k]
    ensures r.Some? ==> r.value.Keys == client.value.Keys + {CollectionName(sessionId)}
    ensures r.Some? && CollectionName(sessionId) !in client.value ==> r.value[CollectionName(sessionId)] == []
  {
    if client.None? || fails then None
    else if CollectionName(sessionId) in client.value then client
    else Some(client.value[CollectionName(sessionId) := []])
  }

  /** What a nearest-neighbour query returns for the first query embedding: the documents,
      their distances (`None` when the result carries none) and, per document, the
      `original_question` metadata field (`None` when it is absent). */
  datatype QueryResult = QueryResult(documents: seq<string>, distances: Option<seq<real>>,
                                     originals: seq<Option<string>>)

  /** The embedding model, the query of a collection's entries for the `n` nearest ones, the
      hash and the rendering of a similarity with two decimals. A failure is `Err`.
      `openFails` says that opening the session's collection raises. */
  datatype Oracles = Oracles(embed: string -> Result<seq<real>, string>,
                             query: (seq<Entry>, seq<real>, nat) -> Result<QueryResult, string>,
                             hash: string -> string,
                             fixed2: real -> string,
                             openFails: bool)

  // ---------------------------------------------------------------------------
  // Saving
  // ---------------------------------------------------------------------------

  const DuplicateDistance: real := 0.2
  const SaveNeighbours: nat := 5

  function QaDocument(question: string, answer: string): string {
    "Q: " + question + "\nA: " + answer
  }

  /** Some distance of a non-empty result is below the duplicate threshold. */
  predicate NearDuplicate(res: QueryResult) {
    res.documents != [] && res.distances.Some?
    && exists i :: 0 <= i < |res.distances.value| && res.distances.value[i] < DuplicateDistance
  }

  /** Some entry of the collection carries the id. */
  predicate HasId(entries: seq<Entry>, id: string) {
    exists k :: 0 <= k < |entries| && entries[k].id == id
  }

  /** Chroma's `add`: an id already in the collection is skipped, any other is appended. */
  function Add(entries: seq<Entry>, e: Entry): (r: seq<Entry>)
    ensures HasId(entries, e.id) ==> r == entries
    ensures !HasId(entries, e.id) ==> r == entries + [e] && HasId(r, e.id)
  {
    if HasId(entries, e.id) then entries
    else
      assert (entries + [e])[|entries|].id == e.id;
      entries + [e]
  }

  /** The collection `name` with `e` added, the others as they were. */
  function Put(c: Collections, name: string, e: Entry): (r: Collections)
    requires name in c
    ensures r.Keys == c.Keys && r[name] == Add(c[name], e)
    ensures forall k :: k in c && k != name ==> r[k] == c[k]
  {
    c[name := Add(c[name], e)]
  }

  /** The entry `save_conversation` adds. */
  function NewEntry(sessionId: string, question: string, answer: string, hash: string -> string): (e: Entry)
    ensures e.id == EntryId(sessionId, question, hash)
    ensures e.document == QaDocument(Normalize(question), answer)
    ensures e.originalQuestion == question
  {
    var n := Normalize(question);
    Entry(sessionId + "_" + hash(n), QaDocument(n, answer), sessionId, hash(n), question)
  }

  /** `save_conversation`: the collections afterwards (`None` without a client). The session's
      collection is opened first, and when that raises nothing is saved; a failed embedding or
      query, or a near duplicate among the five nearest entries, leaves the opened collection
      at that; otherwise the new entry is added. */
  function SaveConversation(client: Option<Collections>, sessionId: string, question: string,
                            answer: string, o: Oracles): (r: Option<Collections>)
    ensures r.Some? <==> client.Some?
    ensures o.openFails ==> r == client
    ensures r.Some? ==> forall k :: k in client.value && k != CollectionName(sessionId) ==>
                          k in r.value && r.value[k] == client.value[k]
    ensures r.Some? && !o.openFails ==> r.value.Keys == client.value.Keys + {CollectionName(sessionId)}
  {
    var c := GetOrCreate(client, sessionId, o.openFails);
    if c.None? then client
    else
      var name := CollectionName(sessionId);
      var entries := c.value[name];
      var emb := o.embed(Normalize(question));
      if emb.Err? then c
      else
        var res := o.query(entries, emb.value, SaveNeighbours);
        if res.Err? || NearDuplicate(res.value) then c
        else Some(Put(c.value, name, NewEntry(sessionId, question, answer, o.hash)))
  }

  /** The session's entries as the save finds them once the collection is open: none when it
      is new. */
  function Before(client: Collections, sessionId: string): seq<Entry> {
    if CollectionName(sessionId) in client then client[CollectionName(sessionId)] else []
  }

  /** The query the save asks, on the session's collection as it stands after opening. */
  function SaveQuery(client: Collections, sessionId: string, question: string, o: Oracles): Result<QueryResult, string>
  {
    var entries := Before(client, sessionId);
    var emb := o.embed(Normalize(question));
    if emb.Err? then Err(emb.error) else o.query(entries, emb.value, SaveNeighbours)
  }

  /** The save adds its entry exactly when the collection opens, the query succeeds without a
      near duplicate and the id is new; the collection then ends with that entry. When opening
      raises the store is untouched; otherwise the collection holds what it held (empty if it
      was just created). */
  lemma SaveDecision(client: Collections, sessionId: string, question: string, answer: string, o: Oracles)
    ensures var name := CollectionName(sessionId);
            var before := Before(client, sessionId);
            var after := SaveConversation(Some(client), sessionId, question, answer, o).value;
            var res := SaveQuery(client, sessionId, question, o);
            var e := NewEntry(sessionId, question, answer, o.hash);
            (name in after && after[name] == before + [e] <==>
               !o.openFails && res.Ok? && !NearDuplicate(res.value) && !HasId(before, e.id))
            && (o.openFails ==> after == client)
            && (!o.openFails && after[name] != before + [e] ==> after == client[name := before])
  {
    var name := CollectionName(sessionId);
    var before := Before(client, sessionId);
    var res := SaveQuery(client, sessionId, question, o);
    var e := NewEntry(sessionId, question, answer, o.hash);
    SaveUnfold(client, sessionId, question, answer, o);
    var after := SaveConversation(Some(client), sessionId, question, answer, o).value;
    if o.openFails {
      if name in client {
        assert |client[name]| != |before + [e]|;
      }
    } else {
      assert GetOrCreate(Some(client), sessionId, false).value == client[name := before];
      if res.Err? || NearDuplicate(res.value) {
        assert after[name] == before;
        assert |after[name]| != |before + [e]|;
      } else {
        assert after[name] == Add(before, e);
        if HasId(before, e.id) {
          assert |after[name]| != |before + [e]|;
        }
      }
    }
  }

  /** The save in terms of its query: the store untouched when opening raises; otherwise the
      opened collections, with the new entry added unless the query fails or finds a near
      duplicate. */
  lemma SaveUnfold(client: Collections, sessionId: string, question: string, answer: string, o: Oracles)
    ensures var c := client[CollectionName(sessionId) := Before(client, sessionId)];
            var res := SaveQuery(client, sessionId, question, o);
            SaveConversation(Some(client), sessionId, question, answer, o)
              == if o.openFails then Some(client)
                 else if res.Err? || NearDuplicate(res.value) then Some(c)
                 else Some(Put(c, CollectionName(sessionId), NewEntry(sessionId, question, answer, o.hash)))
  {
    var name := CollectionName(sessionId);
    if !o.openFails && name in client {
      assert client[name := client[name]] == client;
    }
  }

  /** Any distance below 0.2 in a non-empty result stops the save: at most the empty
      collection is created. */
  lemma DuplicateNotSaved(client: Collections, sessionId: string, question: string, answer: string, o: Oracles)
    requires SaveQuery(client, sessionId, question, o).Ok?
    requires NearDuplicate(SaveQuery(client, sessionId, question, o).value)
    ensures var r := SaveConversation(Some(client), sessionId, question, answer, o).value;
            (forall k :: k in client ==> k in r && r[k] == client[k])
            && (forall k :: k in r && k !in client ==> k == CollectionName(sessionId) && r[k] == [])
  {
    SaveUnfold(client, sessionId, question, answer, o);
  }

  /** Once a question is stored, saving it again, or a whitespace variant of it, changes
      nothing: the id is already taken. */
  lemma ResaveKeepsOne(client: Collections, sessionId: string, q1: string, q2: string, answer: string, o: Oracles, k: nat)
    requires Words(Strip(q1)) == Words(Strip(q2))
    requires CollectionName(sessionId) in client
    requires k < |client[CollectionName(sessionId)]|
    requires client[CollectionName(sessionId)][k].id == EntryId(sessionId, q1, o.hash)
    ensures SaveConversation(Some(client), sessionId, q2, answer, o) == Some(client)
  {
    SameWordsSameId(sessionId, q1, q2, o.hash);
    SaveKnownId(client, sessionId, q2, answer, o, k);
  }

  /** Saving a question whose id the session's collection already holds changes nothing. */
  lemma SaveKnownId(client: Collections, sessionId: string, question: string, answer: string, o: Oracles, k: nat)
    requires CollectionName(sessionId) in client
    requires k < |client[CollectionName(sessionId)]|
    requires client[CollectionName(sessionId)][k].id == EntryId(sessionId, question, o.hash)
    ensures SaveConversation(Some(client), sessionId, question, answer, o) == Some(client)
  {
    var name := CollectionName(sessionId);
    var e := NewEntry(sessionId, question, answer, o.hash);
    assert HasId(client[name], e.id) by {
      assert client[name][k].id == e.id;
    }
    assert client[name := client[name]] == client;
    assert Put(client, name, e) == client;
    SaveUnfold(client, sessionId, question, answer, o);
  }

  // ---------------------------------------------------------------------------
  // Retrieval
  // ---------------------------------------------------------------------------

  const NoHistory := "이전 대화 없음"
  const KeepSimilarity: real := 0.4
  const DefaultNeighbours: nat := 3

  /** The label and document of the conversation at rank `idx`, with the original question
      shown when it is non-empty and differs from the normalised query. */
  function Labelled(idx: nat, sim: string, original: string, query: string, doc: string): (s: string)
    ensures StartsWith(s, "[관련 대화 " + NatToString(idx + 1) + " (유사도: " + sim)
    ensures EndsWith(s, ")]\n" + doc)
  {
    var head := "[관련 대화 " + NatToString(idx + 1) + " (유사도: " + sim;
    var s := if original != "" && original != query then head + ", 원본: '" + original + "'" + ")]\n" + doc
             else head + ")]\n" + doc;
    assert s[..|head|] == head;
    assert s[|s| - |")]\n" + doc|..] == ")]\n" + doc;
    s
  }

  /** The distance of rank `idx`: 1.0 when the result has no distances, `None` where the
      source's index would raise. */
  function DistanceAt(res: QueryResult, idx: nat): Option<real> {
    if res.distances.None? then Some(1.0)
    else if idx < |res.distances.value| then Some(res.distances.value[idx])
    else None
  }

  /** The conversations from rank `idx` on, in rank order; `None` where the source raises. */
  function Conversations(res: QueryResult, query: string, fixed2: real -> string, idx: nat): (r: Option<seq<string>>)
    requires idx <= |res.documents|
    ensures r.Some? ==> |r.value| <= |res.documents| - idx
    ensures r.Some? ==> forall k :: 0 <= k < |r.value| ==> StartsWith(r.value[k], "[관련 대화 ")
    decreases |res.documents| - idx
  {
    if idx == |res.documents| then Some([])
    else
      var d := DistanceAt(res, idx);
      if d.None? then None
      else
        var sim := 1.0 - d.value;
        if sim < KeepSimilarity then Conversations(res, query, fixed2, idx + 1)
        else if idx >= |res.originals| then None
        else
          var original := res.originals[idx].GetOr("");
          var line := Labelled(idx, fixed2(sim), original, query, res.documents[idx]);
          var rest := Conversations(res, query, fixed2, idx + 1);
          if rest.None? then None
          else
            assert StartsWith(line, "[관련 대화 ") by {
              assert line[..|"[관련 대화 "|] == ("[관련 대화 " + NatToString(idx + 1) + " (유사도: " + fixed2(sim))[..|"[관련 대화 "|];
            }
            Some([line] + rest.value)
  }

  /** A rank passes the filter when its similarity `1 - distance` is at least 0.4. */
  predicate Kept(res: QueryResult, idx: nat) {
    var d := DistanceAt(res, idx);
    d.Some? && 1.0 - d.value >= KeepSimilarity
  }

  /** The ranks where formatting raises: a missing distance, or a kept rank without metadata. */
  predicate Raises(res: QueryResult, idx: nat) {
    DistanceAt(res, idx).None? || (Kept(res, idx) && idx >= |res.originals|)
  }

  /** The formatting succeeds exactly when no rank raises, and then yields one conversation
      per kept rank. */
  lemma {:induction false} ConversationsExact(res: QueryResult, query: string, fixed2: real -> string, idx: nat)
    requires idx <= |res.documents|
    ensures var r := Conversations(res, query, fixed2, idx);
            (r.Some? <==> forall i :: idx <= i < |res.documents| ==> !Raises(res, i))
            && (r.Some? ==> (r.value != [] <==> exists i :: idx <= i < |res.documents| && Kept(res, i)))
    decreases |res.documents| - idx
  {
    if idx < |res.documents| {
      ConversationsExact(res, query, fixed2, idx + 1);
      var r := Conversations(res, query, fixed2, idx);
      var rest := Conversations(res, query, fixed2, idx + 1);
      if Raises(res, idx) {
        assert r.None?;
      } else if !Kept(res, idx) {
        assert r == rest;
      } else {
        assert r.Some? <==> rest.Some?;
        assert r.Some? ==> r.value != [];
      }
      if exists i :: idx <= i < |res.documents| && Kept(res, i) {
        var i :| idx <= i < |res.documents| && Kept(res, i);
        if i > idx {
          assert idx + 1 <= i;
        }
      }
      if exists i :: idx <= i < |res.documents| && Raises(res, i) {
        var i :| idx <= i < |res.documents| && Raises(res, i);
        if i > idx {
          assert idx + 1 <= i;
        }
      }
    }
  }

  /** `get_relevant_conversations`: the text and the collections afterwards (retrieval creates
      the session's collection too). Every failure gives the sentinel. */
  function GetRelevant(client: Option<Collections>, sessionId: string, query: string, topK: nat,
                       o: Oracles): (r: (string, Option<Collections>))
    ensures client.None? || o.openFails ==> r == (NoHistory, client)
    ensures client.Some? && !o.openFails ==> r.1 == GetOrCreate(client, sessionId, false)
    ensures r.0 != NoHistory ==> StartsWith(r.0, "[관련 대화 ")
  {
    var c := GetOrCreate(client, sessionId, o.openFails);
    if c.None? then (NoHistory, client)
    else
      var n := Normalize(query);
      var emb := o.embed(n);
      if emb.Err? then (NoHistory, c)
      else
        var res := o.query(c.value[CollectionName(sessionId)], emb.value, topK);
        if res.Err? || res.value.documents == [] then (NoHistory, c)
        else
          var convs := Conversations(res.value, n, o.fixed2, 0);
          if convs.None? || convs.value == [] then (NoHistory, c)
          else
            JoinStartsWith(convs.value, "[관련 대화 ", "\n\n");
            (Join(convs.value, "\n\n"), c)
  }

  /** A join of parts that all start with `p` starts with `p`. */
  lemma JoinStartsWith(parts: seq<string>, p: string, sep: string)
    requires parts != [] && StartsWith(parts[0], p)
    ensures StartsWith(Join(parts, sep), p)
  {
    if |parts| > 1 {
      assert Join(parts, sep) == parts[0] + (sep + Join(parts[1..], sep));
      assert (parts[0] + (sep + Join(parts[1..], sep)))[..|p|] == parts[0][..|p|];
    }
  }

  /** With a client, the sentinel comes back exactly when opening the collection, the
      embedding or the query fails, nothing was found, some rank raises, or no rank reaches
      similarity 0.4. */
  lemma SentinelIff(client: Collections, sessionId: string, query: string, topK: nat, o: Oracles)
    ensures var emb := o.embed(Normalize(query));
            var res := if emb.Err? then Err("") else o.query(Before(client, sessionId), emb.value, topK);
            GetRelevant(Some(client), sessionId, query, topK, o).0 == NoHistory
            <==> o.openFails || res.Err? || res.value.documents == []
                 || (exists i :: 0 <= i < |res.value.documents| && Raises(res.value, i))
                 || (forall i :: 0 <= i < |res.value.documents| ==> !Kept(res.value, i))
  {
    var emb := o.embed(Normalize(query));
    if emb.Ok? && !o.openFails {
      var res := o.query(Before(client, sessionId), emb.value, topK);
      if res.Ok? && res.value.documents != [] {
        ConversationsExact(res.value, Normalize(query), o.fixed2, 0);
        SentinelFromConversations(client, sessionId, query, topK, o);
      }
    }
  }

  /** Once the query has found documents, the sentinel comes back exactly when formatting
      raises or keeps nothing. */
  lemma SentinelFromConversations(client: Collections, sessionId: string, query: string, topK: nat, o: Oracles)
    requires !o.openFails && o.embed(Normalize(query)).Ok?
    requires o.query(Before(client, sessionId), o.embed(Normalize(query)).value, topK).Ok?
    requires o.query(Before(client, sessionId), o.embed(Normalize(query)).value, topK).value.documents != []
    ensures var res := o.query(Before(client, sessionId), o.embed(Normalize(query)).value, topK).value;
            var convs := Conversations(res, Normalize(query), o.fixed2, 0);
            GetRelevant(Some(client), sessionId, query, topK, o).0 == NoHistory <==> convs.None? || convs.value == []
  {
    var res := o.query(Before(client, sessionId), o.embed(Normalize(query)).value, topK).value;
    var convs := Conversations(res, Normalize(query), o.fixed2, 0);
    if convs.Some? && convs.value != [] {
      JoinStartsWith(convs.value, "[관련 대화 ", "\n\n");
      assert NoHistory[0] != '[';
    }
  }

  /** A result without distances counts every rank as similarity 0, so nothing is kept. */
  lemma NoDistancesNothingKept(res: QueryResult, idx: nat)
    requires res.distances.None?
    ensures !Kept(res, idx)
  {
  }

  /** Ranks keep their own numbers: with the first rank filtered out and the second kept, the
      text starts with conversation 2. */
  lemma RankGapExample(fixed2: real -> string)
    ensures var res := QueryResult(["a", "b"], Some([0.9, 0.1]), [None, Some("q")]);
            Conversations(res, "q", fixed2, 0) == Some([Labelled(1, fixed2(0.9), "q", "q", "b")])
  {
    var res := QueryResult(["a", "b"], Some([0.9, 0.1]), [None, Some("q")]);
    assert Conversations(res, "q", fixed2, 2) == Some([]);
    assert res.originals[1].GetOr("") == "q" && 1.0 - 0.1 == 0.9;
    var line := Labelled(1, fixed2(0.9), "q", "q", "b");
    assert [line] + [] == [line];
    assert DistanceAt(res, 1) == Some(0.1);
    assert Conversations(res, "q", fixed2, 1) == Some([Labelled(1, fixed2(0.9), "q", "q", "b")]);
    assert DistanceAt(res, 0) == Some(0.9);
  }

  /** The original question is shown only when it is non-empty and not the normalised query. */
  lemma OriginalShownIff(idx: nat, sim: string, original: string, query: string, doc: string)
    ensures var s := Labelled(idx, sim, original, query, doc);
            var head := "[관련 대화 " + NatToString(idx + 1) + " (유사도: " + sim;
            (original != "" && original != query ==> s == head + ", 원본: '" + original + "')]\n" + doc)
            && (original == "" || original == query ==> s == head + ")]\n" + doc)
  {
  }

  // ---------------------------------------------------------------------------
  // Reset
  // ---------------------------------------------------------------------------

  const ResetPrefix := "memory_"

  /** What the store answers during a reset: the names `list_collections` returns (`None` when
      it raises) and which names `delete_collection` raises on. */
  datatype ResetCalls = ResetCalls(listing: Option<seq<string>>, deleteFails: string -> bool)

  /** `if session_id:` — a session id that is given and not empty. */
  predicate Given(sessionId: Option<string>) {
    sessionId.Some? && sessionId.value != ""
  }

  /** No listed name under the prefix makes `delete_collection` raise. */
  predicate NoneFails(names: seq<string>, prefix: string, fails: string -> bool) {
    forall i :: 0 <= i < |names| && StartsWith(names[i], prefix) ==> !fails(names[i])
  }

  /** The loop over the listed collections: each one under the prefix is deleted in turn, and
      the first delete that raises ends the loop with `False`, earlier deletions kept. */
  function DeleteListed(c: Collections, names: seq<string>, prefix: string, fails: string -> bool): (r: (bool, Collections))
    ensures r.1.Keys <= c.Keys
    ensures forall k :: k in c && !(k in names && StartsWith(k, prefix)) ==> k in r.1 && r.1[k] == c[k]
    ensures r.0 <==> NoneFails(names, prefix, fails)
    ensures r.0 ==> forall k :: k in names && StartsWith(k, prefix) ==> k !in r.1
    decreases |names|
  {
    if names == [] then (true, c)
    else
      var rest := DeleteListed(if StartsWith(names[0], prefix) then c - {names[0]} else c, names[1..], prefix, fails);
      if StartsWith(names[0], prefix) && fails(names[0]) then (false, c)
      else
        assert NoneFails(names, prefix, fails) <==> NoneFails(names[1..], prefix, fails) by {
          if NoneFails(names[1..], prefix, fails) {
            forall i | 0 <= i < |names| && StartsWith(names[i], prefix) ensures !fails(names[i]) {
              if i > 0 { assert names[i] == names[1..][i - 1]; }
            }
          }
        }
        rest
  }

  /** `reset_memory` with the collection prefix as a parameter. With a session id it deletes
      `<prefix><id>`, a failing delete only reported; without one it lists the collections and
      deletes each one under the prefix. Any other raise answers `False`. `None` as the second
      component means there is no client. */
  function ResetWith(client: Option<Collections>, sessionId: Option<string>, prefix: string, calls: ResetCalls)
    : (r: (bool, Option<Collections>))
    ensures r.0 <==> client.Some? && (Given(sessionId)
                       || (calls.listing.Some? && NoneFails(calls.listing.value, prefix, calls.deleteFails)))
    ensures r.1.Some? <==> client.Some?
    ensures client.Some? ==> r.1.value.Keys <= client.value.Keys
    ensures client.Some? ==> forall k :: k in client.value && !StartsWith(k, prefix) ==>
              k in r.1.value && r.1.value[k] == client.value[k]
    ensures client.Some? && Given(sessionId) ==>
              var n := prefix + sessionId.value;
              (n !in r.1.value <==> n !in client.value || !calls.deleteFails(n))
              && forall k :: k in client.value && k != n ==> k in r.1.value && r.1.value[k] == client.value[k]
    ensures client.Some? && !Given(sessionId) && r.0 ==>
              forall k :: k in calls.listing.value && StartsWith(k, prefix) ==> k !in r.1.value
  {
    if client.None? then (false, None)
    else if Given(sessionId) then
      var n := prefix + sessionId.value;
      (true, Some(if calls.deleteFails(n) then client.value else client.value - {n}))
    else if calls.listing.None? then (false, Some(client.value))
    else
      var (ok, c) := DeleteListed(client.value, calls.listing.value, prefix, calls.deleteFails);
      (ok, Some(c))
  }

  /** `reset_memory` as written: the names it deletes start with `memory_`. */
  function ResetMemory(client: Option<Collections>, sessionId: Option<string>, calls: ResetCalls): (r: (bool, Option<Collections>))
    ensures r.0 <==> client.Some? && (Given(sessionId)
                       || (calls.listing.Some? && NoneFails(calls.listing.value, ResetPrefix, calls.deleteFails)))
    ensures r.1.Some? <==> client.Some?
    ensures client.Some? ==> r.1.value.Keys <= client.value.Keys
  {
    ResetWith(client, sessionId, ResetPrefix, calls)
  }

  /** No name the memory creates starts with `memory_`. */
  lemma PrefixesDisjoint(name: string)
    requires StartsWith(name, CollectionPrefix)
    ensures !StartsWith(name, ResetPrefix)
  {
    assert name[0] == 'c';
  }

  /** As written, a reset never deletes a conversation collection, with or without a session
      id and whatever the store answers: every session's history survives it. */
  lemma ResetMissesMemory(client: Collections, sessionId: Option<string>, calls: ResetCalls, sid: string)
    requires CollectionName(sid) in client
    ensures var r := ResetMemory(Some(client), sessionId, calls).1.value;
            CollectionName(sid) in r && r[CollectionName(sid)] == client[CollectionName(sid)]
  {
    PrefixesDisjoint(CollectionName(sid));
  }

  /** A conversation saved into a fresh store is still found there after resetting its session,
      and the reset reports success. */
  lemma ResetThenStillStored(sessionId: string, question: string, answer: string, o: Oracles, calls: ResetCalls)
    requires sessionId != ""
    ensures var saved := SaveConversation(Some(map[]), sessionId, question, answer, o).value;
            var reset := ResetMemory(Some(saved), Some(sessionId), calls);
            reset.0 && (CollectionName(sessionId) in saved <==> !o.openFails)
            && (CollectionName(sessionId) in saved ==>
                  CollectionName(sessionId) in reset.1.value
                  && reset.1.value[CollectionName(sessionId)] == saved[CollectionName(sessionId)])
  {
    var saved := SaveConversation(Some(map[]), sessionId, question, answer, o).value;
    if CollectionName(sessionId) in saved {
      ResetMissesMemory(saved, Some(sessionId), calls, sessionId);
    }
  }

  /** The intended reset: the same names the memory creates, `chat_memory_<id>` or every
      `chat_memory_` collection. */
  function ResetMemoryFixed(client: Option<Collections>, sessionId: Option<string>, calls: ResetCalls)
    : (r: (bool, Option<Collections>))
    ensures r.0 <==> client.Some? && (Given(sessionId)
                       || (calls.listing.Some? && NoneFails(calls.listing.value, CollectionPrefix, calls.deleteFails)))
    ensures r.1.Some? <==> client.Some?
    ensures client.Some? ==> r.1.value.Keys <= client.value.Keys
  {
    ResetWith(client, sessionId, CollectionPrefix, calls)
  }

  /** After the intended reset of a session its collection is gone unless the delete failed,
      and every other collection is kept. After a successful reset of all sessions, with the
      listing naming every collection, no conversation collection is left; every other
      collection is kept either way. */
  lemma ResetFixedClears(client: Collections, sessionId: Option<string>, calls: ResetCalls)
    ensures var r := ResetMemoryFixed(Some(client), sessionId, calls);
            (Given(sessionId) ==>
               var n := CollectionName(sessionId.value);
               r.0 && (!calls.deleteFails(n) ==> n !in r.1.value)
               && forall k :: k in client && k != n ==> k in r.1.value && r.1.value[k] == client[k])
            && (!Given(sessionId) && r.0 && (forall k :: k in client ==> k in calls.listing.value) ==>
               forall k :: k in r.1.value ==> !StartsWith(k, CollectionPrefix))
            && forall k :: k in client && !StartsWith(k, CollectionPrefix) ==> k in r.1.value && r.1.value[k] == client[k]
  {
    var r := ResetWith(Some(client), sessionId, CollectionPrefix, calls);
  }

  /** After the intended reset of a session whose delete succeeds, retrieval for the session
      queries a new, empty collection whenever it can open one. */
  lemma ResetFixedForgets(client: Collections, sessionId: string, calls: ResetCalls, fails: bool)
    requires sessionId != ""
    ensures var r := ResetMemoryFixed(Some(client), Some(sessionId), calls).1;
            var g := GetOrCreate(r, sessionId, fails);
            (g.Some? <==> !fails)
            && (g.Some? && !calls.deleteFails(CollectionName(sessionId)) ==> g.value[CollectionName(sessionId)] == [])
  {
  }

  /** A reset of all sessions whose listing raises, or whose delete of a listed collection under
      the prefix raises, answers `False`. */
  lemma ResetAllFailures(client: Collections, calls: ResetCalls, i: nat)
    requires calls.listing.None? || (i < |calls.listing.value| && StartsWith(calls.listing.value[i], ResetPrefix)
                                     && calls.deleteFails(calls.listing.value[i]))
    ensures !ResetMemory(Some(client), None, calls).0
  {
  }
}

=== FILE: chunks.dfy ===
/** The chunk tuple every chunker emits, and the pieces the chunkers share: the
    complexity-dependent window budget and the conversion of token windows to chunks. */
module Chunks {
  import opened Wrappers
  import opened TokenWindows

  /** The ten positions of a chunk tuple:
      (text, token start, token end, function name, class name or title, start line,
       end line, parent, complexity, inheritance). The markdown chunker puts the code
      language in the function-name position and the title in the class-name position. */
  datatype Chunk = Chunk(text: string, tokStart: nat, tokEnd: nat,
                         funcName: Option<string>, className: Option<string>,
                         startLine: Option<int>, endLine: Option<int>,
                         parent: Option<string>, complexity: int, inheritance: Option<string>)

  /** The fields a chunker repeats on every chunk of one entity. */
  datatype Tag = Tag(funcName: Option<string>, className: Option<string>, parent: Option<string>,
                     complexity: int, inheritance: Option<string>)

  function Mk(text: string, tokStart: nat, tokEnd: nat, tag: Tag, startLine: Option<int>, endLine: Option<int>): Chunk {
    Chunk(text, tokStart, tokEnd, tag.funcName, tag.className, startLine, endLine,
          tag.parent, tag.complexity, tag.inheritance)
  }

  predicate HasTag(c: Chunk, tag: Tag) {
    c.funcName == tag.funcName && c.className == tag.className && c.parent == tag.parent
    && c.complexity == tag.complexity && c.inheritance == tag.inheritance
  }

  /** One chunk per token window, all carrying `tag` and the given line range. */
  function FromWindows(ws: seq<Window>, tag: Tag, startLine: Option<int>, endLine: Option<int>): (cs: seq<Chunk>)
    ensures |cs| == |ws|
    ensures forall k :: 0 <= k < |cs| ==>
              cs[k].text == ws[k].text && cs[k].tokStart == ws[k].start && cs[k].tokEnd == ws[k].end
              && HasTag(cs[k], tag) && cs[k].startLine == startLine && cs[k].endLine == endLine
  {
    seq(|ws|, k requires 0 <= k < |ws| => Mk(ws[k].text, ws[k].start, ws[k].end, tag, startLine, endLine))
  }

  /** The token windows a run of chunks was cut from: each chunk's text and token range. */
  function AsWindows(cs: seq<Chunk>): (ws: seq<Window>)
    ensures |ws| == |cs|
    ensures forall k :: 0 <= k < |ws| ==> ws[k] == Window(cs[k].text, cs[k].tokStart, cs[k].tokEnd)
  {
    seq(|cs|, k requires 0 <= k < |cs| => Window(cs[k].text, cs[k].tokStart, cs[k].tokEnd))
  }

  /** Chunks made from windows give those windows back. */
  lemma FromWindowsAsWindows(ws: seq<Window>, tag: Tag, startLine: Option<int>, endLine: Option<int>)
    ensures AsWindows(FromWindows(ws, tag, startLine, endLine)) == ws
  {
    var back := AsWindows(FromWindows(ws, tag, startLine, endLine));
    assert forall k :: 0 <= k < |ws| ==> back[k] == ws[k];
  }

  /** The chunks of a window run cover the token list: there are some exactly when there are
      tokens; each holds the decoding of its own range of at most `maxTokens` tokens; the
      first starts at token 0 and the last ends at the last token; each next one re-reads
      exactly `overlap` tokens of the previous one; stitching their ranges gives the list back. */
  lemma WindowChunksCover(ids: seq<int>, decode: seq<int> -> string, maxTokens: nat, overlap: nat,
                          tag: Tag, startLine: Option<int>, endLine: Option<int>)
    requires overlap < maxTokens
    ensures var tail := FromWindows(Windows(ids, decode, maxTokens, overlap), tag, startLine, endLine);
            && (|tail| == 0 <==> |ids| == 0)
            && (forall k :: 0 <= k < |tail| ==>
                  tail[k].tokStart < tail[k].tokEnd <= |ids| && tail[k].tokEnd - tail[k].tokStart <= maxTokens
                  && tail[k].text == decode(ids[tail[k].tokStart..tail[k].tokEnd])
                  && tail[k].startLine == startLine && tail[k].endLine == endLine)
            && (|tail| > 0 ==> tail[0].tokStart == 0 && tail[|tail| - 1].tokEnd == |ids|)
            && (forall k :: 0 <= k < |tail| - 1 ==> tail[k + 1].tokStart + overlap == tail[k].tokEnd)
            && Stitch(ids, AsWindows(tail), overlap) == ids
  {
    var ws := Windows(ids, decode, maxTokens, overlap);
    FromWindowsAsWindows(ws, tag, startLine, endLine);
    WindowsTile(ids, decode, maxTokens, overlap);
    WindowsStitch(ids, decode, maxTokens, overlap);
  }

  /** The variable window size of the Python and JavaScript chunkers:
      `min(512, 128 + 32c)` tokens with `min(128, 32 + 8c)` tokens of overlap. */
  function Budget(complexity: nat): (b: (nat, nat))
    ensures 128 <= b.0 <= 512 && 32 <= b.1 <= 128
    ensures b.1 < b.0 && b.1 / 2 < b.0 / 2
    ensures complexity >= 12 ==> b == (512, 128)
  {
    (TokenWindows.Min(512, 128 + complexity * 32), TokenWindows.Min(128, 32 + complexity * 8))
  }
}

=== FILE: dir_tree.dfy ===
/** The directory tree both analyzers render: a nested dictionary whose keys are `📁 name`
    for directories and `📄 name` for files, a file mapping to `None` and a directory to its
    own dictionary. Rendering visits each dictionary in sorted key order and indents every
    level by two spaces.

    A dictionary is kept here as its entries in ascending key order, which is the order
    `sorted(node.items())` visits them; assignment to a key inserts at its place. */
module DirTree {
  import opened Wrappers
  import opened Text

  // ---------------------------------------------------------------------------
  // Python's order on strings
  // ---------------------------------------------------------------------------

  /** `a < b` on `str`: lexicographic by code point, a proper prefix first. */
  predicate Less(a: string, b: string)
    decreases |a|
  {
    if |a| == 0 then |b| > 0
    else if |b| == 0 then false
    else a[0] < b[0] || (a[0] == b[0] && Less(a[1..], b[1..]))
  }

  lemma {:induction false} LessIrreflexive(a: string)
    ensures !Less(a, a)
    decreases |a|
  {
    if |a| > 0 {
      LessIrreflexive(a[1..]);
    }
  }

  lemma {:induction false} LessTransitive(a: string, b: string, c: string)
    requires Less(a, b) && Less(b, c)
    ensures Less(a, c)
    decreases |a|
  {
    if |a| > 0 && a[0] == b[0] && b[0] == c[0] {
      LessTransitive(a[1..], b[1..], c[1..]);
    }
  }

  lemma {:induction false} LessTotal(a: string, b: string)
    ensures a == b || Less(a, b) || Less(b, a)
    decreases |a|
  {
    if |a| > 0 && |b| > 0 && a[0] == b[0] {
      LessTotal(a[1..], b[1..]);
      if a[1..] == b[1..] {
        assert a == [a[0]] + a[1..] && b == [b[0]] + b[1..];
      }
    }
  }

  // ---------------------------------------------------------------------------
  // Trees
  // ---------------------------------------------------------------------------

  /** A dictionary of the tree; a `None` entry is a file, a `Some` entry a directory. */
  datatype Tree = Tree(entries: seq<Entry>)
  datatype Entry = Entry(key: string, sub: Option<Tree>)

  const Empty := Tree([])

  function FileKey(name: string): string {
    "\U{1F4C4} " + name
  }

  function DirKey(name: string): string {
    "\U{1F4C1} " + name
  }

  predicate Sorted(es: seq<Entry>) {
    forall i, j :: 0 <= i < j < |es| ==> Less(es[i].key, es[j].key)
  }

  /** Every dictionary of the tree is sorted, so no key occurs twice in one dictionary. */
  predicate WellFormed(t: Tree)
    decreases t, 1
  {
    Sorted(t.entries) && AllWellFormed(t.entries)
  }

  predicate AllWellFormed(es: seq<Entry>)
    decreases es, 0
  {
    forall i :: 0 <= i < |es| ==> (es[i].sub.Some? ==> WellFormed(es[i].sub.value))
  }

  /** `node.get(key)` with `Some(v)` for a present key. */
  function Lookup(es: seq<Entry>, key: string): (r: Option<Option<Tree>>)
    ensures r.None? <==> forall i :: 0 <= i < |es| ==> es[i].key != key
    ensures r.Some? ==> exists i :: 0 <= i < |es| && es[i] == Entry(key, r.value)
  {
    if |es| == 0 then None
    else if es[0].key == key then Some(es[0].sub)
    else
      var r := Lookup(es[1..], key);
      assert forall i :: 1 <= i < |es| ==> es[i] == es[1..][i - 1];
      r
  }

  /** `node[key] = sub`: the key now maps to `sub`, every other key keeps its value, and the
      entries stay sorted. */
  function Set(es: seq<Entry>, key: string, sub: Option<Tree>): (r: seq<Entry>)
    requires Sorted(es)
    ensures Sorted(r)
    ensures forall i :: 0 <= i < |r| ==> r[i] == Entry(key, sub) || r[i] in es
    ensures Lookup(r, key) == Some(sub)
    ensures forall k :: k != key ==> Lookup(r, k) == Lookup(es, k)
  {
    if |es| == 0 then [Entry(key, sub)]
    else if es[0].key == key then
      SortedKeysDiffer(es, key);
      [Entry(key, sub)] + es[1..]
    else if Less(key, es[0].key) then
      SortedPrepend(es, Entry(key, sub));
      [Entry(key, sub)] + es
    else
      LessTotal(key, es[0].key);
      var rest := Set(es[1..], key, sub);
      SetStepSorted(es, key, sub, rest);
      SetStepLookup(es, key, sub, rest);
      [es[0]] + rest
  }

  /** The recursive case of `Set` keeps the entries sorted: the first key is below every key
      of the updated tail. */
  lemma SetStepSorted(es: seq<Entry>, key: string, sub: Option<Tree>, rest: seq<Entry>)
    requires Sorted(es) && |es| > 0 && Less(es[0].key, key)
    requires Sorted(rest) && forall i :: 0 <= i < |rest| ==> rest[i] == Entry(key, sub) || rest[i] in es[1..]
    ensures Sorted([es[0]] + rest)
    ensures forall i :: 0 <= i < |[es[0]] + rest| ==> ([es[0]] + rest)[i] == Entry(key, sub) || ([es[0]] + rest)[i] in es
  {
    forall i | 0 <= i < |rest| ensures Less(es[0].key, rest[i].key) {
      if rest[i] != Entry(key, sub) {
        var j :| 0 <= j < |es[1..]| && es[1..][j] == rest[i];
        assert es[j + 1] == rest[i];
      }
    }
    var r := [es[0]] + rest;
    forall i | 0 <= i < |r| ensures r[i] == Entry(key, sub) || r[i] in es {
      if i > 0 && r[i] != Entry(key, sub) {
        assert r[i] == rest[i - 1];
        var j :| 0 <= j < |es[1..]| && es[1..][j] == rest[i - 1];
        assert es[j + 1] == r[i];
      }
    }
  }

  /** The recursive case of `Set` answers lookups as the updated tail does, except for the
      first key, which is not the one set. */
  lemma SetStepLookup(es: seq<Entry>, key: string, sub: Option<Tree>, rest: seq<Entry>)
    requires |es| > 0 && es[0].key != key
    requires Lookup(rest, key) == Some(sub) && forall k :: k != key ==> Lookup(rest, k) == Lookup(es[1..], k)
    ensures Lookup([es[0]] + rest, key) == Some(sub)
    ensures forall k :: k != key ==> Lookup([es[0]] + rest, k) == Lookup(es, k)
  {
    var r := [es[0]] + rest;
    assert r[0] == es[0] && r[1..] == rest;
  }

  lemma SortedKeysDiffer(es: seq<Entry>, key: string)
    requires Sorted(es) && |es| > 0 && es[0].key == key
    ensures forall i :: 1 <= i < |es| ==> es[i].key != key
  {
    forall i | 1 <= i < |es| ensures es[i].key != key {
      LessIrreflexive(key);
    }
  }

  lemma SortedPrepend(es: seq<Entry>, e: Entry)
    requires Sorted(es) && |es| > 0 && Less(e.key, es[0].key)
    ensures Sorted([e] + es)
  {
    forall i | 1 <= i < |es| ensures Less(e.key, es[i].key) {
      LessTransitive(e.key, es[0].key, es[i].key);
    }
  }

  // ---------------------------------------------------------------------------
  // Rendering
  // ---------------------------------------------------------------------------

  /** `traverse(node, prefix)`: each entry as `prefix + key`, a directory followed by its own
      entries one indentation level deeper. */
  function Render(t: Tree, prefix: string): (lines: seq<string>)
    decreases t, 1
  {
    RenderEntries(t.entries, prefix)
  }

  function RenderEntries(es: seq<Entry>, prefix: string): (lines: seq<string>)
    decreases es, 0
  {
    if |es| == 0 then []
    else
      [prefix + es[0].key]
      + (if es[0].sub.Some? then Render(es[0].sub.value, prefix + "  ") else [])
      + RenderEntries(es[1..], prefix)
  }

  /** The rendered text: the lines joined by newlines. */
  function TreeText(t: Tree): string {
    Join(Render(t, ""), "\n")
  }

  /** Every key of the tree is a non-empty string that does not start with a space. */
  predicate Marked(t: Tree)
    decreases t, 1
  {
    AllMarked(t.entries)
  }

  predicate AllMarked(es: seq<Entry>)
    decreases es, 0
  {
    forall i :: 0 <= i < |es| ==> |es[i].key| > 0 && es[i].key[0] != ' '
                                  && (es[i].sub.Some? ==> Marked(es[i].sub.value))
  }

  /** The lines that sit at the indentation `prefix` itself. */
  function AtLevel(lines: seq<string>, prefix: string): seq<string> {
    if |lines| == 0 then []
    else (if |lines[0]| > |prefix| && lines[0][|prefix|] != ' ' then [lines[0]] else [])
         + AtLevel(lines[1..], prefix)
  }

  lemma {:induction false} AtLevelAppend(a: seq<string>, b: seq<string>, prefix: string)
    ensures AtLevel(a + b, prefix) == AtLevel(a, prefix) + AtLevel(b, prefix)
    decreases |a|
  {
    if |a| > 0 {
      assert (a + b)[0] == a[0] && (a + b)[1..] == a[1..] + b;
      AtLevelAppend(a[1..], b, prefix);
    } else {
      assert a + b == b;
    }
  }

  /** Lines that all carry two more spaces of indentation are not at this level. */
  lemma {:induction false} AtLevelDeeper(lines: seq<string>, prefix: string)
    requires forall i :: 0 <= i < |lines| ==> StartsWith(lines[i], prefix + "  ")
    ensures AtLevel(lines, prefix) == []
    decreases |lines|
  {
    if |lines| > 0 {
      assert lines[0][|prefix|] == (prefix + "  ")[|prefix|];
      AtLevelDeeper(lines[1..], prefix);
    }
  }

  /** Every rendered line starts with the prefix it was rendered at. */
  lemma {:induction false} RenderPrefix(t: Tree, prefix: string)
    ensures forall i :: 0 <= i < |Render(t, prefix)| ==> StartsWith(Render(t, prefix)[i], prefix)
    decreases t, 1
  {
    RenderEntriesPrefix(t.entries, prefix);
  }

  lemma {:induction false} RenderEntriesPrefix(es: seq<Entry>, prefix: string)
    ensures forall i :: 0 <= i < |RenderEntries(es, prefix)| ==> StartsWith(RenderEntries(es, prefix)[i], prefix)
    decreases es, 0
  {
    if |es| > 0 {
      var head := [prefix + es[0].key];
      var kids := if es[0].sub.Some? then Render(es[0].sub.value, prefix + "  ") else [];
      if es[0].sub.Some? {
        RenderPrefix(es[0].sub.value, prefix + "  ");
      }
      RenderEntriesPrefix(es[1..], prefix);
      var all := head + kids + RenderEntries(es[1..], prefix);
      assert RenderEntries(es, prefix) == all;
      forall i | 0 <= i < |all| ensures StartsWith(all[i], prefix) {
        if i == 0 {
        } else if i < 1 + |kids| {
          assert all[i] == kids[i - 1];
          assert (prefix + "  ")[..|prefix|] == prefix;
        } else {
          assert all[i] == RenderEntries(es[1..], prefix)[i - 1 - |kids|];
        }
      }
    }
  }

  /** The lines at the top indentation are exactly the keys of the top dictionary, in its
      order: children always follow their directory, indented further. */
  lemma {:induction false} RenderLevel(t: Tree, prefix: string)
    requires Marked(t)
    ensures AtLevel(Render(t, prefix), prefix) == seq(|t.entries|, i requires 0 <= i < |t.entries| => prefix + t.entries[i].key)
  {
    RenderEntriesLevel(t.entries, prefix);
  }

  lemma {:induction false} RenderEntriesLevel(es: seq<Entry>, prefix: string)
    requires AllMarked(es)
    ensures AtLevel(RenderEntries(es, prefix), prefix) == seq(|es|, i requires 0 <= i < |es| => prefix + es[i].key)
    decreases |es|
  {
    if |es| > 0 {
      var head := [prefix + es[0].key];
      var kids := if es[0].sub.Some? then Render(es[0].sub.value, prefix + "  ") else [];
      var rest := RenderEntries(es[1..], prefix);
      assert RenderEntries(es, prefix) == head + kids + rest;
      AtLevelAppend(head + kids, rest, prefix);
      AtLevelAppend(head, kids, prefix);
      if es[0].sub.Some? {
        RenderPrefix(es[0].sub.value, prefix + "  ");
      }
      AtLevelDeeper(kids, prefix);
      assert (prefix + es[0].key)[|prefix|] == es[0].key[0];
      assert AtLevel(head, prefix) == head;
      assert AllMarked(es[1..]) by {
        forall i | 0 <= i < |es[1..]| ensures es[1..][i] == es[i + 1] { }
      }
      RenderEntriesLevel(es[1..], prefix);
    }
  }

  /** The top-level lines appear in strictly ascending key order. */
  lemma RenderSortedLevel(t: Tree)
    requires Marked(t) && WellFormed(t)
    ensures var top := AtLevel(Render(t, ""), "");
            forall i, j :: 0 <= i < j < |top| ==> Less(top[i], top[j])
  {
    RenderLevel(t, "");
    assert forall i :: 0 <= i < |t.entries| ==> "" + t.entries[i].key == t.entries[i].key;
  }

  // ---------------------------------------------------------------------------
  // Building from a flat list of paths
  // ---------------------------------------------------------------------------

  /** The key a path's last segment gets: a file key for a blob, a directory key otherwise. */
  function LeafKey(name: string, blob: bool): string {
    if blob then FileKey(name) else DirKey(name)
  }

  /** The directory `key` of `es`, or an empty one when the key is absent. */
  function SubDir(es: seq<Entry>, key: string): Tree {
    var cur := Lookup(es, key);
    if cur.Some? && cur.value.Some? then cur.value.value else Empty
  }

  /** Place one path in the tree: intermediate segments become directories, created when
      missing and reused otherwise; the last segment becomes a file (`None`) for a blob and
      an empty directory for anything else, replacing what was there. */
  function Insert(t: Tree, parts: seq<string>, blob: bool): (r: Tree)
    requires |parts| >= 1 && WellFormed(t)
    ensures WellFormed(r)
    decreases |parts|
  {
    if |parts| == 1 then
      var r := Tree(Set(t.entries, LeafKey(parts[0], blob), if blob then None else Some(Empty)));
      SetWellFormed(t.entries, LeafKey(parts[0], blob), if blob then None else Some(Empty));
      r
    else
      var key := DirKey(parts[0]);
      var sub := SubDir(t.entries, key);
      SubDirWellFormed(t, key);
      var inner := Insert(sub, parts[1..], blob);
      SetWellFormed(t.entries, key, Some(inner));
      Tree(Set(t.entries, key, Some(inner)))
  }

  lemma SubDirWellFormed(t: Tree, key: string)
    requires WellFormed(t)
    ensures WellFormed(SubDir(t.entries, key))
  {
  }

  lemma SetWellFormed(es: seq<Entry>, key: string, sub: Option<Tree>)
    requires Sorted(es) && AllWellFormed(es)
    requires sub.Some? ==> WellFormed(sub.value)
    ensures AllWellFormed(Set(es, key, sub))
  {
    var r := Set(es, key, sub);
    forall i | 0 <= i < |r| && r[i].sub.Some? ensures WellFormed(r[i].sub.value) {
      if r[i] != Entry(key, sub) {
        var j :| 0 <= j < |es| && es[j] == r[i];
      }
    }
  }

  /** The path is in the tree: every intermediate segment is a directory and the last is a
      file (for a blob) or a directory. */
  predicate Present(t: Tree, parts: seq<string>, blob: bool)
    requires |parts| >= 1
    decreases |parts|
  {
    if |parts| == 1 then
      var cur := Lookup(t.entries, LeafKey(parts[0], blob));
      cur.Some? && (blob <==> cur.value.None?)
    else
      var cur := Lookup(t.entries, DirKey(parts[0]));
      cur.Some? && cur.value.Some? && Present(cur.value.value, parts[1..], blob)
  }

  /** An inserted path is present afterwards, and a non-blob leaf is an empty directory. */
  lemma {:induction false} InsertPresent(t: Tree, parts: seq<string>, blob: bool)
    requires |parts| >= 1 && WellFormed(t)
    ensures Present(Insert(t, parts, blob), parts, blob)
    decreases |parts|
  {
    if |parts| > 1 {
      SubDirWellFormed(t, DirKey(parts[0]));
      InsertPresent(SubDir(t.entries, DirKey(parts[0])), parts[1..], blob);
    }
  }

  lemma FileDirKeysDiffer(a: string, b: string)
    ensures FileKey(a) != DirKey(b)
  {
    assert FileKey(a)[0] != DirKey(b)[0];
  }

  lemma DirKeyInjective(a: string, b: string)
    requires DirKey(a) == DirKey(b)
    ensures a == b
  {
    assert a == DirKey(a)[2..];
  }

  /** Inserting a blob removes nothing: every path present before is present afterwards. */
  lemma {:induction false} InsertBlobKeeps(t: Tree, parts: seq<string>, q: seq<string>, b: bool)
    requires |parts| >= 1 && |q| >= 1 && WellFormed(t)
    requires Present(t, q, b)
    ensures Present(Insert(t, parts, true), q, b)
    decreases |parts|
  {
    var r := Insert(t, parts, true);
    if |parts| == 1 {
      if |q| == 1 {
        if LeafKey(q[0], b) != FileKey(parts[0]) {
          assert Lookup(r.entries, LeafKey(q[0], b)) == Lookup(t.entries, LeafKey(q[0], b));
        }
      } else {
        FileDirKeysDiffer(parts[0], q[0]);
        assert Lookup(r.entries, DirKey(q[0])) == Lookup(t.entries, DirKey(q[0]));
      }
    } else {
      var key := DirKey(parts[0]);
      SubDirWellFormed(t, key);
      if |q| == 1 {
        if LeafKey(q[0], b) != key {
          assert Lookup(r.entries, LeafKey(q[0], b)) == Lookup(t.entries, LeafKey(q[0], b));
        } else if b {
          FileDirKeysDiffer(q[0], parts[0]);
        }
      } else if DirKey(q[0]) == key {
        DirKeyInjective(q[0], parts[0]);
        InsertBlobKeeps(SubDir(t.entries, key), parts[1..], q[1..], b);
      } else {
        assert Lookup(r.entries, DirKey(q[0])) == Lookup(t.entries, DirKey(q[0]));
      }
    }
  }
}

=== FILE: embedder.dfy ===
/** The storage side of `process_and_embed`: each file is chunked by its extension, every chunk
    tuple is cut or padded to seven positions, and each chunk becomes one vector-store record
    with the id `{path}_{index}` and flat metadata.

    The embedding call and the role-tagging call are oracles that may fail (`None`). */
module Embedder {
  import opened Wrappers
  import opened Text
  import opened TokenWindows
  import opened Chunks
  import PyChunker
  import MdChunker
  import JsChunker

  // ---------------------------------------------------------------------------
  // Tuples of positions
  // ---------------------------------------------------------------------------

  /** One position of a chunk tuple. */
  datatype Field = FNone | FStr(s: string) | FInt(i: int)

  function OptStr(o: Option<string>): Field {
    if o.Some? then FStr(o.value) else FNone
  }

  function OptInt(o: Option<int>): Field {
    if o.Some? then FInt(o.value) else FNone
  }

  /** The ten-position tuple of a structural chunk. */
  function AsTuple(c: Chunk): (t: seq<Field>)
    ensures |t| == 10
  {
    [FStr(c.text), FInt(c.tokStart), FInt(c.tokEnd), OptStr(c.funcName), OptStr(c.className),
     OptInt(c.startLine), OptInt(c.endLine), OptStr(c.parent), FInt(c.complexity), OptStr(c.inheritance)]
  }

  /** Cut a tuple to its first seven positions, padding with `None` when it is shorter. */
  function Normalize7(t: seq<Field>): (r: seq<Field>)
    ensures |r| == 7
    ensures forall k :: 0 <= k < 7 && k < |t| ==> r[k] == t[k]
    ensures forall k :: |t| <= k < 7 ==> r[k] == FNone
  {
    if |t| == 7 then t
    else if |t| > 7 then t[..7]
    else t + seq(7 - |t|, _ => FNone)
  }

  /** Normalising twice is normalising once. */
  lemma Normalize7Idempotent(t: seq<Field>)
    ensures Normalize7(Normalize7(t)) == Normalize7(t)
  {
  }

  /** A structural chunk keeps text, token range, the two name positions and the line range;
      parent, complexity and inheritance are cut off. */
  lemma NormalizeChunk(c: Chunk)
    ensures Normalize7(AsTuple(c)) == [FStr(c.text), FInt(c.tokStart), FInt(c.tokEnd),
              OptStr(c.funcName), OptStr(c.className), OptInt(c.startLine), OptInt(c.endLine)]
  {
  }

  /** The positions hold what the storage step expects: text, then integers or `None`, then
      names or `None`, then integers or `None`. */
  predicate WellTyped(t: seq<Field>) {
    && |t| == 7 && t[0].FStr?
    && !t[1].FStr? && !t[2].FStr?
    && !t[3].FInt? && !t[4].FInt?
    && !t[5].FStr? && !t[6].FStr?
  }

  lemma ChunkTupleWellTyped(c: Chunk)
    ensures WellTyped(Normalize7(AsTuple(c)))
  {
    NormalizeChunk(c);
  }

  // ---------------------------------------------------------------------------
  // Dispatch on the extension
  // ---------------------------------------------------------------------------

  /** Everything the chunkers take from outside: the tokenizer and the parsers. */
  datatype Oracles = Oracles(encode: string -> seq<int>, decode: seq<int> -> string,
                             parsePython: string -> Option<seq<PyChunker.Stmt>>,
                             mdSections: string -> seq<MdChunker.Marker>,
                             mdCodes: string -> seq<MdChunker.Marker>,
                             jsPatterns: JsChunker.Patterns)

  /** The parser only reports definitions that lie within the source's lines. */
  predicate ParserPlaces(o: Oracles, content: string) {
    var p := o.parsePython(content);
    p.Some? ==> forall i :: 0 <= i < |p.value| ==> PyChunker.WellPlaced(p.value[i], |SplitLines(content)|)
  }

  /** The seven-position tuples of one file, chosen by its lower-cased extension: `.py`,
      `.md` and `.js` go to their chunkers; anything else becomes 256-token windows tagged with
      start line 1 and the file's line count. */
  function FileTuples(path: string, content: string, o: Oracles): (ts: seq<seq<Field>>)
    requires ParserPlaces(o, content)
    ensures forall k :: 0 <= k < |ts| ==> |ts[k]| == 7
    ensures var ext := Lower(SplitExt(path));
            && (ext == ".py" ==> TuplesOf(ts, PyChunker.ChunkPython(content, o.parsePython(content), o.encode, o.decode)))
            && (ext == ".md" ==> TuplesOf(ts, MdChunker.ChunkMarkdown(content, o.mdSections(content), o.mdCodes(content), o.encode, o.decode)))
            && (ext == ".js" ==> TuplesOf(ts, JsChunker.ChunkJs(content, o.jsPatterns, o.encode, o.decode)))
            && (ext !in {".py", ".md", ".js"} ==>
                  var ws := Windows(o.encode(content), o.decode, 256, 64);
                  |ts| == |ws|
                  && forall k :: 0 <= k < |ts| ==>
                       ts[k] == [FStr(ws[k].text), FInt(ws[k].start), FInt(ws[k].end), FNone, FNone,
                                 FInt(1), FInt(|SplitLines(content)|)])
  {
    var ext := Lower(SplitExt(path));
    if ext in {".py", ".md", ".js"} then
      var cs := StructuralChunks(ext, content, o);
      var ts := NormalizeAll(ChunkTuples(cs));
      assert TuplesOf(ts, cs);
      ts
    else
      var ws := Windows(o.encode(content), o.decode, 256, 64);
      NormalizeAll(PlainTuples(ws, |SplitLines(content)|))
  }

  /** Every tuple cut or padded to seven positions. */
  function NormalizeAll(raw: seq<seq<Field>>): (ts: seq<seq<Field>>)
    ensures |ts| == |raw|
    ensures forall k :: 0 <= k < |ts| ==> ts[k] == Normalize7(raw[k])
  {
    seq(|raw|, k requires 0 <= k < |raw| => Normalize7(raw[k]))
  }

  /** The tuples are the chunks', each cut or padded to seven positions. */
  predicate TuplesOf(ts: seq<seq<Field>>, cs: seq<Chunk>) {
    |ts| == |cs| && forall k :: 0 <= k < |ts| ==> ts[k] == Normalize7(AsTuple(cs[k]))
  }

  /** The chunks of the chunker an extension selects. */
  function StructuralChunks(ext: string, content: string, o: Oracles): seq<Chunk>
    requires ParserPlaces(o, content)
  {
    if ext == ".py" then PyChunker.ChunkPython(content, o.parsePython(content), o.encode, o.decode)
    else if ext == ".md" then MdChunker.ChunkMarkdown(content, o.mdSections(content), o.mdCodes(content), o.encode, o.decode)
    else JsChunker.ChunkJs(content, o.jsPatterns, o.encode, o.decode)
  }

  function ChunkTuples(cs: seq<Chunk>): (ts: seq<seq<Field>>)
    ensures |ts| == |cs|
    ensures forall k :: 0 <= k < |ts| ==> ts[k] == AsTuple(cs[k])
  {
    seq(|cs|, k requires 0 <= k < |cs| => AsTuple(cs[k]))
  }

  function PlainTuples(ws: seq<Window>, nLines: nat): (ts: seq<seq<Field>>)
    ensures |ts| == |ws|
    ensures forall k :: 0 <= k < |ts| ==> |ts[k]| == 7
  {
    seq(|ws|, k requires 0 <= k < |ws| => [FStr(ws[k].text), FInt(ws[k].start), FInt(ws[k].end), FNone, FNone, FInt(1), FInt(nLines)])
  }

  predicate AllWellTyped(ts: seq<seq<Field>>) {
    forall k :: 0 <= k < |ts| ==> WellTyped(Normalize7(ts[k]))
  }

  lemma ChunkTuplesWellTyped(cs: seq<Chunk>)
    ensures AllWellTyped(ChunkTuples(cs))
  {
    forall k | 0 <= k < |cs| ensures WellTyped(Normalize7(ChunkTuples(cs)[k])) {
      ChunkTupleWellTyped(cs[k]);
    }
  }

  /** Whatever the extension, every tuple reaching the storage step is well typed. */
  lemma FileTuplesWellTyped(path: string, content: string, o: Oracles)
    requires ParserPlaces(o, content)
    ensures forall k :: 0 <= k < |FileTuples(path, content, o)| ==> WellTyped(FileTuples(path, content, o)[k])
  {
    var ext := Lower(SplitExt(path));
    if ext in {".py", ".md", ".js"} {
      ChunkTuplesWellTyped(StructuralChunks(ext, content, o));
    } else {
      PlainTuplesWellTyped(Windows(o.encode(content), o.decode, 256, 64), |SplitLines(content)|);
    }
  }

  lemma PlainTuplesWellTyped(ws: seq<Window>, nLines: nat)
    ensures AllWellTyped(PlainTuples(ws, nLines))
  {
  }

  // ---------------------------------------------------------------------------
  // Records
  // ---------------------------------------------------------------------------

  /** Python truthiness of a position. */
  predicate Truthy(f: Field) {
    match f
    case FNone => false
    case FStr(s) => s != ""
    case FInt(i) => i != 0
  }

  /** The chunk type from the function-name and class-name positions. */
  function ChunkType(funcName: Field, className: Field): (t: string)
    ensures t == "class" <==> Truthy(className) && !Truthy(funcName)
    ensures t == "method" <==> Truthy(className) && Truthy(funcName)
    ensures t == "function" <==> !Truthy(className) && Truthy(funcName)
    ensures t == "code" <==> !Truthy(className) && !Truthy(funcName)
  {
    if Truthy(className) && !Truthy(funcName) then "class"
    else if Truthy(className) && Truthy(funcName) then "method"
    else if Truthy(funcName) && !Truthy(className) then "function"
    else "code"
  }

  /** Markdown chunks always carry a title in the class position: plain text and sections are
      filed as classes, code blocks with a language as methods. */
  lemma MarkdownChunkTypes(c: Chunk, titles: set<string>)
    requires MdChunker.MdChunk(c, titles) && c.className.value != ""
    ensures var t := Normalize7(AsTuple(c));
            ChunkType(t[3], t[4]) == (if c.funcName.Some? && c.funcName.value != "" then "method" else "class")
  {
    NormalizeChunk(c);
  }

  /** The file fields a record copies (`file.get(...)`). */
  datatype FileInfo = FileInfo(path: string, fileName: Option<string>, fileType: Option<string>,
                               sha: Option<string>, sourceUrl: Option<string>)

  datatype Meta = Meta(path: string, fileName: string, fileType: string, sha: string, sourceUrl: string,
                       chunkIndex: nat, functionName: string, className: string,
                       startLine: int, endLine: int, tokenStart: int, tokenEnd: int,
                       roleTag: string, chunkType: string, complexity: int,
                       parentEntity: string, inheritance: string)

  datatype Record = Record(id: string, embedding: seq<real>, document: string, meta: Meta)

  /** `x or ''` for a name position. */
  function NameOr(f: Field): string {
    if f.FStr? then f.s else ""
  }

  /** `x if x is not None else -1` for a number position. */
  function IntOr(f: Field): int {
    if f.FInt? then f.i else -1
  }

  const EmbeddingWidth := 1536

  /** A failed embedding call stores a zero vector of the model's width. */
  function Embedding(result: Option<seq<real>>): (v: seq<real>)
    ensures result.Some? ==> v == result.value
    ensures result.None? ==> |v| == EmbeddingWidth && forall k :: 0 <= k < |v| ==> v[k] == 0.0
  {
    if result.Some? then result.value else seq(EmbeddingWidth, _ => 0.0)
  }

  /** A failed role-tagging call stores an empty tag; a successful one is stripped. */
  function RoleTag(answer: Option<string>): string {
    if answer.Some? then Strip(answer.value) else ""
  }

  function RecordId(path: string, index: nat): string {
    path + "_" + NatToString(index)
  }

  /** The record of the chunk at `index` of a file. The stored complexity is always 1: the
      tuple no longer holds the chunker's complexity, and the local default 0 falls back to 1.
      Parent entity and inheritance are always empty for the same reason. */
  function MakeRecord(file: FileInfo, index: nat, t: seq<Field>, embedding: Option<seq<real>>, tag: Option<string>): (r: Record)
    requires WellTyped(t)
    ensures r.id == RecordId(file.path, index) && r.document == t[0].s
    ensures r.meta.complexity == 1 && r.meta.parentEntity == "" && r.meta.inheritance == ""
    ensures r.meta.chunkType == ChunkType(t[3], t[4])
    ensures r.meta.startLine == (if t[5].FInt? then t[5].i else -1)
  {
    Record(RecordId(file.path, index), Embedding(embedding), t[0].s,
           Meta(file.path, file.fileName.GetOr(""), file.fileType.GetOr(""), file.sha.GetOr(""), file.sourceUrl.GetOr(""),
                index, NameOr(t[3]), NameOr(t[4]), IntOr(t[5]), IntOr(t[6]), IntOr(t[1]), IntOr(t[2]),
                RoleTag(tag), ChunkType(t[3], t[4]), 1, "", ""))
  }

  lemma {:induction false} LastUnderscore(p: string, digits: string)
    requires forall i :: 0 <= i < |digits| ==> IsDigit(digits[i])
    ensures LastIndexOf(p + "_" + digits, '_') == |p|
    decreases |digits|
  {
    var s := p + "_" + digits;
    if digits == [] {
      assert s[|s| - 1] == '_';
    } else {
      var d := digits[..|digits| - 1];
      assert s[|s| - 1] == digits[|digits| - 1];
      assert s[..|s| - 1] == p + "_" + d;
      LastUnderscore(p, d);
    }
  }

  /** A text ending in an underscore and digits splits there in one way only. */
  lemma SplitAtLastUnderscore(p1: string, d1: string, p2: string, d2: string)
    requires forall i :: 0 <= i < |d1| ==> IsDigit(d1[i])
    requires forall i :: 0 <= i < |d2| ==> IsDigit(d2[i])
    requires p1 + "_" + d1 == p2 + "_" + d2
    ensures p1 == p2 && d1 == d2
  {
    var id := p1 + "_" + d1;
    LastUnderscore(p1, d1);
    LastUnderscore(p2, d2);
    assert id == p1 + ("_" + d1) && id == p2 + ("_" + d2);
    assert p1 == id[..|p1|] == p2;
    assert d1 == id[|p1| + 1..] == d2;
  }

  /** The index is the digits after the last underscore of an id, so an id determines its
      path and index. */
  lemma RecordIdInjective(p1: string, i1: nat, p2: string, i2: nat)
    requires RecordId(p1, i1) == RecordId(p2, i2)
    ensures p1 == p2 && i1 == i2
  {
    SplitAtLastUnderscore(p1, NatToString(i1), p2, NatToString(i2));
    NatToStringInjective(i1, i2);
  }
}

=== FILE: fetcher.dfy ===
/** The pure parts of the repository fetcher: mapping a GitHub API response to its JSON or to
    an error record, the constructor's URL check and defaults, the file-type field, the
    directory tree read through the contents API, and the line edit that stores a token. */
module Fetcher {
  import opened Wrappers
  import opened Text
  import RepoUrl
  import DirTree

  // ---------------------------------------------------------------------------
  // API responses
  // ---------------------------------------------------------------------------

  /** An HTTP response: its status, its body text and its decoded JSON. */
  datatype Response<J> = Response(status: int, text: string, json: J)

  /** `create_error_response`: the `error: True` record. */
  datatype ApiError = ApiError(message: string, statusCode: int)

  const RateLimitText := "GitHub API 호출 제한에 도달했습니다. 잠시 후 다시 시도해주세요."
  const NotFoundPrefix := "파일을 찾을 수 없습니다: "
  const NotFoundText := "요청한 리소스를 찾을 수 없습니다."
  const PrivateText := "비공개 저장소에 접근하려면 GitHub 토큰이 필요합니다."
  const ApiErrorPrefix := "GitHub API 오류: "

  /** `handle_github_response`: 403, 404 and 401 have their own messages, any other status but
      200 quotes the body, and 200 yields the JSON. A 404 names the path when one was given. */
  function HandleGithubResponse<J>(resp: Response<J>, path: string): (r: Result<J, ApiError>)
    ensures r.Ok? <==> resp.status == 200
    ensures r.Ok? ==> r.value == resp.json
    ensures r.Err? ==> r.error.statusCode == resp.status
    ensures resp.status == 404 ==> r.error.message == (if path != "" then NotFoundPrefix + path else NotFoundText)
    ensures r.Err? && resp.status !in {401, 403, 404} ==> r.error.message == ApiErrorPrefix + resp.text
  {
    if resp.status == 403 then Err(ApiError(RateLimitText, 403))
    else if resp.status == 404 then
      Err(ApiError(if path != "" then NotFoundPrefix + path else NotFoundText, 404))
    else if resp.status == 401 then Err(ApiError(PrivateText, 401))
    else if resp.status != 200 then Err(ApiError(ApiErrorPrefix + resp.text, resp.status))
    else Ok(resp.json)
  }

  /** The whole status table: 403 is the rate limit, 404 the missing file (named when a path
      is given) or resource, 401 the private repository, any other status but 200 the generic
      error quoting the body, and 200 the decoded JSON. */
  lemma StatusTable<J>(resp: Response<J>, path: string)
    ensures resp.status == 403 ==> HandleGithubResponse(resp, path) == Err(ApiError(RateLimitText, 403))
    ensures resp.status == 404 && path != "" ==> HandleGithubResponse(resp, path) == Err(ApiError(NotFoundPrefix + path, 404))
    ensures resp.status == 404 && path == "" ==> HandleGithubResponse(resp, path) == Err(ApiError(NotFoundText, 404))
    ensures resp.status == 401 ==> HandleGithubResponse(resp, path) == Err(ApiError(PrivateText, 401))
    ensures resp.status !in {200, 401, 403, 404} ==>
              HandleGithubResponse(resp, path) == Err(ApiError(ApiErrorPrefix + resp.text, resp.status))
    ensures resp.status == 200 ==> HandleGithubResponse(resp, path) == Ok(resp.json)
  {
  }

  /** The message alone tells a caller which named error it got: two equal messages come from
      the same status whenever either is 401, 403 or 404, whatever the paths and bodies. */
  lemma MessageNamesStatus<J>(a: Response<J>, pa: string, b: Response<J>, pb: string)
    requires HandleGithubResponse(a, pa).Err? && HandleGithubResponse(b, pb).Err?
    requires HandleGithubResponse(a, pa).error.message == HandleGithubResponse(b, pb).error.message
    requires a.status in {401, 403, 404} || b.status in {401, 403, 404}
    ensures a.status == b.status
  {
    if a.status != b.status {
      MessageClass(a, pa);
      MessageClass(b, pb);
    }
  }

  /** The statuses as the messages group them: 0 for every unnamed error status. */
  function Class(status: int): nat {
    if status == 403 then 1 else if status == 404 then 2 else if status == 401 then 3 else 0
  }

  /** Each class of message is told apart by its first or its twelfth character. */
  lemma MessageClass<J>(resp: Response<J>, path: string)
    requires HandleGithubResponse(resp, path).Err?
    ensures var m := HandleGithubResponse(resp, path).error.message;
            |m| > 11
            && (Class(resp.status) == 0 ==> m[0] == 'G' && m[11] == '오')
            && (Class(resp.status) == 1 ==> m[0] == 'G' && m[11] == '호')
            && (Class(resp.status) == 2 ==> m[0] == '파' || m[0] == '요')
            && (Class(resp.status) == 3 ==> m[0] == '비')
  {
    var m := HandleGithubResponse(resp, path).error.message;
    if Class(resp.status) == 0 {
      assert m[..|ApiErrorPrefix|] == ApiErrorPrefix;
      assert m[0] == ApiErrorPrefix[0] && m[11] == ApiErrorPrefix[11];
    } else if Class(resp.status) == 2 && path != "" {
      assert m[0] == NotFoundPrefix[0];
    }
  }

  // ---------------------------------------------------------------------------
  // Construction
  // ---------------------------------------------------------------------------

  /** What the constructor fixes: owner, repository, optional path, session id, clone path and
      request headers (the authorisation header only with a token). */
  datatype Fetcher = Fetcher(owner: string, repo: string, path: Option<string>, sessionId: string,
                             repoPath: string, headers: seq<(string, string)>)

  const InvalidUrlText := "Invalid GitHub repository URL"

  /** `GitHubRepositoryFetcher(repo_url, token, session_id)`, `Err` where it raises.
      `openError` is the message `get_or_create_collection` raises with, for the collection
      named by the session id (`None` when it succeeds). */
  function NewFetcher(repoUrl: string, token: string, sessionId: string, openError: Option<string>)
    : (r: Result<Fetcher, string>)
    ensures r.Err? <==> !RepoUrl.Accepted(repoUrl) || openError.Some?
    ensures !RepoUrl.Accepted(repoUrl) ==> r == Err(InvalidUrlText)
    ensures RepoUrl.Accepted(repoUrl) && openError.Some? ==> r == Err(openError.value)
    ensures r.Ok? ==> r.value.owner != "" && r.value.repo != ""
    ensures r.Ok? ==> r.value.repoPath == "./repos/" + r.value.sessionId
    ensures r.Ok? && sessionId != "" ==> r.value.sessionId == sessionId
    ensures r.Ok? && sessionId == "" ==> r.value.sessionId == r.value.owner + "_" + r.value.repo
    ensures r.Ok? ==> (r.value.headers == [] <==> token == "")
  {
    var info := RepoUrl.ExtractRepoInfo(repoUrl);
    if info.None? || info.value.owner == "" || info.value.repo == "" then Err(InvalidUrlText)
    else
      var sid := if sessionId != "" then sessionId else info.value.owner + "_" + info.value.repo;
      if openError.Some? then Err(openError.value)
      else Ok(Fetcher(info.value.owner, info.value.repo, info.value.path, sid, "./repos/" + sid,
                      if token != "" then [("Authorization", "token " + token)] else []))
  }

  /** A URL built from an owner and a repository constructs a fetcher for exactly those, with
      the default session id. */
  lemma NewFetcherRoundTrip(owner: string, repo: string, segs: seq<string>)
    requires owner != "" && repo != ""
    requires forall k :: 0 <= k < |RepoUrl.UrlParts(owner, repo, segs)| ==> '/' !in RepoUrl.UrlParts(owner, repo, segs)[k]
    requires RepoUrl.CleanLast(RepoUrl.UrlParts(owner, repo, segs)[|RepoUrl.UrlParts(owner, repo, segs)| - 1])
    ensures var r := NewFetcher(Join(RepoUrl.UrlParts(owner, repo, segs), "/"), "", "", None);
            r.Ok? && r.value.owner == owner && r.value.repo == repo && r.value.sessionId == owner + "_" + repo
  {
    RepoUrl.ExtractRoundTrip(owner, repo, segs);
  }

  // ---------------------------------------------------------------------------
  // File type
  // ---------------------------------------------------------------------------

  /** `file_name.split('.')[-1]` for a non-empty name, `''` otherwise. */
  function FileType(fileName: Option<string>): (t: string)
    ensures '.' !in t
    ensures fileName.Some? && '.' !in fileName.value ==> t == fileName.value
  {
    if fileName.Some? && fileName.value != "" then
      var parts := Split(fileName.value, '.');
      assert '.' !in parts[|parts| - 1];
      if '.' !in fileName.value then
        SplitNoSep(fileName.value, '.');
        parts[|parts| - 1]
      else parts[|parts| - 1]
    else ""
  }

  /** A string without the separator splits into itself. */
  lemma SplitNoSep(s: string, sep: char)
    requires sep !in s
    ensures Split(s, sep) == [s]
  {
    JoinSplit([s], sep);
  }

  /** The type is the text after the last dot. */
  lemma FileTypeOfName(stem: string, ext: string)
    requires '.' !in ext
    ensures FileType(Some(stem + "." + ext)) == ext
  {
    var parts := Split(stem, '.');
    SplitJoin(stem, '.');
    JoinSplit(parts + [ext], '.');
    RepoUrl.JoinSnoc(parts, ext, ".");
  }

  // ---------------------------------------------------------------------------
  // Directory tree through the contents API
  // ---------------------------------------------------------------------------

  /** One entry of a contents listing. */
  datatype ApiItem = ApiItem(name: string, path: string, itemType: string)

  /** `build_tree(path)`: every file of the listing becomes a file key, every directory a
      directory key holding its own listing's tree, other types are skipped; a failed or empty
      listing gives an empty dictionary. `listing` answers the contents request (`None` for an
      error record); `depth` bounds the recursion, which the source leaves to the repository. */
  function BuildTree(listing: string -> Option<seq<ApiItem>>, path: string, depth: nat): (t: DirTree.Tree)
    ensures DirTree.WellFormed(t)
    decreases depth, 0
  {
    if depth == 0 then DirTree.Empty
    else match listing(path)
    case None => DirTree.Empty
    case Some(items) => DirTree.Tree(AddItems(listing, items, [], depth - 1))
  }

  function AddItems(listing: string -> Option<seq<ApiItem>>, items: seq<ApiItem>, es: seq<DirTree.Entry>,
                    depth: nat): (r: seq<DirTree.Entry>)
    requires DirTree.Sorted(es) && DirTree.AllWellFormed(es)
    ensures DirTree.Sorted(r) && DirTree.AllWellFormed(r)
    decreases depth, |items| + 1
  {
    if items == [] then es
    else
      var it := items[0];
      if it.itemType == "file" then
        DirTree.SetWellFormed(es, DirTree.FileKey(it.name), None);
        AddItems(listing, items[1..], DirTree.Set(es, DirTree.FileKey(it.name), None), depth)
      else if it.itemType == "dir" then
        var sub := BuildTree(listing, it.path, depth);
        DirTree.SetWellFormed(es, DirTree.DirKey(it.name), Some(sub));
        AddItems(listing, items[1..], DirTree.Set(es, DirTree.DirKey(it.name), Some(sub)), depth)
      else AddItems(listing, items[1..], es, depth)
  }

  /** A later listing entry never removes the key of an earlier one. */
  lemma {:induction false} AddItemsKeeps(listing: string -> Option<seq<ApiItem>>, items: seq<ApiItem>,
                                         es: seq<DirTree.Entry>, depth: nat, key: string)
    requires DirTree.Sorted(es) && DirTree.AllWellFormed(es)
    requires DirTree.Lookup(es, key).Some?
    ensures DirTree.Lookup(AddItems(listing, items, es, depth), key).Some?
    decreases |items|
  {
    if items != [] {
      var it := items[0];
      if it.itemType == "file" {
        DirTree.SetWellFormed(es, DirTree.FileKey(it.name), None);
        AddItemsKeeps(listing, items[1..], DirTree.Set(es, DirTree.FileKey(it.name), None), depth, key);
      } else if it.itemType == "dir" {
        var sub := BuildTree(listing, it.path, depth);
        DirTree.SetWellFormed(es, DirTree.DirKey(it.name), Some(sub));
        AddItemsKeeps(listing, items[1..], DirTree.Set(es, DirTree.DirKey(it.name), Some(sub)), depth, key);
      } else {
        AddItemsKeeps(listing, items[1..], es, depth, key);
      }
    }
  }

  /** Every file of a listing is in its tree, whatever follows it. */
  lemma {:induction false} AddItemsHasFile(listing: string -> Option<seq<ApiItem>>, items: seq<ApiItem>,
                                           es: seq<DirTree.Entry>, depth: nat, k: nat)
    requires DirTree.Sorted(es) && DirTree.AllWellFormed(es)
    requires k < |items| && items[k].itemType == "file"
    ensures DirTree.Lookup(AddItems(listing, items, es, depth), DirTree.FileKey(items[k].name)).Some?
    decreases |items|
  {
    var it := items[0];
    var es2 := if it.itemType == "file" then DirTree.Set(es, DirTree.FileKey(it.name), None)
               else if it.itemType == "dir" then DirTree.Set(es, DirTree.DirKey(it.name), Some(BuildTree(listing, it.path, depth)))
               else es;
    if it.itemType == "file" {
      DirTree.SetWellFormed(es, DirTree.FileKey(it.name), None);
    } else if it.itemType == "dir" {
      DirTree.SetWellFormed(es, DirTree.DirKey(it.name), Some(BuildTree(listing, it.path, depth)));
    }
    assert AddItems(listing, items, es, depth) == AddItems(listing, items[1..], es2, depth);
    if k == 0 {
      AddItemsKeeps(listing, items[1..], es2, depth, DirTree.FileKey(it.name));
    } else {
      assert items[1..][k - 1] == items[k];
      AddItemsHasFile(listing, items[1..], es2, depth, k - 1);
    }
  }

  /** `generate_directory_structure`: the tree of the root listing, rendered. */
  function DirectoryStructure(listing: string -> Option<seq<ApiItem>>, depth: nat): string {
    DirTree.TreeText(BuildTree(listing, "", depth))
  }

  // ---------------------------------------------------------------------------
  // Storing the token
  // ---------------------------------------------------------------------------

  const TokenKey := "GITHUB_TOKEN"

  /** The line that stores `enc`. */
  function TokenLine(enc: string): string {
    TokenKey + "=" + enc + "\n"
  }

  predicate IsTokenLine(line: string) {
    StartsWith(line, TokenKey + "=")
  }

  /** The first line that stores a token, or `|lines|` when none does. */
  function FirstTokenLine(lines: seq<string>): (i: nat)
    ensures i <= |lines|
    ensures i < |lines| ==> IsTokenLine(lines[i])
    ensures forall j :: 0 <= j < i ==> !IsTokenLine(lines[j])
  {
    if lines == [] then 0
    else if IsTokenLine(lines[0]) then 0
    else 1 + FirstTokenLine(lines[1..])
  }

  /** The line edit of `update_token`: the first token line is replaced, or the new line is
      appended when there is none. `enc` is the encrypted token. */
  function UpdateTokenLines(lines: seq<string>, enc: string): (r: seq<string>)
    ensures var i := FirstTokenLine(lines);
            |r| == (if i < |lines| then |lines| else |lines| + 1)
            && r[i] == TokenLine(enc)
            && forall j :: 0 <= j < |lines| && j != i ==> r[j] == lines[j]
  {
    var i := FirstTokenLine(lines);
    if i < |lines| then lines[i := TokenLine(enc)] else lines + [TokenLine(enc)]
  }

  /** Storing the same encrypted token twice changes nothing the second time. */
  lemma UpdateTokenIdempotent(lines: seq<string>, enc: string)
    ensures UpdateTokenLines(UpdateTokenLines(lines, enc), enc) == UpdateTokenLines(lines, enc)
  {
    var r := UpdateTokenLines(lines, enc);
    var i := FirstTokenLine(lines);
    assert IsTokenLine(TokenLine(enc)) by {
      assert TokenLine(enc)[..|TokenKey + "="|] == TokenKey + "=";
    }
    FirstTokenLineAt(r, i);
  }

  /** The first token line sits where no earlier line stores a token and this one does. */
  lemma {:induction false} FirstTokenLineAt(lines: seq<string>, i: nat)
    requires i < |lines| && IsTokenLine(lines[i])
    requires forall j :: 0 <= j < i ==> !IsTokenLine(lines[j])
    ensures FirstTokenLine(lines) == i
  {
    if i > 0 {
      assert forall j :: 0 <= j < i - 1 ==> lines[1..][j] == lines[j + 1];
      FirstTokenLineAt(lines[1..], i - 1);
    }
  }

  /** After storing, the first token line holds the new token. */
  lemma UpdateTokenStores(lines: seq<string>, enc: string)
    ensures var r := UpdateTokenLines(lines, enc);
            FirstTokenLine(r) < |r| && r[FirstTokenLine(r)] == TokenLine(enc)
  {
    var i := FirstTokenLine(lines);
    assert IsTokenLine(TokenLine(enc)) by {
      assert TokenLine(enc)[..|TokenKey + "="|] == TokenKey + "=";
    }
    FirstTokenLineAt(UpdateTokenLines(lines, enc), i);
  }

  // ---------------------------------------------------------------------------
  // The token file as text
  // ---------------------------------------------------------------------------

  /** `readlines()`: the text cut after every newline, each line keeping its newline; only
      the last line can lack one. */
  function ReadLines(text: string): (lines: seq<string>)
    ensures WellSplit(lines)
    ensures Concat(lines) == text
    decreases |text|
  {
    if text == [] then []
    else
      var k := IndexOfChar(text, '\n');
      if k == -1 then [text]
      else
        var rest := ReadLines(text[k + 1..]);
        assert text == text[..k + 1] + text[k + 1..];
        assert '\n' !in text[..k + 1][..k];
        WellSplitCons(text[..k + 1], rest);
        assert ([text[..k + 1]] + rest)[1..] == rest;
        [text[..k + 1]] + rest
  }

  /** A line ending in its only newline may precede well-split lines. */
  lemma WellSplitCons(l: string, rest: seq<string>)
    requires l != [] && '\n' !in l[..|l| - 1] && l[|l| - 1] == '\n'
    requires WellSplit(rest)
    ensures WellSplit([l] + rest)
  {
    var out := [l] + rest;
    forall j | 0 <= j < |out|
      ensures out[j] != [] && '\n' !in out[j][..|out[j]| - 1]
      ensures j < |out| - 1 ==> out[j][|out[j]| - 1] == '\n'
    {
      if j > 0 {
        assert out[j] == rest[j - 1];
      }
    }
  }

  /** `writelines(lines)`: the lines written one after another, nothing added. */
  function Concat(lines: seq<string>): string {
    if lines == [] then "" else lines[0] + Concat(lines[1..])
  }

  /** Non-empty lines whose only newline is their last character, all but the last ending in
      one. */
  predicate WellSplit(lines: seq<string>) {
    forall j :: 0 <= j < |lines| ==>
      lines[j] != [] && '\n' !in lines[j][..|lines[j]| - 1]
      && (j < |lines| - 1 ==> lines[j][|lines[j]| - 1] == '\n')
  }

  /** Reading back what was written gives the same lines, when they are well split. */
  lemma {:induction false} ReadConcat(lines: seq<string>)
    requires WellSplit(lines)
    ensures ReadLines(Concat(lines)) == lines
  {
    if lines != [] {
      var l := lines[0];
      var text := Concat(lines);
      assert WellSplit(lines[1..]) by {
        forall j | 0 <= j < |lines[1..]| ensures lines[1..][j] == lines[j + 1] { }
      }
      ReadConcat(lines[1..]);
      if l[|l| - 1] == '\n' {
        assert text[..|l|] == l;
        IndexOfCharAt(text, '\n', |l| - 1);
        assert text[|l|..] == Concat(lines[1..]);
      } else {
        assert |lines| == 1;
        assert '\n' !in l;
        assert text == l;
      }
    }
  }

  /** Text-mode reading with universal newlines: `\r\n` and a lone `\r` both arrive as `\n`. */
  function Translate(text: string): (r: string)
    ensures '\r' !in r
    ensures '\r' !in text ==> r == text
    decreases |text|
  {
    if text == [] then []
    else if text[0] == '\r' then "\n" + Translate(if |text| > 1 && text[1] == '\n' then text[2..] else text[1..])
    else [text[0]] + Translate(text[1..])
  }

  predicate NoCr(lines: seq<string>) {
    forall j :: 0 <= j < |lines| ==> '\r' !in lines[j]
  }

  /** A character of a line is a character of the written text. */
  lemma {:induction false} ConcatHas(lines: seq<string>, j: nat, c: char)
    requires j < |lines| && c in lines[j]
    ensures c in Concat(lines)
  {
    if j > 0 {
      ConcatHas(lines[1..], j - 1, c);
    }
  }

  /** `open(".env", 'r').readlines()`: the lines of the translated text, each keeping its
      newline; none holds a carriage return. */
  function ReadFile(text: string): (lines: seq<string>)
    ensures WellSplit(lines) && NoCr(lines)
    ensures Concat(lines) == Translate(text)
  {
    var lines := ReadLines(Translate(text));
    forall j | 0 <= j < |lines| ensures '\r' !in lines[j] {
      if '\r' in lines[j] {
        ConcatHas(lines, j, '\r');
      }
    }
    lines
  }

  /** Lines without carriage returns, written and read back, are the same lines. */
  lemma ReadFileConcat(lines: seq<string>)
    requires WellSplit(lines) && NoCr(lines)
    ensures ReadFile(Concat(lines)) == lines
  {
    if '\r' in Concat(lines) {
      var k :| 0 <= k < |Concat(lines)| && Concat(lines)[k] == '\r';
      ConcatNoCr(lines);
    }
    ReadConcat(lines);
  }

  /** Writing lines without carriage returns writes none. */
  lemma {:induction false} ConcatNoCr(lines: seq<string>)
    requires NoCr(lines)
    ensures '\r' !in Concat(lines)
  {
    if lines != [] {
      assert NoCr(lines[1..]) by {
        forall j | 0 <= j < |lines[1..]| ensures lines[1..][j] == lines[j + 1] { }
      }
      ConcatNoCr(lines[1..]);
    }
  }

  /** The stored token file as the source writes it back (a `\n` is written as itself). */
  function UpdateTokenFile(text: string, enc: string): string {
    Concat(UpdateTokenLines(ReadFile(text), enc))
  }

  /** Text without carriage returns is read exactly as the plain split. */
  lemma ReadFilePlain(text: string)
    requires '\r' !in text
    ensures ReadFile(text) == ReadLines(text)
  {
  }

  /** A final lone carriage return is read as a newline. */
  lemma {:induction false} TranslateFinalCr(s: string)
    requires '\r' !in s
    ensures Translate(s + "\r") == s + "\n"
  {
    if s != [] {
      assert (s + "\r")[1..] == s[1..] + "\r";
      TranslateFinalCr(s[1..]);
      assert [s[0]] + (s[1..] + "\n") == s + "\n";
    } else {
      assert Translate("\r"[1..]) == [];
    }
  }

  /** A one-line file whose line has no newline and stores no token: the token is glued onto
      that line, and a later read finds no token line at all. */
  lemma UnterminatedLosesToken(l: string, enc: string)
    requires l != [] && '\n' !in l && '\r' !in l && '\n' !in enc && '\r' !in enc
    requires !IsTokenLine(l) && !IsTokenLine(l + TokenLine(enc))
    ensures UpdateTokenFile(l, enc) == l + TokenLine(enc)
    ensures ReadFile(UpdateTokenFile(l, enc)) == [l + TokenLine(enc)]
    ensures FirstTokenLine(ReadFile(UpdateTokenFile(l, enc))) == |ReadFile(UpdateTokenFile(l, enc))|
  {
    var t := TokenLine(enc);
    TokenLineShape(enc);
    TokenCharsFrom(enc);
    ReadFilePlain(l);
    OneLine(l);
    assert FirstTokenLine([l]) == 1;
    assert UpdateTokenLines([l], enc) == [l, t];
    assert Concat([l, t]) == l + t by {
      assert Concat([t]) == t;
    }
    var out := l + t;
    assert out[..|out| - 1] == l + t[..|t| - 1];
    ReadFilePlain(out);
    OneLine(out);
    assert FirstTokenLine([out]) == 1;
  }

  /** The glued line of the example file: neither `A=1` nor the line it becomes starts with the
      key, so `UnterminatedLosesToken` applies to it. */
  lemma GluedExample()
    ensures "A=1" + TokenLine("e") == "A=1GITHUB_TOKEN=e\n"
    ensures !IsTokenLine("A=1") && !IsTokenLine("A=1" + TokenLine("e"))
  {
    assert ("A=1" + TokenLine("e"))[0] != (TokenKey + "=")[0];
  }

  /** A one-line file ended by a lone carriage return is read with a newline, so the token line
      is appended on a line of its own and is found again. */
  lemma CarriageReturnKeepsToken(l: string, enc: string)
    requires l != [] && '\n' !in l && '\r' !in l && '\n' !in enc && '\r' !in enc
    requires !IsTokenLine(l)
    ensures UpdateTokenFile(l + "\r", enc) == l + "\n" + TokenLine(enc)
    ensures var back := ReadFile(UpdateTokenFile(l + "\r", enc));
            back == [l + "\n", TokenLine(enc)] && FirstTokenLine(back) == 1
  {
    var a, t := l + "\n", TokenLine(enc);
    TranslateFinalCr(l);
    assert '\r' !in a;
    ReadFilePlain(a);
    assert a[..|a| - 1] == l;
    OneLine(a);
    assert !IsTokenLine(a) by {
      TerminateKeepsKind(l);
    }
    assert FirstTokenLine([a]) == 1;
    assert UpdateTokenLines([a], enc) == [a, t];
    assert Concat([a, t]) == a + t by {
      assert Concat([t]) == t;
    }
    TokenLineIsTokenLine(enc);
    TokenLineShape(enc);
    TokenCharsFrom(enc);
    assert WellSplit([a, t]);
    assert NoCr([a, t]);
    ReadFileConcat([a, t]);
    FirstTokenLineAt([a, t], 1);
  }

  /** `A=1` ended by a carriage return: the file the source writes is `A=1\nGITHUB_TOKEN=e\n`. */
  lemma CarriageExample()
    ensures "A=1" + "\n" + TokenLine("e") == "A=1\nGITHUB_TOKEN=e\n"
    ensures !IsTokenLine("A=1")
  {
    assert "A=1"[0] != (TokenKey + "=")[0];
  }

  /** The token line brings in no carriage return. */
  lemma TokenCharsFrom(enc: string)
    requires '\r' !in enc
    ensures '\r' !in TokenLine(enc)
  {
    assert TokenLine(enc) == (TokenKey + "=") + enc + "\n";
  }

  /** A text whose only newline, if any, is its last character reads as one line. */
  lemma OneLine(l: string)
    requires l != [] && '\n' !in l[..|l| - 1]
    ensures ReadLines(l) == [l]
  {
    var k := IndexOfChar(l, '\n');
    if k != -1 {
      assert k == |l| - 1;
      assert l[..k + 1] == l && l[k + 1..] == [];
    }
  }

  /** The last line with its newline supplied. */
  function Terminate(lines: seq<string>): (r: seq<string>)
    requires WellSplit(lines)
    ensures |r| == |lines| && WellSplit(r)
    ensures r != [] ==> r[|r| - 1][|r[|r| - 1]| - 1] == '\n'
    ensures forall j :: 0 <= j < |lines| ==> r[j] == lines[j] || r[j] == lines[j] + "\n"
  {
    if lines == [] then lines
    else
      var n := |lines| - 1;
      var last := lines[n];
      if last[|last| - 1] == '\n' then lines
      else
        var r := lines[n := last + "\n"];
        assert (last + "\n")[..|last|] == last;
        r
  }

  /** The intended edit: as `UpdateTokenLines`, but an appended token line starts on a line of
      its own. */
  function UpdateTokenLinesFixed(lines: seq<string>, enc: string): seq<string>
    requires WellSplit(lines)
  {
    var i := FirstTokenLine(lines);
    if i < |lines| then lines[i := TokenLine(enc)] else Terminate(lines) + [TokenLine(enc)]
  }

  function UpdateTokenFileFixed(text: string, enc: string): string {
    Concat(UpdateTokenLinesFixed(ReadFile(text), enc))
  }

  /** A newline after a line never makes it a token line. */
  lemma TerminateKeepsKind(l: string)
    ensures IsTokenLine(l + "\n") <==> IsTokenLine(l)
  {
    var p := TokenKey + "=";
    if |l| >= |p| {
      assert (l + "\n")[..|p|] == l[..|p|];
    } else if |l| + 1 >= |p| {
      assert (l + "\n")[|l|] != p[|l|];
    }
  }

  lemma TokenLineIsTokenLine(enc: string)
    ensures IsTokenLine(TokenLine(enc))
  {
    assert TokenLine(enc)[..|TokenKey + "="|] == TokenKey + "=";
  }

  /** The token line is one well-formed line when the token holds no newline. */
  lemma TokenLineShape(enc: string)
    requires '\n' !in enc
    ensures var t := TokenLine(enc); t != [] && '\n' !in t[..|t| - 1] && t[|t| - 1] == '\n'
  {
    var t := TokenLine(enc);
    assert t[..|t| - 1] == TokenKey + "=" + enc;
  }

  /** On lines, the fixed edit keeps them well split, puts the token on the first token line
      and keeps every other line up to a supplied newline. */
  lemma FixedLines(lines: seq<string>, enc: string)
    requires WellSplit(lines) && '\n' !in enc
    ensures var out := UpdateTokenLinesFixed(lines, enc);
            var i := FirstTokenLine(lines);
            WellSplit(out) && |out| >= |lines| && i < |out| && out[i] == TokenLine(enc)
            && FirstTokenLine(out) == i
            && forall j :: 0 <= j < |lines| && j != i ==> out[j] == lines[j] || out[j] == lines[j] + "\n"
  {
    TokenLineIsTokenLine(enc);
    TokenLineShape(enc);
    if FirstTokenLine(lines) < |lines| {
      FixedLinesReplace(lines, enc);
    } else {
      FixedLinesAppend(lines, enc);
    }
  }

  /** A token line present: it is replaced in place. */
  lemma FixedLinesReplace(lines: seq<string>, enc: string)
    requires WellSplit(lines) && FirstTokenLine(lines) < |lines|
    requires IsTokenLine(TokenLine(enc)) && WellSplit([TokenLine(enc)])
    ensures var out := UpdateTokenLinesFixed(lines, enc);
            WellSplit(out) && |out| == |lines| && out[FirstTokenLine(lines)] == TokenLine(enc)
            && FirstTokenLine(out) == FirstTokenLine(lines)
            && forall j :: 0 <= j < |lines| && j != FirstTokenLine(lines) ==> out[j] == lines[j]
  {
    var i := FirstTokenLine(lines);
    var out := lines[i := TokenLine(enc)];
    assert WellSplit(out) by {
      assert TokenLine(enc) == [TokenLine(enc)][0];
    }
    FirstTokenLineAt(out, i);
  }

  /** No token line: the last line gets its newline and the token line is appended. */
  lemma FixedLinesAppend(lines: seq<string>, enc: string)
    requires WellSplit(lines) && FirstTokenLine(lines) == |lines|
    requires IsTokenLine(TokenLine(enc)) && WellSplit([TokenLine(enc)])
    ensures var out := UpdateTokenLinesFixed(lines, enc);
            WellSplit(out) && |out| == |lines| + 1 && out[|lines|] == TokenLine(enc)
            && FirstTokenLine(out) == |lines|
            && forall j :: 0 <= j < |lines| ==> out[j] == lines[j] || out[j] == lines[j] + "\n"
  {
    var term := Terminate(lines);
    var out := term + [TokenLine(enc)];
    WellSplitAppend(term, TokenLine(enc));
    forall j | 0 <= j < |lines| ensures !IsTokenLine(out[j]) {
      assert out[j] == term[j];
      TerminateKeepsKind(lines[j]);
    }
    FirstTokenLineAt(out, |lines|);
  }

  /** A well-split line may follow well-split lines whose last line ends with a newline. */
  lemma WellSplitAppend(lines: seq<string>, l: string)
    requires WellSplit(lines) && WellSplit([l])
    requires lines != [] ==> lines[|lines| - 1][|lines[|lines| - 1]| - 1] == '\n'
    ensures WellSplit(lines + [l])
  {
    var out := lines + [l];
    forall j | 0 <= j < |out|
      ensures out[j] != [] && '\n' !in out[j][..|out[j]| - 1]
      ensures j < |out| - 1 ==> out[j][|out[j]| - 1] == '\n'
    {
      if j < |lines| {
        assert out[j] == lines[j];
      } else {
        assert out[j] == [l][0];
      }
    }
  }

  /** With the fix, the stored token is what a later read of the file finds first, and every
      other line is kept (the old last line at most gaining its newline). */
  lemma FixedStoresToken(text: string, enc: string)
    requires '\n' !in enc && '\r' !in enc
    ensures var lines := ReadFile(text);
            var back := ReadFile(UpdateTokenFileFixed(text, enc));
            var i := FirstTokenLine(back);
            i < |back| && back[i] == TokenLine(enc) && i == FirstTokenLine(lines) && |back| >= |lines|
            && forall j :: 0 <= j < |lines| && j != i ==> back[j] == lines[j] || back[j] == lines[j] + "\n"
  {
    var lines := ReadFile(text);
    FixedLines(lines, enc);
    FixedNoCr(lines, enc);
    ReadFileConcat(UpdateTokenLinesFixed(lines, enc));
  }

  /** The fixed edit brings in no carriage return. */
  lemma FixedNoCr(lines: seq<string>, enc: string)
    requires WellSplit(lines) && NoCr(lines) && '\r' !in enc
    ensures NoCr(UpdateTokenLinesFixed(lines, enc))
  {
    var t := TokenLine(enc);
    TokenCharsFrom(enc);
    var out := UpdateTokenLinesFixed(lines, enc);
    forall j | 0 <= j < |out| ensures '\r' !in out[j] {
      if FirstTokenLine(lines) == |lines| && j < |lines| {
        assert out[j] == lines[j] || out[j] == lines[j] + "\n";
      }
    }
  }

  /** The fix changes nothing when the file read back is empty, ends in a newline, or already
      holds a token line. */
  lemma FixedAgrees(text: string, enc: string)
    requires var t := Translate(text);
             t == [] || t[|t| - 1] == '\n' || FirstTokenLine(ReadFile(text)) < |ReadFile(text)|
    ensures UpdateTokenFileFixed(text, enc) == UpdateTokenFile(text, enc)
  {
    var lines := ReadFile(text);
    if FirstTokenLine(lines) == |lines| && lines != [] {
      LastLineEnd(lines);
    }
    FixedAgreesLines(lines, enc);
  }

  /** On lines: the fix differs only when a token line is appended after a last line without
      its newline. */
  lemma FixedAgreesLines(lines: seq<string>, enc: string)
    requires WellSplit(lines)
    requires lines == [] || FirstTokenLine(lines) < |lines| || lines[|lines| - 1][|lines[|lines| - 1]| - 1] == '\n'
    ensures UpdateTokenLinesFixed(lines, enc) == UpdateTokenLines(lines, enc)
  {
    if FirstTokenLine(lines) == |lines| {
      assert Terminate(lines) == lines;
    }
  }

  /** The last character of the text is that of its last line. */
  lemma {:induction false} LastLineEnd(lines: seq<string>)
    requires WellSplit(lines) && lines != []
    ensures Concat(lines) != []
    ensures Concat(lines)[|Concat(lines)| - 1] == lines[|lines| - 1][|lines[|lines| - 1]| - 1]
  {
    if |lines| > 1 {
      assert WellSplit(lines[1..]) by {
        forall j | 0 <= j < |lines[1..]| ensures lines[1..][j] == lines[j + 1] { }
      }
      LastLineEnd(lines[1..]);
    }
  }
}

=== FILE: js_chunker.dfy ===
/** The JavaScript chunker (`chunk_js`): a line scanner that finds function, arrow-function and
    class declarations, takes each up to the line where its braces balance, and emits the
    declaration as one chunk or as a header plus body windows; inside a class it also emits
    one entry per method it finds.

    The four declaration patterns are oracles: for a line, each reports the name it matched
    (and, for a class, the base class after `extends`), or `None`. */
module JsChunker {
  import opened Wrappers
  import opened Text
  import opened TokenWindows
  import opened Chunks

  /** `re.search` with the function, arrow-function, class and method patterns. */
  datatype Patterns = Patterns(funcDecl: string -> Option<string>,
                               arrowDecl: string -> Option<string>,
                               classDecl: string -> Option<(string, Option<string>)>,
                               methodDecl: string -> Option<string>)

  datatype Decl = FuncDecl(name: string) | ClassDecl(name: string, base: Option<string>) | NoDecl

  /** A function match wins over an arrow match, which wins over a class match. */
  function DeclOf(p: Patterns, line: string): Decl {
    if p.funcDecl(line).Some? then FuncDecl(p.funcDecl(line).value)
    else if p.arrowDecl(line).Some? then FuncDecl(p.arrowDecl(line).value)
    else if p.classDecl(line).Some? then ClassDecl(p.classDecl(line).value.0, p.classDecl(line).value.1)
    else NoDecl
  }

  // ---------------------------------------------------------------------------
  // Import lines
  // ---------------------------------------------------------------------------

  predicate KeywordAt(t: string, kw: string) {
    StartsWith(t, kw) && (|t| == |kw| || !IsWordChar(t[|kw|]))
  }

  /** `^\s*(import|require|export)\b`: after leading whitespace the line starts with one of
      the three keywords, not followed by another word character. */
  predicate IsImportLine(line: string) {
    var t := LStrip(line);
    KeywordAt(t, "import") || KeywordAt(t, "require") || KeywordAt(t, "export")
  }

  /** The import lines, in order. */
  function ImportLines(lines: seq<string>): seq<string> {
    if |lines| == 0 then []
    else (if IsImportLine(lines[0]) then [lines[0]] else []) + ImportLines(lines[1..])
  }

  // ---------------------------------------------------------------------------
  // find_block_end
  // ---------------------------------------------------------------------------

  function Delta(line: string): int {
    CountChar(line, '{') - CountChar(line, '}')
  }

  /** The brace balance of a run of lines: opening minus closing braces. */
  function Balance(ls: seq<string>): int {
    if |ls| == 0 then 0 else Balance(ls[..|ls| - 1]) + Delta(ls[|ls| - 1])
  }

  /** The balance of lines `start..j`, both included. */
  function BalanceTo(lines: seq<string>, start: nat, j: nat): int
    requires start <= j < |lines|
  {
    Balance(lines[start..j + 1])
  }

  /** The first line at or after `i` where the balance counted from `start` drops to zero or
      below, or the last line when it never does. */
  function BlockEndFrom(lines: seq<string>, start: nat, i: nat): (e: nat)
    requires start <= i <= |lines| && start < |lines|
    ensures i <= e < |lines| || e == |lines| - 1
    ensures e < |lines|
    decreases |lines| - i
  {
    if i >= |lines| then |lines| - 1
    else if BalanceTo(lines, start, i) <= 0 then i
    else BlockEndFrom(lines, start, i + 1)
  }

  function BlockEnd(lines: seq<string>, start: nat): (e: nat)
    requires start < |lines|
  {
    BlockEndFrom(lines, start, start)
  }

  /** The block ends at the first line where the braces balance, or at the last line. */
  predicate IsBlockEnd(lines: seq<string>, start: nat, e: nat)
    requires start < |lines|
  {
    && start <= e < |lines|
    && (forall j :: start <= j < e ==> BalanceTo(lines, start, j) > 0)
    && (BalanceTo(lines, start, e) <= 0 || (e == |lines| - 1 && Balance(lines[start..]) > 0))
  }

  lemma {:induction false} BlockEndFromSpec(lines: seq<string>, start: nat, i: nat)
    requires start <= i <= |lines| && start < |lines|
    requires forall j :: start <= j < i ==> BalanceTo(lines, start, j) > 0
    ensures IsBlockEnd(lines, start, BlockEndFrom(lines, start, i))
    decreases |lines| - i
  {
    if i >= |lines| {
      assert lines[start..|lines| - 1 + 1] == lines[start..];
    } else if BalanceTo(lines, start, i) > 0 {
      BlockEndFromSpec(lines, start, i + 1);
    }
  }

  lemma BlockEndSpec(lines: seq<string>, start: nat)
    requires start < |lines|
    ensures IsBlockEnd(lines, start, BlockEnd(lines, start))
  {
    BlockEndFromSpec(lines, start, start);
  }

  /** `find_block_end`: the loop over the lines keeping a running balance. */
  method FindBlockEnd(lines: seq<string>, start: nat) returns (e: nat)
    requires start < |lines|
    ensures e == BlockEnd(lines, start)
    ensures IsBlockEnd(lines, start, e)
  {
    var balance := 0;
    var i := start;
    while i < |lines|
      invariant start <= i <= |lines|
      invariant balance == Balance(lines[start..i])
      invariant BlockEndFrom(lines, start, i) == BlockEnd(lines, start)
      invariant forall j :: start <= j < i ==> BalanceTo(lines, start, j) > 0
      decreases |lines| - i
    {
      assert lines[start..i + 1][..i - start] == lines[start..i];
      balance := balance + Delta(lines[i]);
      if balance <= 0 {
        BlockEndSpec(lines, start);
        return i;
      }
      i := i + 1;
    }
    BlockEndSpec(lines, start);
    e := |lines| - 1;
  }

  // ---------------------------------------------------------------------------
  // Chunks of one declaration
  // ---------------------------------------------------------------------------

  datatype Env = Env(lines: seq<string>, importsText: string, patterns: Patterns,
                     encode: string -> seq<int>, decode: seq<int> -> string)

  function LinesText(lines: seq<string>, from: nat, to: nat): string {
    Join(Slice(lines, from, to), "\n")
  }

  /** `max(1, (end - start) // 5 + count('{') - count('}'))` over the declaration's text. */
  function DeclComplexity(text: string, start: nat, end: nat): (c: nat)
    requires start <= end
    ensures c >= 1
  {
    var raw := (end - start) / 5 + CountChar(text, '{') - CountChar(text, '}');
    if raw < 1 then 1 else raw
  }

  /** A function records its name in the function position; a class records its name in the
      class position and its base class as inheritance. */
  function DeclTag(d: Decl, complexity: int): Tag
    requires !d.NoDecl?
  {
    match d
    case FuncDecl(name) => Tag(Some(name), None, None, complexity, None)
    case ClassDecl(name, base) => Tag(None, Some(name), None, complexity, base)
  }

  /** The chunks of a declaration spanning lines `start..end`: the whole text when it fits its
      budget, otherwise a header (imports, then the declaration line) and windows of the
      remaining lines. */
  function DeclChunks(env: Env, d: Decl, start: nat, end: nat): (cs: seq<Chunk>)
    requires !d.NoDecl? && start <= end < |env.lines|
  {
    var text := LinesText(env.lines, start, end + 1);
    var c := DeclComplexity(text, start, end);
    var b := Budget(c);
    var tag := DeclTag(d, c);
    var n := |env.encode(text)|;
    if n <= b.0 then [Mk(text, 0, n, tag, Some(start + 1), Some(end + 1))]
    else
      var header := (if env.importsText != "" then env.importsText + "\n\n" else "") + env.lines[start];
      [Mk(header, 0, |env.encode(header)|, tag, Some(start + 1), Some(start + 1))]
        + FromWindows(Windows(env.encode(LinesText(env.lines, start + 1, end + 1)), env.decode, b.0, b.1),
                      tag, Some(start + 2), Some(end + 1))
  }

  /** The chunks of one method found inside a class: whole when it fits half the class
      budget, otherwise windows of half the class budget and half its overlap. */
  function MethodChunks(env: Env, className: string, name: string, ms: nat, me: nat, h: (nat, nat)): seq<Chunk>
    requires ms <= me && h.1 < h.0
  {
    var text := LinesText(env.lines, ms, me + 1);
    var tag := Tag(Some(name), Some(className), None, (me - ms) / 3, None);
    var n := |env.encode(text)|;
    if n <= h.0 then [Mk(text, 0, n, tag, Some(ms + 1), Some(me + 1))]
    else FromWindows(Windows(env.encode(text), env.decode, h.0, h.1), tag, Some(ms + 1), Some(me + 1))
  }

  /** A method the class-body scan finds: its name and its first and last line (0-based). */
  datatype Span = Span(name: string, first: nat, last: nat)

  /** The methods the scan of a class body finds from line `ms` on, before the class's last
      line `end`: a method line starts a method that runs to its block end, and the scan
      resumes on the line after it; any other line is skipped. */
  function MethodSpans(env: Env, ms: nat, end: nat): seq<Span>
    requires ms <= |env.lines| && end < |env.lines|
    decreases |env.lines| - ms
  {
    if ms >= end then []
    else
      var m := env.patterns.methodDecl(env.lines[ms]);
      if m.None? then MethodSpans(env, ms + 1, end)
      else
        var me := BlockEnd(env.lines, ms);
        BlockEndSpec(env.lines, ms);
        [Span(m.value, ms, me)] + MethodSpans(env, me + 1, end)
  }

  /** Every span starts in `ms..end` and ends no earlier than it starts. */
  predicate SpansWithin(sp: seq<Span>, ms: nat, end: nat) {
    forall k :: 0 <= k < |sp| ==> ms <= sp[k].first < end && sp[k].first <= sp[k].last
  }

  lemma {:induction false} MethodSpansWithin(env: Env, ms: nat, end: nat)
    requires ms <= |env.lines| && end < |env.lines|
    ensures SpansWithin(MethodSpans(env, ms, end), ms, end)
    decreases |env.lines| - ms
  {
    if ms < end {
      var m := env.patterns.methodDecl(env.lines[ms]);
      if m.None? {
        MethodSpansWithin(env, ms + 1, end);
      } else {
        var me := BlockEnd(env.lines, ms);
        BlockEndSpec(env.lines, ms);
        MethodSpansWithin(env, me + 1, end);
        var rest := MethodSpans(env, me + 1, end);
        var sp := [Span(m.value, ms, me)] + rest;
        assert MethodSpans(env, ms, end) == sp;
        forall k | 0 <= k < |sp| ensures ms <= sp[k].first < end && sp[k].first <= sp[k].last {
          if k > 0 {
            assert sp[k] == rest[k - 1];
          }
        }
      }
    }
  }

  /** The chunks of the found methods, one method after another. */
  function SpanChunks(env: Env, className: string, sp: seq<Span>, h: (nat, nat)): seq<Chunk>
    requires h.1 < h.0 && forall k :: 0 <= k < |sp| ==> sp[k].first <= sp[k].last
  {
    if |sp| == 0 then []
    else MethodChunks(env, className, sp[0].name, sp[0].first, sp[0].last, h) + SpanChunks(env, className, sp[1..], h)
  }

  /** The method scan of a class body: lines `ms` up to (not including) the class's last line. */
  function MethodScan(env: Env, className: string, ms: nat, end: nat, h: (nat, nat)): seq<Chunk>
    requires ms <= |env.lines| && end < |env.lines| && h.1 < h.0
  {
    MethodSpansWithin(env, ms, end);
    SpanChunks(env, className, MethodSpans(env, ms, end), h)
  }

  /** The main scan from line `i`: a declaration line yields its chunks (and, for a class, its
      methods' chunks) and the scan resumes after its block; any other line is skipped. */
  function ScanFrom(env: Env, i: nat): seq<Chunk>
    requires i <= |env.lines|
    decreases |env.lines| - i
  {
    if i >= |env.lines| then []
    else
      var d := DeclOf(env.patterns, env.lines[i]);
      if d.NoDecl? then ScanFrom(env, i + 1)
      else
        var end := BlockEnd(env.lines, i);
        BlockEndSpec(env.lines, i);
        DeclAll(env, d, i, end) + ScanFrom(env, end + 1)
  }

  /** A declaration's own chunks followed, for a class, by its methods' chunks. */
  function DeclAll(env: Env, d: Decl, start: nat, end: nat): seq<Chunk>
    requires !d.NoDecl? && start <= end < |env.lines|
  {
    var b := Budget(DeclComplexity(LinesText(env.lines, start, end + 1), start, end));
    DeclChunks(env, d, start, end)
      + (if d.ClassDecl? then MethodScan(env, d.name, start + 1, end, (b.0 / 2, b.1 / 2)) else [])
  }

  /** `chunk_js`: the scan's chunks, or 256-token windows of the whole source when there are
      none. */
  function ChunkJs(source: string, patterns: Patterns,
                   encode: string -> seq<int>, decode: seq<int> -> string): seq<Chunk>
  {
    var lines := SplitLines(source);
    var env := Env(lines, Join(ImportLines(lines), "\n"), patterns, encode, decode);
    var cs := ScanFrom(env, 0);
    if |cs| > 0 then cs
    else FromWindows(Windows(encode(source), decode, 256, 64), Tag(None, None, None, 0, None), Some(1), Some(|lines|))
  }

  // ---------------------------------------------------------------------------
  // Properties
  // ---------------------------------------------------------------------------

  /** A chunk over 512 tokens is always a declaration header, which claims a single line. */
  predicate Bounded(c: Chunk) {
    c.tokStart <= c.tokEnd
    && (c.tokEnd - c.tokStart > 512 ==> c.startLine.Some? && c.startLine == c.endLine)
  }

  predicate AllBounded(cs: seq<Chunk>) {
    forall k :: 0 <= k < |cs| ==> Bounded(cs[k])
  }

  lemma AllBoundedAppend(a: seq<Chunk>, b: seq<Chunk>)
    requires AllBounded(a) && AllBounded(b)
    ensures AllBounded(a + b)
  {
    forall k | 0 <= k < |a + b| ensures Bounded((a + b)[k]) {
      if k >= |a| { assert (a + b)[k] == b[k - |a|]; }
    }
  }

  lemma MethodChunksBounded(env: Env, className: string, name: string, ms: nat, me: nat, h: (nat, nat))
    requires ms <= me && h.1 < h.0 && h.0 <= 512
    ensures AllBounded(MethodChunks(env, className, name, ms, me, h))
  {
  }

  lemma DeclChunksBounded(env: Env, d: Decl, start: nat, end: nat)
    requires !d.NoDecl? && start <= end < |env.lines|
    ensures AllBounded(DeclChunks(env, d, start, end))
  {
  }

  lemma {:induction false} SpanChunksBounded(env: Env, className: string, sp: seq<Span>, h: (nat, nat))
    requires h.1 < h.0 && h.0 <= 512 && forall k :: 0 <= k < |sp| ==> sp[k].first <= sp[k].last
    ensures AllBounded(SpanChunks(env, className, sp, h))
  {
    if |sp| > 0 {
      assert forall k :: 0 <= k < |sp[1..]| ==> sp[1..][k] == sp[k + 1];
      SpanChunksBounded(env, className, sp[1..], h);
      MethodChunksBounded(env, className, sp[0].name, sp[0].first, sp[0].last, h);
      AllBoundedAppend(MethodChunks(env, className, sp[0].name, sp[0].first, sp[0].last, h),
                       SpanChunks(env, className, sp[1..], h));
    }
  }

  lemma MethodScanBounded(env: Env, className: string, ms: nat, end: nat, h: (nat, nat))
    requires ms <= |env.lines| && end < |env.lines| && h.1 < h.0 && h.0 <= 512
    ensures AllBounded(MethodScan(env, className, ms, end, h))
  {
    MethodSpansWithin(env, ms, end);
    SpanChunksBounded(env, className, MethodSpans(env, ms, end), h);
  }

  lemma DeclAllBounded(env: Env, d: Decl, start: nat, end: nat)
    requires !d.NoDecl? && start <= end < |env.lines|
    ensures AllBounded(DeclAll(env, d, start, end))
  {
    var b := Budget(DeclComplexity(LinesText(env.lines, start, end + 1), start, end));
    DeclChunksBounded(env, d, start, end);
    if d.ClassDecl? {
      MethodScanBounded(env, d.name, start + 1, end, (b.0 / 2, b.1 / 2));
      AllBoundedAppend(DeclChunks(env, d, start, end), MethodScan(env, d.name, start + 1, end, (b.0 / 2, b.1 / 2)));
    } else {
      assert DeclAll(env, d, start, end) == DeclChunks(env, d, start, end) + [];
    }
  }

  lemma {:induction false} ScanFromBounded(env: Env, i: nat)
    requires i <= |env.lines|
    ensures AllBounded(ScanFrom(env, i))
    decreases |env.lines| - i
  {
    if i < |env.lines| {
      var d := DeclOf(env.patterns, env.lines[i]);
      if d.NoDecl? {
        ScanFromBounded(env, i + 1);
      } else {
        var end := BlockEnd(env.lines, i);
        BlockEndSpec(env.lines, i);
        ScanFromBounded(env, end + 1);
        DeclAllBounded(env, d, i, end);
        AllBoundedAppend(DeclAll(env, d, i, end), ScanFrom(env, end + 1));
      }
    }
  }

  /** Every JavaScript chunk spans at most 512 tokens unless it is a one-line declaration
      header; and a source whose encoding is not empty yields chunks. */
  lemma ChunkJsShape(source: string, patterns: Patterns, encode: string -> seq<int>, decode: seq<int> -> string)
    ensures AllBounded(ChunkJs(source, patterns, encode, decode))
    ensures |encode(source)| > 0 ==> |ChunkJs(source, patterns, encode, decode)| > 0
  {
    var lines := SplitLines(source);
    var env := Env(lines, Join(ImportLines(lines), "\n"), patterns, encode, decode);
    ScanFromBounded(env, 0);
    WindowsTile(encode(source), decode, 256, 64);
  }

  /** A chunk of a method of class `className` found at or after line `ms`, inside the
      class that ends at line `end` (0-based). */
  predicate InClass(c: Chunk, className: string, ms: nat, end: nat) {
    c.className == Some(className) && c.funcName.Some?
    && c.startLine.Some? && ms + 1 <= c.startLine.value < end + 1
    && c.endLine.Some? && c.startLine.value <= c.endLine.value
  }

  predicate AllInClass(cs: seq<Chunk>, className: string, ms: nat, end: nat) {
    forall k :: 0 <= k < |cs| ==> InClass(cs[k], className, ms, end)
  }

  lemma AllInClassAppend(a: seq<Chunk>, b: seq<Chunk>, className: string, ms: nat, ms': nat, end: nat)
    requires ms <= ms' && AllInClass(a, className, ms, end) && AllInClass(b, className, ms', end)
    ensures AllInClass(a + b, className, ms, end)
  {
    forall k | 0 <= k < |a + b| ensures InClass((a + b)[k], className, ms, end) {
      if k >= |a| { assert (a + b)[k] == b[k - |a|]; }
    }
  }

  lemma MethodChunksInClass(env: Env, className: string, name: string, lo: nat, ms: nat, me: nat, end: nat, h: (nat, nat))
    requires lo <= ms <= me && ms < end && h.1 < h.0
    ensures AllInClass(MethodChunks(env, className, name, ms, me, h), className, lo, end)
  {
  }

  lemma {:induction false} SpanChunksInClass(env: Env, className: string, sp: seq<Span>, ms: nat, end: nat, h: (nat, nat))
    requires h.1 < h.0 && SpansWithin(sp, ms, end)
    ensures AllInClass(SpanChunks(env, className, sp, h), className, ms, end)
  {
    if |sp| > 0 {
      assert forall k :: 0 <= k < |sp[1..]| ==> sp[1..][k] == sp[k + 1];
      SpanChunksInClass(env, className, sp[1..], ms, end, h);
      MethodChunksInClass(env, className, sp[0].name, ms, sp[0].first, sp[0].last, end, h);
      AllInClassAppend(MethodChunks(env, className, sp[0].name, sp[0].first, sp[0].last, h),
                       SpanChunks(env, className, sp[1..], h), className, ms, ms, end);
    }
  }

  /** The chunks of the methods found in a class name the class and a method, and start on
      a line of the class after its declaration line. */
  lemma MethodsInsideClass(env: Env, className: string, ms: nat, end: nat, h: (nat, nat))
    requires ms <= |env.lines| && end < |env.lines| && h.1 < h.0
    ensures AllInClass(MethodScan(env, className, ms, end, h), className, ms, end)
  {
    MethodSpansWithin(env, ms, end);
    SpanChunksInClass(env, className, MethodSpans(env, ms, end), ms, end, h);
  }
}

=== FILE: llm_response.dfy ===
/** `parse_llm_code_response`: the file name and the code of a model's edit reply, read from
    a `// FILE: name` header, else from a `파일명: name` header, else the whole reply is code.

    Both patterns are searched (`re.search`): the leftmost position where the whole pattern
    matches wins. */
module LlmResponse {
  import opened Wrappers
  import opened Text

  const FileMarker := "// FILE: "
  const NameMarker := "파일명"

  /** `([^\n]+)\n([\s\S]+)` matched at `q`: a non-empty run without newlines, the newline
      after it, and everything after that (at least one character). The greedy run can only
      end at the first newline, so there is nothing to backtrack into. */
  function LineAndRest(s: string, q: nat): (m: Option<(string, string)>)
    requires q <= |s|
    ensures m.Some? ==> m.value.0 != "" && '\n' !in m.value.0 && m.value.1 != ""
    ensures m.Some? ==> s[q..] == m.value.0 + "\n" + m.value.1
  {
    var e := NextIndexOf(s, '\n', q);
    if q < e && e + 1 < |s| then
      assert s[q..] == s[q..e] + "\n" + s[e + 1..];
      Some((s[q..e], s[e + 1..]))
    else None
  }

  /** The end of the run of whitespace starting at `p`. */
  function SpaceRunEnd(s: string, p: nat): (q: nat)
    requires p <= |s|
    ensures p <= q <= |s| && AllSpace(s[p..q])
    ensures q < |s| ==> !IsSpace(s[q])
    decreases |s| - p
  {
    if p < |s| && IsSpace(s[p]) then
      var q := SpaceRunEnd(s, p + 1);
      assert s[p..q] == [s[p]] + s[p + 1..q];
      q
    else p
  }

  /** `\s*` followed by `LineAndRest`: the whitespace run is tried longest first, then shorter,
      down to the empty run at `p`. */
  function SpacedFrom(s: string, p: nat, q: nat): (m: Option<(string, string)>)
    requires p <= q <= |s|
    decreases q - p
  {
    var m := LineAndRest(s, q);
    if m.Some? then m else if q == p then None else SpacedFrom(s, p, q - 1)
  }

  /** The leftmost match of `// FILE: ([^\n]+)\n([\s\S]+)` at or after `i`. */
  function SearchFile(s: string, i: nat): Option<(string, string)>
    requires i <= |s|
    decreases |s| - i
  {
    if OccursAt(s, FileMarker, i) && LineAndRest(s, i + |FileMarker|).Some? then LineAndRest(s, i + |FileMarker|)
    else if i == |s| then None
    else SearchFile(s, i + 1)
  }

  /** A name marker at `i` followed by an ASCII or a full-width colon. */
  predicate NameHeaderAt(s: string, i: nat) {
    OccursAt(s, NameMarker, i) && i + 3 < |s| && (s[i + 3] == ':' || s[i + 3] == '：')
  }

  /** The leftmost match of `파일명[:：]\s*([^\n]+)\n([\s\S]+)` at or after `i`. */
  function SearchName(s: string, i: nat): Option<(string, string)>
    requires i <= |s|
    decreases |s| - i
  {
    if NameHeaderAt(s, i) && SpacedFrom(s, i + 4, SpaceRunEnd(s, i + 4)).Some? then
      SpacedFrom(s, i + 4, SpaceRunEnd(s, i + 4))
    else if i == |s| then None
    else SearchName(s, i + 1)
  }

  /** `(file name or None, code)`, both stripped. */
  function ParseLlmCodeResponse(reply: string): (r: (Option<string>, string))
    ensures r.0.None? ==> r.1 == Strip(reply)
    ensures r.0.Some? ==> |r.1| < |reply|
  {
    var m := SearchFile(reply, 0);
    if m.Some? then
      SearchFound(reply, 0, SearchFile(reply, 0));
      (Some(Strip(m.value.0)), Strip(m.value.1))
    else
      var m2 := SearchName(reply, 0);
      if m2.Some? then
        SearchNameFound(reply, 0);
        (Some(Strip(m2.value.0)), Strip(m2.value.1))
      else (None, Strip(reply))
  }

  /** A found code part is a proper suffix of the reply. */
  lemma {:induction false} SearchFound(s: string, i: nat, m: Option<(string, string)>)
    requires i <= |s| && m == SearchFile(s, i) && m.Some?
    ensures |m.value.1| < |s|
    decreases |s| - i
  {
    if !(OccursAt(s, FileMarker, i) && LineAndRest(s, i + |FileMarker|).Some?) {
      SearchFound(s, i + 1, SearchFile(s, i + 1));
    }
  }

  lemma {:induction false} SpacedFound(s: string, p: nat, q: nat)
    requires p <= q <= |s| && SpacedFrom(s, p, q).Some?
    ensures |SpacedFrom(s, p, q).value.1| < |s| - p
    decreases q - p
  {
    if LineAndRest(s, q).None? {
      SpacedFound(s, p, q - 1);
    }
  }

  lemma {:induction false} SearchNameFound(s: string, i: nat)
    requires i <= |s| && SearchName(s, i).Some?
    ensures |SearchName(s, i).value.1| < |s|
    decreases |s| - i
  {
    if NameHeaderAt(s, i) && SpacedFrom(s, i + 4, SpaceRunEnd(s, i + 4)).Some? {
      SpacedFound(s, i + 4, SpaceRunEnd(s, i + 4));
    } else {
      SearchNameFound(s, i + 1);
    }
  }

  /** Text without the file marker anywhere from `i` on has no file header match. */
  lemma {:induction false} SearchFileNone(s: string, i: nat)
    requires i <= |s|
    requires forall j :: i <= j ==> !OccursAt(s, FileMarker, j)
    ensures SearchFile(s, i).None?
    decreases |s| - i
  {
    if i < |s| {
      SearchFileNone(s, i + 1);
    }
  }

  lemma {:induction false} SearchNameNone(s: string, i: nat)
    requires i <= |s|
    requires forall j :: i <= j ==> !OccursAt(s, NameMarker, j)
    ensures SearchName(s, i).None?
    decreases |s| - i
  {
    if i < |s| {
      SearchNameNone(s, i + 1);
    }
  }

  /** A reply with neither header is all code. */
  lemma NoHeader(reply: string)
    requires !Contains(reply, FileMarker) && !Contains(reply, NameMarker)
    ensures ParseLlmCodeResponse(reply) == (None, Strip(reply))
  {
    SearchFileNone(reply, 0);
    SearchNameNone(reply, 0);
  }

  /** Positions where the file marker does not occur are skipped by the search. */
  lemma {:induction false} SearchFileSkips(s: string, i: nat, m: nat)
    requires i <= m <= |s|
    requires forall j :: i <= j < m ==> !OccursAt(s, FileMarker, j)
    ensures SearchFile(s, i) == SearchFile(s, m)
    decreases m - i
  {
    if i < m {
      SearchFileSkips(s, i + 1, m);
    }
  }

  /** A line and a rest written out are matched back as exactly those. */
  lemma LineAndRestOf(s: string, q: nat, name: string, code: string)
    requires q <= |s| && s[q..] == name + "\n" + code
    requires name != "" && '\n' !in name && code != ""
    ensures LineAndRest(s, q) == Some((name, code))
  {
    var t := s[q..];
    assert forall k :: q <= k < q + |name| ==> s[k] == t[k - q] == name[k - q];
    assert s[q + |name|] == t[|name|] == '\n';
    NextIndexOfAt(s, '\n', q, q + |name|);
    assert s[q..q + |name|] == t[..|name|] == name;
    assert s[q + |name| + 1..] == t[|name| + 1..] == code;
  }

  /** A file header match found from the start decides the parse. */
  lemma ParseFile(s: string, name: string, code: string)
    requires SearchFile(s, 0) == Some((name, code))
    ensures ParseLlmCodeResponse(s) == (Some(Strip(name)), Strip(code))
  {
  }

  /** The reply `pre // FILE: name \n code`, where the marker does not start anywhere in
      `pre`, yields the stripped name and the stripped code. */
  lemma FileHeaderRoundTrip(pre: string, name: string, code: string)
    requires name != "" && '\n' !in name && code != ""
    requires forall j :: 0 <= j < |pre| ==> !OccursAt(pre + (FileMarker + name + "\n" + code), FileMarker, j)
    ensures ParseLlmCodeResponse(pre + (FileMarker + name + "\n" + code)) == (Some(Strip(name)), Strip(code))
  {
    var rest := FileMarker + name + "\n" + code;
    var s := pre + rest;
    var q := |pre| + |FileMarker|;
    assert OccursAt(s, FileMarker, |pre|) by {
      assert s[|pre|..q] == FileMarker;
    }
    assert LineAndRest(s, q) == Some((name, code)) by {
      assert s[q..] == name + "\n" + code;
      LineAndRestOf(s, q, name, code);
    }
    assert SearchFile(s, 0) == Some((name, code)) by {
      SearchFileSkips(s, 0, |pre|);
    }
    ParseFile(s, name, code);
  }

  /** The reply `파일명: name \n code`, with no file marker in the name or the code, yields
      the stripped name and code. */
  lemma NameHeaderRoundTrip(name: string, code: string)
    requires name != "" && !IsSpace(name[0]) && '\n' !in name && code != ""
    requires !Contains(name + "\n" + code, FileMarker)
    ensures ParseLlmCodeResponse(NameMarker + ": " + name + "\n" + code) == (Some(Strip(name)), Strip(code))
  {
    var t := name + "\n" + code;
    var s := NameMarker + ": " + name + "\n" + code;
    assert s == NameMarker + ": " + t;
    forall j | 0 <= j ensures !OccursAt(s, FileMarker, j) {
      if j < 5 {
        if j < |s| {
          NotOccursAt(s, FileMarker, j);
        }
      } else if OccursAt(s, FileMarker, j) {
        assert s[j..j + |FileMarker|] == t[j - 5..j - 5 + |FileMarker|];
        assert OccursAt(t, FileMarker, j - 5);
      }
    }
    SearchFileNone(s, 0);
    assert NameHeaderAt(s, 0);
    assert SpaceRunEnd(s, 4) == 5 by {
      assert IsSpace(s[4]) && s[5] == name[0];
      assert SpaceRunEnd(s, 5) == 5;
    }
    assert s[5..] == name + "\n" + code;
    LineAndRestOf(s, 5, name, code);
    assert SearchName(s, 0) == Some((name, code));
  }

  const PathPreface := "see src/a.py\n"
  const PathReply := PathPreface + (FileMarker + "src/a.py" + "\n" + "x = 1 // 2")
  const DirNameBody := "src/app.py" + "\n" + "print(1)"

  /** The usual shapes of an edit reply meet the conditions of the two round trips: a preface
      naming a path before the file header, a `//` comment in the code, and a name header
      naming a file in a directory. */
  lemma PathRepliesAdmitted()
    ensures forall j :: 0 <= j < |PathPreface| ==> !OccursAt(PathReply, FileMarker, j)
    ensures !Contains(DirNameBody, FileMarker)
  {
    var s := PathReply;
    assert |PathPreface| == 13;
    forall j | 0 <= j < 13 ensures !OccursAt(s, FileMarker, j) {
      assert s[j] == PathPreface[j] && s[j + 1] == s[..14][j + 1];
    }
    var t := DirNameBody;
    forall j | 0 <= j <= |t| ensures !OccursAt(t, FileMarker, j) {
      if j < |t| - 1 {
        assert t[j] != '/' || t[j + 1] != '/';
      }
    }
  }

  /** The whitespace after the colon may swallow the newline of an empty name line and then
      give back one space: the name is then blank. */
  lemma BlankNameExample()
    ensures ParseLlmCodeResponse(BlankReply) == (Some(""), "abc")
  {
    var s := BlankReply;
    forall j | 0 <= j < |s| ensures !OccursAt(s, FileMarker, j) {
      NotOccursAt(s, FileMarker, j);
    }
    SearchFileSkips(s, 0, |s|);
    assert SearchFile(s, |s|).None?;
    BlankNameSearch();
    assert Strip(" ") == "" by {
      assert |Strip(" ")| <= 1;
    }
    StripNoop("abc");
  }

  const BlankReply := NameMarker + ": \nabc"

  /** The name search on the blank-name reply settles on a one-space name line. */
  lemma BlankNameSearch()
    ensures SearchName(BlankReply, 0) == Some((" ", "abc"))
  {
    var s := BlankReply;
    assert NameHeaderAt(s, 0);
    BlankRunEnd();
    BlankLines();
    assert SpacedFrom(s, 4, 6) == Some((" ", "abc"));
  }

  lemma BlankRunEnd()
    ensures SpaceRunEnd(BlankReply, 4) == 6
  {
    var s := BlankReply;
    assert IsSpace(s[4]) && IsSpace(s[5]) && !IsSpace(s[6]);
    assert SpaceRunEnd(s, 6) == 6;
    assert SpaceRunEnd(s, 5) == 6;
  }

  /** The line-and-rest matches tried from the three starts of the whitespace run. */
  lemma BlankLines()
    ensures LineAndRest(BlankReply, 6).None?
    ensures LineAndRest(BlankReply, 5).None?
    ensures LineAndRest(BlankReply, 4) == Some((" ", "abc"))
  {
    var s := BlankReply;
    assert NextIndexOf(s, '\n', 6) == 9 by {
      assert s[6] != '\n' && s[7] != '\n' && s[8] != '\n' && |s| == 9;
    }
    NextIndexOfAt(s, '\n', 5, 5);
    NextIndexOfAt(s, '\n', 4, 5);
    assert s[4..5] == " " && s[6..] == "abc";
  }
}

=== FILE: llm_retrieve.dfy ===
/** The memory policy of the second retriever: before a question and its answer are stored,
    stored questions that are near duplicates of it are deleted; and the prompt context puts
    the remembered conversations before the retrieved code.

    The memory store is a map from id to document. The embedding model, the similarity search,
    the cosine similarity and the md5 hash are oracles. */
module LlmRetrieve {
  import opened Wrappers
  import opened Text

  /** A stored document and the two metadata fields the policy reads. */
  datatype Doc = Doc(content: string, docType: Option<string>, questionHash: Option<string>)

  type Store = map<string, Doc>

  /** The embedding of a text, the five stored documents most similar to a query, the cosine
      similarity of two embeddings and the hash. */
  datatype Oracles = Oracles(embed: string -> Result<seq<real>, string>,
                             search: (Store, string) -> Result<seq<Doc>, string>,
                             cosine: (seq<real>, seq<real>) -> real,
                             hash: string -> string)

  const DefaultThreshold: real := 0.91
  const QuestionType := "question"

  /** A search hit that the pass deletes when it gets to it: a stored question, strictly more
      similar than the threshold, carrying a non-empty hash. */
  predicate Doomed(d: Doc, qv: seq<real>, threshold: real, o: Oracles) {
    d.docType == Some(QuestionType)
    && o.embed(d.content).Ok? && o.cosine(qv, o.embed(d.content).value) > threshold
    && d.questionHash.Some? && d.questionHash.value != ""
  }

  /** The hit stops the pass: embedding a stored question raises. */
  predicate Stops(d: Doc, o: Oracles) {
    d.docType == Some(QuestionType) && o.embed(d.content).Err?
  }

  /** The deletion loop over the hits from `i` on; a raising embedding ends it, keeping the
      deletions made so far. Deleting an id that is not stored changes nothing. */
  function Delete(store: Store, hits: seq<Doc>, i: nat, qv: seq<real>, threshold: real, o: Oracles): (r: Store)
    requires i <= |hits|
    ensures r.Keys <= store.Keys
    ensures forall k :: k in r ==> r[k] == store[k]
    decreases |hits| - i
  {
    if i == |hits| || Stops(hits[i], o) then store
    else if Doomed(hits[i], qv, threshold, o) then
      Delete(store - {hits[i].questionHash.value}, hits, i + 1, qv, threshold, o)
    else Delete(store, hits, i + 1, qv, threshold, o)
  }

  /** No hit from `i` on stops the pass. */
  predicate Completes(hits: seq<Doc>, i: nat, o: Oracles)
    requires i <= |hits|
  {
    forall j :: i <= j < |hits| ==> !Stops(hits[j], o)
  }

  /** The pass deletes only the hashes of doomed hits, and, when no hit stops it, all of them. */
  lemma {:induction false} DeleteExact(store: Store, hits: seq<Doc>, i: nat, qv: seq<real>, threshold: real, o: Oracles)
    requires i <= |hits|
    ensures var r := Delete(store, hits, i, qv, threshold, o);
            (forall k :: k in store && k !in r ==>
               exists j :: i <= j < |hits| && Doomed(hits[j], qv, threshold, o) && hits[j].questionHash.value == k)
            && (Completes(hits, i, o) ==>
               forall j :: i <= j < |hits| && Doomed(hits[j], qv, threshold, o) ==> hits[j].questionHash.value !in r)
    decreases |hits| - i
  {
    if i < |hits| && !Stops(hits[i], o) {
      var next := if Doomed(hits[i], qv, threshold, o) then store - {hits[i].questionHash.value} else store;
      DeleteExact(next, hits, i + 1, qv, threshold, o);
      var r := Delete(store, hits, i, qv, threshold, o);
      assert r == Delete(next, hits, i + 1, qv, threshold, o);
      forall k | k in store && k !in r
        ensures exists j :: i <= j < |hits| && Doomed(hits[j], qv, threshold, o) && hits[j].questionHash.value == k
      {
        if k in next {
          var j :| i + 1 <= j < |hits| && Doomed(hits[j], qv, threshold, o) && hits[j].questionHash.value == k;
        } else {
          assert Doomed(hits[i], qv, threshold, o) && hits[i].questionHash.value == k;
        }
      }
      if Completes(hits, i, o) {
        assert Completes(hits, i + 1, o);
        forall j | i <= j < |hits| && Doomed(hits[j], qv, threshold, o)
          ensures hits[j].questionHash.value !in r
        {
          if j == i {
            assert hits[i].questionHash.value !in next;
          }
        }
      }
    }
  }

  function QaDocument(query: string, answer: string): string {
    "Q: " + query + "\nA: " + answer
  }

  /** `update_history`: `Err` when embedding the query raises (that call is outside the
      handlers); a failed search skips the deletions; the new document is then stored (replaced
      if present) under the hash of the raw query, unless `add_documents` raises (`addFails`),
      which is reported and swallowed. */
  function UpdateHistory(store: Store, query: string, answer: string, threshold: real, o: Oracles, addFails: bool)
    : (r: Result<Store, string>)
    ensures r.Err? <==> o.embed(query).Err?
    ensures r.Ok? && !addFails ==>
              o.hash(query) in r.value
              && r.value[o.hash(query)] == Doc(QaDocument(query, answer), Some(QuestionType), Some(o.hash(query)))
    ensures r.Ok? && addFails ==> r.value.Keys <= store.Keys
    ensures r.Ok? ==> forall k :: k in r.value && (addFails || k != o.hash(query)) ==> k in store && r.value[k] == store[k]
  {
    var qh := o.hash(query);
    var qv := o.embed(query);
    if qv.Err? then Err(qv.error)
    else
      var hits := o.search(store, query);
      var kept := if hits.Err? then store else Delete(store, hits.value, 0, qv.value, threshold, o);
      if addFails then Ok(kept)
      else Ok(kept[qh := Doc(QaDocument(query, answer), Some(QuestionType), Some(qh))])
  }

  /** Which stored entries survive an update: an entry other than the new one goes only if a
      doomed hit names it, and when the search succeeds and no hit stops the pass, every entry
      a doomed hit names goes. */
  lemma UpdateDeletes(store: Store, query: string, answer: string, threshold: real, o: Oracles, addFails: bool)
    requires o.embed(query).Ok?
    ensures var r := UpdateHistory(store, query, answer, threshold, o, addFails).value;
            var hits := o.search(store, query);
            var qv := o.embed(query).value;
            (forall k :: k in store && k !in r ==>
               hits.Ok? && exists j :: 0 <= j < |hits.value| && Doomed(hits.value[j], qv, threshold, o)
                                       && hits.value[j].questionHash.value == k)
            && (hits.Ok? && Completes(hits.value, 0, o) ==>
               forall j :: 0 <= j < |hits.value| && Doomed(hits.value[j], qv, threshold, o)
                           && (addFails || hits.value[j].questionHash.value != o.hash(query))
                           ==> hits.value[j].questionHash.value !in r)
  {
    var hits := o.search(store, query);
    if hits.Ok? {
      DeleteExact(store, hits.value, 0, o.embed(query).value, threshold, o);
    }
  }

  /** Only stored questions are candidates: a search that returns no question deletes
      nothing. */
  lemma NonQuestionsKept(store: Store, query: string, answer: string, threshold: real, o: Oracles, addFails: bool)
    requires o.embed(query).Ok? && o.search(store, query).Ok?
    requires forall j :: 0 <= j < |o.search(store, query).value| ==> o.search(store, query).value[j].docType != Some(QuestionType)
    ensures var r := UpdateHistory(store, query, answer, threshold, o, addFails).value;
            forall k :: k in store ==> k in r
  {
    UpdateDeletes(store, query, answer, threshold, o, addFails);
  }

  /** A similarity equal to the threshold does not delete: the comparison is strict. */
  lemma ThresholdStrict(d: Doc, qv: seq<real>, o: Oracles)
    requires o.embed(d.content).Ok? && o.cosine(qv, o.embed(d.content).value) == DefaultThreshold
    ensures !Doomed(d, qv, DefaultThreshold, o)
  {
  }

  // ---------------------------------------------------------------------------
  // Context
  // ---------------------------------------------------------------------------

  const NoHistory := "이전 대화 없음"
  const MemoryHeader := "-이전 대화:\n"
  const CodeHeader := "\n\n-관련 코드(필수적으로 참고해야 할 코드):\n"

  /** The memory section: the remembered documents joined by a blank line, or the sentinel
      when that join is empty. */
  function MemorySection(memory: seq<string>): (m: string)
    ensures m != ""
    ensures Join(memory, "\n\n") != "" ==> m == Join(memory, "\n\n")
  {
    var joined := Join(memory, "\n\n");
    if joined == "" then NoHistory else joined
  }

  /** `build_context`: the memory section under its header, then the code documents under
      theirs. `BuildContextSections` shows that both sections can be read back from it. */
  function BuildContext(code: seq<string>, memory: seq<string>): (r: string)
    ensures StartsWith(r, MemoryHeader + MemorySection(memory) + CodeHeader)
    ensures EndsWith(r, Join(code, "\n\n"))
    ensures |r| == |MemoryHeader| + |MemorySection(memory)| + |CodeHeader| + |Join(code, "\n\n")|
  {
    var head := MemoryHeader + MemorySection(memory) + CodeHeader;
    var r := head + Join(code, "\n\n");
    assert r[..|head|] == head;
    assert r[|r| - |Join(code, "\n\n")|..] == Join(code, "\n\n");
    r
  }

  /** With no remembered conversation, the sentinel fills the memory section. */
  lemma EmptyMemorySentinel(code: seq<string>)
    ensures BuildContext(code, []) == MemoryHeader + NoHistory + CodeHeader + Join(code, "\n\n")
  {
  }

  /** The two sections can be read back from the context: given the length of the code
      section, the memory section and the code are determined. */
  lemma BuildContextSections(code1: seq<string>, mem1: seq<string>, code2: seq<string>, mem2: seq<string>)
    requires BuildContext(code1, mem1) == BuildContext(code2, mem2)
    requires |Join(code1, "\n\n")| == |Join(code2, "\n\n")|
    ensures Join(code1, "\n\n") == Join(code2, "\n\n")
    ensures MemorySection(mem1) == MemorySection(mem2)
  {
    var r := BuildContext(code1, mem1);
    var m1, m2 := MemorySection(mem1), MemorySection(mem2);
    assert |m1| == |m2|;
    var h1 := MemoryHeader + m1 + CodeHeader;
    var h2 := MemoryHeader + m2 + CodeHeader;
    assert r[..|h1|] == h1 && r[..|h2|] == h2;
    assert m1 == h1[|MemoryHeader|..|MemoryHeader| + |m1|];
    assert m2 == h2[|MemoryHeader|..|MemoryHeader| + |m2|];
  }
}

=== FILE: markdown_chunker.dfy ===
/** The markdown chunker (`chunk_markdown`): headers and fenced code blocks are markers; the
    text before a marker, each header's section and each code block become chunks titled by
    what they are, windowed by 256 tokens with an overlap of 64 when they are longer.

    The two regular-expression scans are oracles: the caller passes the header matches (their
    start and the header text) and the code-block matches (their start and the whole block),
    each in the order `re.finditer` yields them. */
module MdChunker {
  import opened Wrappers
  import opened Text
  import opened TokenWindows
  import opened Chunks

  datatype MarkerKind = Section | Code

  /** A match: where it starts, and the header text or the whole code block. */
  datatype Marker = Marker(pos: nat, content: string, kind: MarkerKind)

  const PlainTitle := "일반 텍스트"
  const CodeTitle := "코드 블록"
  const WholeTitle := "마크다운"

  predicate SortedByPos(ms: seq<Marker>) {
    forall i, j :: 0 <= i < j < |ms| ==> ms[i].pos <= ms[j].pos
  }

  /** The stable sort of `sections + codes` by position, for two lists that are each in
      position order: a header and a code block at the same position keep the header first. */
  function Merge(sections: seq<Marker>, codes: seq<Marker>): (ms: seq<Marker>)
    decreases |sections| + |codes|
  {
    if |sections| == 0 then codes
    else if |codes| == 0 then sections
    else if sections[0].pos <= codes[0].pos then [sections[0]] + Merge(sections[1..], codes)
    else [codes[0]] + Merge(sections, codes[1..])
  }

  /** Merging keeps every marker and adds none. */
  lemma {:induction false} MergePermutes(sections: seq<Marker>, codes: seq<Marker>)
    ensures multiset(Merge(sections, codes)) == multiset(sections + codes)
    decreases |sections| + |codes|
  {
    if |sections| == 0 {
      assert sections + codes == codes;
    } else if |codes| == 0 {
      assert sections + codes == sections;
    } else if sections[0].pos <= codes[0].pos {
      MergePermutes(sections[1..], codes);
      assert sections + codes == [sections[0]] + (sections[1..] + codes);
      ConsSame(sections[0], Merge(sections[1..], codes), sections[1..] + codes);
    } else {
      MergePermutes(sections, codes[1..]);
      ConsSame(codes[0], Merge(sections, codes[1..]), sections + codes[1..]);
      MoveFront(sections, codes);
    }
  }

  /** The same element put in front of two permutations of each other. */
  lemma ConsSame<T>(x: T, m: seq<T>, rest: seq<T>)
    requires multiset(m) == multiset(rest)
    ensures multiset([x] + m) == multiset([x] + rest)
  {
  }

  /** Moving the head of the second part to the front permutes the whole. */
  lemma MoveFront<T>(a: seq<T>, b: seq<T>)
    requires b != []
    ensures multiset([b[0]] + (a + b[1..])) == multiset(a + b)
  {
    assert a + b == a + ([b[0]] + b[1..]);
  }

  lemma SortedCons(h: Marker, rest: seq<Marker>)
    requires SortedByPos(rest)
    requires forall k :: 0 <= k < |rest| ==> h.pos <= rest[k].pos
    ensures SortedByPos([h] + rest)
  {
    var r := [h] + rest;
    forall i, j | 0 <= i < j < |r| ensures r[i].pos <= r[j].pos {
      assert r[j] == rest[j - 1];
      if i > 0 {
        assert r[i] == rest[i - 1];
      }
    }
  }

  lemma {:induction false} MergeLowerBound(sections: seq<Marker>, codes: seq<Marker>, lo: nat)
    requires forall k :: 0 <= k < |sections| ==> lo <= sections[k].pos
    requires forall k :: 0 <= k < |codes| ==> lo <= codes[k].pos
    ensures forall k :: 0 <= k < |Merge(sections, codes)| ==> lo <= Merge(sections, codes)[k].pos
    decreases |sections| + |codes|
  {
    if |sections| > 0 && |codes| > 0 {
      if sections[0].pos <= codes[0].pos {
        MergeLowerBound(sections[1..], codes, lo);
        var rest := Merge(sections[1..], codes);
        forall k | 0 < k < |rest| + 1 ensures lo <= ([sections[0]] + rest)[k].pos {
          assert ([sections[0]] + rest)[k] == rest[k - 1];
        }
      } else {
        MergeLowerBound(sections, codes[1..], lo);
        var rest := Merge(sections, codes[1..]);
        forall k | 0 < k < |rest| + 1 ensures lo <= ([codes[0]] + rest)[k].pos {
          assert ([codes[0]] + rest)[k] == rest[k - 1];
        }
      }
    }
  }

  /** Merging two lists that are each in position order yields position order. */
  lemma {:induction false} MergeSorted(sections: seq<Marker>, codes: seq<Marker>)
    requires SortedByPos(sections) && SortedByPos(codes)
    ensures SortedByPos(Merge(sections, codes))
    decreases |sections| + |codes|
  {
    if |sections| > 0 && |codes| > 0 {
      if sections[0].pos <= codes[0].pos {
        MergeSorted(sections[1..], codes);
        forall k | 0 <= k < |codes| ensures sections[0].pos <= codes[k].pos {
          assert codes[0].pos <= codes[k].pos;
        }
        forall k | 0 <= k < |sections[1..]| ensures sections[0].pos <= sections[1..][k].pos {
          assert sections[1..][k] == sections[k + 1];
        }
        MergeLowerBound(sections[1..], codes, sections[0].pos);
        SortedCons(sections[0], Merge(sections[1..], codes));
      } else {
        MergeSorted(sections, codes[1..]);
        forall k | 0 <= k < |sections| ensures codes[0].pos <= sections[k].pos {
          assert sections[0].pos <= sections[k].pos;
        }
        forall k | 0 <= k < |codes[1..]| ensures codes[0].pos <= codes[1..][k].pos {
          assert codes[1..][k] == codes[k + 1];
        }
        MergeLowerBound(sections, codes[1..], codes[0].pos);
        SortedCons(codes[0], Merge(sections, codes[1..]));
      }
    }
  }

  /** The language of a code block: the word characters right after the first three
      backquotes that are followed by a word character, or "" when there are none. */
  function CodeLang(block: string): (lang: string)
    ensures forall i :: 0 <= i < |lang| ==> IsWordChar(lang[i])
  {
    LangFrom(block, 0)
  }

  function LangFrom(block: string, i: nat): (lang: string)
    ensures forall k :: 0 <= k < |lang| ==> IsWordChar(lang[k])
    decreases |block| - i
  {
    if i + 3 >= |block| then ""
    else if block[i..i + 3] == "```" && IsWordChar(block[i + 3]) then WordPrefix(block[i + 3..])
    else LangFrom(block, i + 1)
  }

  /** A block that opens with three backquotes and a language name reports that name. */
  lemma CodeLangOfFence(lang: string, rest: string)
    requires |lang| > 0 && forall i :: 0 <= i < |lang| ==> IsWordChar(lang[i])
    requires |rest| > 0 && !IsWordChar(rest[0])
    ensures CodeLang("```" + lang + rest) == lang
  {
    var b := "```" + lang + rest;
    assert b[0..3] == "```";
    assert b[3] == lang[0];
    assert b[3..] == lang + rest;
    WordPrefixOf(lang, rest);
  }

  lemma {:induction false} WordPrefixOf(w: string, rest: string)
    requires forall i :: 0 <= i < |w| ==> IsWordChar(w[i])
    requires |rest| == 0 || !IsWordChar(rest[0])
    ensures WordPrefix(w + rest) == w
    decreases |w|
  {
    if |w| > 0 {
      assert (w + rest)[1..] == w[1..] + rest;
      WordPrefixOf(w[1..], rest);
      assert w == [w[0]] + w[1..];
    } else {
      assert w + rest == rest;
    }
  }

  /** One piece of text as chunks: a single chunk when it is at most 256 tokens, else its
      windows of 256 with an overlap of 64. Markdown chunks carry no line numbers. */
  function PieceChunks(text: string, tag: Tag, encode: string -> seq<int>, decode: seq<int> -> string): (cs: seq<Chunk>)
    ensures forall k :: 0 <= k < |cs| ==>
              cs[k].tokStart <= cs[k].tokEnd && cs[k].tokEnd - cs[k].tokStart <= 256
              && HasTag(cs[k], tag) && cs[k].startLine.None? && cs[k].endLine.None?
  {
    var ids := encode(text);
    if |ids| > 256 then FromWindows(Windows(ids, decode, 256, 64), tag, None, None)
    else [Mk(text, 0, |ids|, tag, None, None)]
  }

  /** Text between markers: nothing when it is blank once stripped. */
  function PlainChunks(raw: string, encode: string -> seq<int>, decode: seq<int> -> string): seq<Chunk> {
    var t := Strip(raw);
    if t == "" then [] else PieceChunks(t, Tag(None, Some(PlainTitle), None, 1, None), encode, decode)
  }

  /** Where a section ends: the next line break followed by `#` after the header, or the
      end of the text. */
  function SectionEnd(md: string, m: Marker): (e: nat)
    ensures m.pos + |m.content| < |md| ==> e <= |md|
  {
    var after := m.pos + |m.content|;
    var found := if after < |md| then Find(md, "\n#", after) else -1;
    if found == -1 then |md| else found
  }

  /** The chunks a marker contributes and the position scanning resumes from. */
  function MarkerChunks(md: string, m: Marker, encode: string -> seq<int>, decode: seq<int> -> string): (seq<Chunk>, nat) {
    match m.kind
    case Section =>
      var e := SectionEnd(md, m);
      (PieceChunks(Strip(Slice(md, m.pos, e)), Tag(None, Some(m.content), None, 2, None), encode, decode), e)
    case Code =>
      (PieceChunks(m.content, Tag(Some(CodeLang(m.content)), Some(CodeTitle), None, 3, None), encode, decode),
       m.pos + |m.content|)
  }

  /** The loop over the sorted markers, from scan position `last`. */
  function Scan(md: string, ms: seq<Marker>, last: nat, encode: string -> seq<int>, decode: seq<int> -> string): seq<Chunk> {
    if |ms| == 0 then
      if last < |md| then PlainChunks(md[last..], encode, decode) else []
    else
      var m := ms[0];
      var before := if m.pos > last then PlainChunks(Slice(md, last, m.pos), encode, decode) else [];
      var r := MarkerChunks(md, m, encode, decode);
      before + r.0 + Scan(md, ms[1..], r.1, encode, decode)
  }

  /** `chunk_markdown`: the scan over the merged markers, or 256-token windows of the whole
      text titled as markdown when the scan yields nothing. */
  function ChunkMarkdown(md: string, sections: seq<Marker>, codes: seq<Marker>,
                         encode: string -> seq<int>, decode: seq<int> -> string): seq<Chunk> {
    var cs := Scan(md, Merge(sections, codes), 0, encode, decode);
    if |cs| > 0 then cs
    else FromWindows(Windows(encode(md), decode, 256, 64), Tag(None, Some(WholeTitle), None, 1, None), None, None)
  }

  /** What a markdown chunk may look like: at most 256 tokens, no line numbers, and one of
      three kinds — plain text or the whole document (complexity 1, no language), a section
      titled by its header (complexity 2), or a code block with its language (complexity 3). */
  predicate MdChunk(c: Chunk, titles: set<string>) {
    && c.tokStart <= c.tokEnd && c.tokEnd - c.tokStart <= 256
    && c.startLine.None? && c.endLine.None? && c.parent.None? && c.inheritance.None?
    && c.className.Some?
    && ((c.complexity == 1 && c.funcName.None? && c.className.value in {PlainTitle, WholeTitle})
        || (c.complexity == 2 && c.funcName.None? && c.className.value in titles)
        || (c.complexity == 3 && c.funcName.Some? && c.className.value == CodeTitle))
  }

  predicate AllMd(cs: seq<Chunk>, titles: set<string>) {
    forall k :: 0 <= k < |cs| ==> MdChunk(cs[k], titles)
  }

  lemma AllMdAppend(a: seq<Chunk>, b: seq<Chunk>, titles: set<string>)
    requires AllMd(a, titles) && AllMd(b, titles)
    ensures AllMd(a + b, titles)
  {
    forall k | 0 <= k < |a + b| ensures MdChunk((a + b)[k], titles) {
      if k >= |a| {
        assert (a + b)[k] == b[k - |a|];
      }
    }
  }

  lemma PlainShape(raw: string, titles: set<string>, encode: string -> seq<int>, decode: seq<int> -> string)
    ensures AllMd(PlainChunks(raw, encode, decode), titles)
  {
  }

  lemma MarkerShape(md: string, m: Marker, titles: set<string>, encode: string -> seq<int>, decode: seq<int> -> string)
    requires m.kind == Section ==> m.content in titles
    ensures AllMd(MarkerChunks(md, m, encode, decode).0, titles)
  {
  }

  lemma {:induction false} ScanChunks(md: string, ms: seq<Marker>, last: nat, titles: set<string>,
                                      encode: string -> seq<int>, decode: seq<int> -> string)
    requires forall i :: 0 <= i < |ms| && ms[i].kind == Section ==> ms[i].content in titles
    ensures AllMd(Scan(md, ms, last, encode, decode), titles)
    decreases |ms|
  {
    if |ms| == 0 {
      if last < |md| {
        PlainShape(md[last..], titles, encode, decode);
      }
    } else {
      var m := ms[0];
      var before := if m.pos > last then PlainChunks(Slice(md, last, m.pos), encode, decode) else [];
      var r := MarkerChunks(md, m, encode, decode);
      if m.pos > last {
        PlainShape(Slice(md, last, m.pos), titles, encode, decode);
      }
      MarkerShape(md, m, titles, encode, decode);
      ScanChunks(md, ms[1..], r.1, titles, encode, decode);
      AllMdAppend(before, r.0, titles);
      AllMdAppend(before + r.0, Scan(md, ms[1..], r.1, encode, decode), titles);
    }
  }

  function HeaderTitles(ms: seq<Marker>): set<string> {
    set i | 0 <= i < |ms| && ms[i].kind == Section :: ms[i].content
  }

  /** Every chunk of a markdown file has one of the three shapes above, with section titles
      drawn from the headers found; and a file whose encoding is not empty yields chunks. */
  lemma ChunkMarkdownShape(md: string, sections: seq<Marker>, codes: seq<Marker>,
                           encode: string -> seq<int>, decode: seq<int> -> string)
    ensures var cs := ChunkMarkdown(md, sections, codes, encode, decode);
            AllMd(cs, HeaderTitles(Merge(sections, codes)))
            && (|encode(md)| > 0 ==> |cs| > 0)
  {
    var ms := Merge(sections, codes);
    ScanChunks(md, ms, 0, HeaderTitles(ms), encode, decode);
    WindowsTile(encode(md), decode, 256, 64);
  }

  /** Without markers, non-blank text of at most 256 tokens is one plain chunk holding the
      stripped text. */
  lemma NoMarkersOneChunk(md: string, encode: string -> seq<int>, decode: seq<int> -> string)
    requires Strip(md) != "" && |encode(Strip(md))| <= 256
    ensures ChunkMarkdown(md, [], [], encode, decode)
            == [Chunk(Strip(md), 0, |encode(Strip(md))|, None, Some(PlainTitle), None, None, None, 1, None)]
  {
    assert md[0..] == md;
  }
}

=== FILE: push_intent.dfy ===
/** `detect_github_push_intent`: a keyword rule over the lower-cased message, with a model
    asked "네/아니오" only when no keyword pattern matches.

    Every keyword pattern of the source has one of four shapes, all captured by `Pattern`:
    `head(에|로)?\s*(alt|...)`, `head(alt|...)`, `head\s*tail` and a plain literal. A pattern
    is searched (`re.search`), so it hits when it matches at some position. */
module PushIntent {
  import opened Wrappers
  import opened Text

  /** `head`, an optional `에`/`로` particle when `particle`, any whitespace run when `spaces`,
      then one of `alts`. */
  datatype Pattern = Pattern(head: string, particle: bool, spaces: bool, alts: seq<string>)

  function Prefixed(head: string, alts: seq<string>): Pattern { Pattern(head, true, true, alts) }
  function Suffixed(head: string, alts: seq<string>): Pattern { Pattern(head, false, false, alts) }
  function Spaced(head: string, tail: string): Pattern { Pattern(head, false, true, [tail]) }
  function Lit(word: string): Pattern { Pattern(word, false, false, [""]) }

  const Requests: seq<string> := ["해", "시켜", "해줘", "시켜줘", "해주세요", "시켜주세요"]

  /** The keyword patterns, in the order they are tried. `풀\s*리퀘(스트)?` hits exactly where
      `풀\s*리퀘` does, since the optional group can always match empty. */
  const PushPatterns: seq<Pattern> := [
    Prefixed("깃허브", ["적용", "반영", "올려", "업로드", "푸시", "push", "commit", "커밋", "업데이트",
                        "동기화", "sync", "적용시켜", "반영해", "올려줘", "업로드해", "push해", "commit해",
                        "커밋해", "업데이트해", "동기화해", "pr", "pull request", "풀리퀘", "풀 리퀘",
                        "풀리퀘스트", "풀 리퀘스트"]),
    Prefixed("github", ["적용", "반영", "올려", "업로드", "푸시", "push", "commit", "커밋", "업데이트",
                        "동기화", "sync", "pr", "pull request"]),
    Prefixed("깃", ["적용", "반영", "올려", "업로드", "푸시", "push", "commit", "커밋", "업데이트",
                    "동기화", "sync"]),
    Suffixed("적용", Requests),
    Suffixed("반영", Requests),
    Suffixed("올려", ["줘", "주세요", "달라", "달라고", "달라요", "달라구", "달라구요", "달라줘", "달라주세요"]),
    Suffixed("업로드", Requests),
    Suffixed("푸시", Requests),
    Suffixed("commit", Requests),
    Suffixed("커밋", Requests),
    Suffixed("업데이트", Requests),
    Suffixed("동기화", Requests),
    Suffixed("pr", ["생성", "만들", "올려", "해", "해주세요", "해줘", "시켜", "시켜줘", "시켜주세요"]),
    Spaced("풀", "리퀘"),
    Spaced("pull", "request"),
    Lit("push"),
    Lit("commit"),
    Lit("pr"),
    Lit("pull request")
  ]

  /** Some alternative starts at `j`. */
  predicate AnyAltAt(s: string, j: nat, alts: seq<string>) {
    exists a :: 0 <= a < |alts| && OccursAt(s, alts[a], j)
  }

  /** `\s*(alts)` from `j`: the whitespace run may stop at any length. */
  predicate AltAfterSpaces(s: string, j: nat, alts: seq<string>)
    decreases |s| - j
  {
    AnyAltAt(s, j, alts) || (j < |s| && IsSpace(s[j]) && AltAfterSpaces(s, j + 1, alts))
  }

  predicate TailAt(s: string, j: nat, p: Pattern) {
    if p.spaces then AltAfterSpaces(s, j, p.alts) else AnyAltAt(s, j, p.alts)
  }

  /** The pattern matches starting at `i`. */
  predicate MatchAt(s: string, p: Pattern, i: nat) {
    OccursAt(s, p.head, i) &&
    var j := i + |p.head|;
    TailAt(s, j, p) || (p.particle && j < |s| && (s[j] == '에' || s[j] == '로') && TailAt(s, j + 1, p))
  }

  /** `re.search` from `i` on, position by position. */
  predicate SearchFrom(s: string, p: Pattern, i: nat)
    requires i <= |s|
    decreases |s| - i
  {
    MatchAt(s, p, i) || (i < |s| && SearchFrom(s, p, i + 1))
  }

  /** The reference reading of a search hit: a match at some position. */
  predicate Hits(s: string, p: Pattern) {
    exists i :: 0 <= i <= |s| && MatchAt(s, p, i)
  }

  /** The scan finds a match exactly when one exists at or after `i`. */
  lemma {:induction false} SearchFromHits(s: string, p: Pattern, i: nat)
    requires i <= |s|
    ensures SearchFrom(s, p, i) <==> exists k :: i <= k <= |s| && MatchAt(s, p, k)
    decreases |s| - i
  {
    if i < |s| {
      SearchFromHits(s, p, i + 1);
      if exists k :: i <= k <= |s| && MatchAt(s, p, k) {
        var k :| i <= k <= |s| && MatchAt(s, p, k);
        if k > i {
          assert i + 1 <= k;
        }
      }
    }
  }

  lemma SearchHits(s: string, p: Pattern)
    ensures SearchFrom(s, p, 0) <==> Hits(s, p)
  {
    SearchFromHits(s, p, 0);
  }

  /** Some keyword pattern, tried in order from `n`, hits the lower-cased message. */
  predicate AnyPatternFrom(s: string, n: nat)
    requires n <= |PushPatterns|
    decreases |PushPatterns| - n
  {
    n < |PushPatterns| && (SearchFrom(s, PushPatterns[n], 0) || AnyPatternFrom(s, n + 1))
  }

  predicate KeywordHit(message: string) {
    AnyPatternFrom(Lower(message), 0)
  }

  /** The result. `answer` is the model's reply, or `None` when the call failed. */
  function DetectPushIntent(message: string, answer: Option<string>): (r: bool)
    ensures KeywordHit(message) ==> r
    ensures !KeywordHit(message) ==> (r <==> answer.Some? && StartsWith(Strip(answer.value), "네"))
  {
    KeywordHit(message) || (answer.Some? && StartsWith(Strip(answer.value), "네"))
  }

  /** Any pattern of the table that hits makes the keyword rule fire. */
  lemma {:induction false} AnyPatternFromHit(s: string, n: nat, m: nat)
    requires n <= m < |PushPatterns| && Hits(s, PushPatterns[m])
    ensures AnyPatternFrom(s, n)
    decreases m - n
  {
    if n == m {
      SearchHits(s, PushPatterns[m]);
    } else {
      AnyPatternFromHit(s, n + 1, m);
    }
  }

  /** The keyword rule fires exactly when some pattern of the table hits. */
  lemma {:induction false} AnyPatternFromExact(s: string, n: nat)
    requires n <= |PushPatterns|
    ensures AnyPatternFrom(s, n) <==> exists m :: n <= m < |PushPatterns| && Hits(s, PushPatterns[m])
    decreases |PushPatterns| - n
  {
    if n < |PushPatterns| {
      SearchHits(s, PushPatterns[n]);
      AnyPatternFromExact(s, n + 1);
      if exists m :: n <= m < |PushPatterns| && Hits(s, PushPatterns[m]) {
        var m :| n <= m < |PushPatterns| && Hits(s, PushPatterns[m]);
        if m > n {
          assert n + 1 <= m;
        }
      }
    }
  }

  lemma KeywordHitExact(message: string)
    ensures KeywordHit(message) <==> exists m :: 0 <= m < |PushPatterns| && Hits(Lower(message), PushPatterns[m])
  {
    AnyPatternFromExact(Lower(message), 0);
  }

  /** A literal pattern hits wherever its word occurs. */
  lemma LitHits(s: string, w: string)
    requires Contains(s, w)
    ensures Hits(s, Lit(w))
  {
    var i :| 0 <= i <= |s| && OccursAt(s, w, i);
    var alts: seq<string> := [""];
    assert OccursAt(s, alts[0], i + |w|);
    assert AnyAltAt(s, i + |w|, [""]);
    assert MatchAt(s, Lit(w), i);
  }

  /** A message whose lower-cased text contains `push`, `commit`, `pr` or `pull request` is a
      push request whatever the model says, or if it is never asked. */
  lemma KeywordForcesPush(message: string, answer: Option<string>)
    requires Contains(Lower(message), "push") || Contains(Lower(message), "commit")
          || Contains(Lower(message), "pr") || Contains(Lower(message), "pull request")
    ensures DetectPushIntent(message, answer)
  {
    var s := Lower(message);
    if Contains(s, "push") {
      LitHits(s, "push");
      assert PushPatterns[15] == Lit("push");
      AnyPatternFromHit(s, 0, 15);
    } else if Contains(s, "commit") {
      LitHits(s, "commit");
      assert PushPatterns[16] == Lit("commit");
      AnyPatternFromHit(s, 0, 16);
    } else if Contains(s, "pr") {
      LitHits(s, "pr");
      assert PushPatterns[17] == Lit("pr");
      AnyPatternFromHit(s, 0, 17);
    } else {
      LitHits(s, "pull request");
      assert PushPatterns[18] == Lit("pull request");
      AnyPatternFromHit(s, 0, 18);
    }
  }

  /** Upper-case keywords count too: `PUSH` lower-cases to `push`. */
  lemma UpperCaseKeyword()
    ensures DetectPushIntent("PUSH", None)
  {
    assert Lower("PUSH") == "push";
    assert OccursAt(Lower("PUSH"), "push", 0);
    KeywordForcesPush("PUSH", None);
  }

  /** Without a keyword hit, a failed model call gives no push intent. */
  lemma OracleFailureNoPush(message: string)
    requires !KeywordHit(message)
    ensures !DetectPushIntent(message, None)
  {
  }

  /** `깃허브에 올려줘`: head, particle, no space, alternative. */
  lemma ParticleExample()
    ensures Hits("깃허브에 올려줘", PushPatterns[0])
  {
    var s := "깃허브에 올려줘";
    assert PushPatterns[0].alts[2] == "올려";
    assert OccursAt(s, PushPatterns[0].alts[2], 5);
    assert AnyAltAt(s, 5, PushPatterns[0].alts);
    assert AltAfterSpaces(s, 4, PushPatterns[0].alts);
    assert MatchAt(s, PushPatterns[0], 0);
  }
}

=== FILE: python_chunker.dfy ===
/** The hierarchical Python chunker (`chunk_python_functions`): every class and every
    function becomes one chunk when it fits its complexity-dependent token budget, and
    otherwise a header chunk (imports, definition line, docstring) followed by token windows
    over the rest of its body. Nested definitions are visited through `body` only.

    The parser is an oracle: the caller passes the parsed module (or `None` when parsing
    fails) as a tree of statements carrying what the chunker reads from the real AST. */
module PyChunker {
  import opened Wrappers
  import opened Text
  import opened TokenWindows
  import opened Chunks

  datatype BlockKind = IfStmt | ForStmt | WhileStmt | TryStmt | OtherBlock

  /** A base-class expression: a plain name or anything else (an attribute, a call). */
  datatype Base = NameBase(id: string) | OtherBase

  /** The statements the chunker distinguishes. `lineno` is 1-based; `endLineno` is `None`
      when the node carries no end position; `docstring` is `ast.get_docstring`, with the
      empty string standing for both "none" and "empty" since the chunker tests truthiness.
      `Block` is any other compound statement (its `body` holds all nested statements,
      `else` and handler parts included); `AsyncFunctionDef` is a `Block` of kind
      `OtherBlock`, since the chunker recognises only `FunctionDef` and `ClassDef`. */
  datatype Stmt =
    | FunctionDef(name: string, argCount: nat, lineno: nat, endLineno: Option<nat>, docstring: string, body: seq<Stmt>)
    | ClassDef(name: string, bases: seq<Base>, lineno: nat, endLineno: Option<nat>, docstring: string, body: seq<Stmt>)
    | Import(lineno: nat, endLineno: Option<nat>)
    | Block(kind: BlockKind, body: seq<Stmt>)
    | Simple

  predicate IsDef(s: Stmt) {
    s.FunctionDef? || s.ClassDef?
  }

  /** The positions the parser guarantees for a definition: its first line is a line of the
      source and its end line is not before its first line. */
  predicate WellPlaced(s: Stmt, nLines: nat)
    decreases s
  {
    && (IsDef(s) ==> 1 <= s.lineno <= nLines && (s.endLineno.Some? ==> s.endLineno.value >= s.lineno))
    && (!(s.Import? || s.Simple?) ==> forall i :: 0 <= i < |s.body| ==> WellPlaced(s.body[i], nLines))
  }

  // ---------------------------------------------------------------------------
  // ast.walk and complexity
  // ---------------------------------------------------------------------------

  /** `ast.walk(node)` restricted to statements: the node and all its descendants. */
  function Walk(s: Stmt): seq<Stmt>
    decreases s, 1
  {
    [s] + (if s.Import? || s.Simple? then [] else WalkAll(s.body))
  }

  function WalkAll(ss: seq<Stmt>): seq<Stmt>
    decreases ss, 0
  {
    if |ss| == 0 then [] else Walk(ss[0]) + WalkAll(ss[1..])
  }

  predicate IsBranch(s: Stmt) {
    s.Block? && s.kind != OtherBlock
  }

  function CountBranches(ss: seq<Stmt>): nat {
    if |ss| == 0 then 0 else (if IsBranch(ss[0]) then 1 else 0) + CountBranches(ss[1..])
  }

  function CountDefs(ss: seq<Stmt>): nat {
    if |ss| == 0 then 0 else (if ss[0].FunctionDef? then 1 else 0) + CountDefs(ss[1..])
  }

  /** `calculate_complexity`: a function scores one, plus its parameters, plus every
      `if`/`for`/`while`/`try` anywhere inside it; a class scores one, plus its bases,
      plus the functions defined directly in it; anything else scores one. */
  function Complexity(s: Stmt): nat {
    match s
    case FunctionDef(_, argCount, _, _, _, _) => 1 + argCount + CountBranches(Walk(s))
    case ClassDef(_, bases, _, _, _, body) => 1 + |bases| + CountDefs(body)
    case _ => 1
  }

  /** The branch statements of a tree counted by structural recursion. */
  function Branches(s: Stmt): nat
    decreases s, 1
  {
    (if IsBranch(s) then 1 else 0) + (if s.Import? || s.Simple? then 0 else BranchesAll(s.body))
  }

  function BranchesAll(ss: seq<Stmt>): nat
    decreases ss, 0
  {
    if |ss| == 0 then 0 else Branches(ss[0]) + BranchesAll(ss[1..])
  }

  lemma CountBranchesAppend(a: seq<Stmt>, b: seq<Stmt>)
    ensures CountBranches(a + b) == CountBranches(a) + CountBranches(b)
  {
    if |a| > 0 {
      assert (a + b)[1..] == a[1..] + b;
      CountBranchesAppend(a[1..], b);
    } else {
      assert a + b == b;
    }
  }

  /** Counting branch nodes in the flattened walk is the same as counting them in the tree. */
  lemma {:induction false} WalkCountsBranches(s: Stmt)
    ensures CountBranches(Walk(s)) == Branches(s)
    decreases s, 1
  {
    if !(s.Import? || s.Simple?) {
      CountBranchesAppend([s], WalkAll(s.body));
      WalkAllCountsBranches(s.body);
    }
  }

  lemma {:induction false} WalkAllCountsBranches(ss: seq<Stmt>)
    ensures CountBranches(WalkAll(ss)) == BranchesAll(ss)
    decreases ss, 0
  {
    if |ss| > 0 {
      CountBranchesAppend(Walk(ss[0]), WalkAll(ss[1..]));
      WalkCountsBranches(ss[0]);
      WalkAllCountsBranches(ss[1..]);
    }
  }

  /** A function's complexity is one plus its parameters plus the branch statements of its
      tree; a function without parameters or branches scores exactly one. */
  lemma FunctionComplexity(s: Stmt)
    requires s.FunctionDef?
    ensures Complexity(s) == 1 + s.argCount + Branches(s)
    ensures Complexity(s) >= 1 + s.argCount
  {
    WalkCountsBranches(s);
  }

  // ---------------------------------------------------------------------------
  // Chunking one definition
  // ---------------------------------------------------------------------------

  /** What the chunker reads besides the tree: the source lines, the joined top-level
      import statements, and the tokenizer. */
  datatype Env = Env(lines: seq<string>, importsText: string,
                     encode: string -> seq<int>, decode: seq<int> -> string)

  function BaseNames(bases: seq<Base>): (names: seq<string>)
    ensures |names| <= |bases|
  {
    if |bases| == 0 then []
    else (if bases[0].NameBase? then [bases[0].id] else []) + BaseNames(bases[1..])
  }

  /** The docstring block of a header: the docstring indented between triple quotes, or
      just the line break that ends the definition line. */
  function DocPart(doc: string): string {
    if doc == "" then "\n" else "\n    \"\"\"\n    " + doc + "\n    \"\"\"\n"
  }

  /** The last line a header chunk claims: the definition line, plus the docstring lines
      and both quote lines when there is a docstring. */
  function HeaderEnd(start: nat, doc: string): nat {
    start + 1 + (if doc == "" then 1 else |SplitLines(doc)| + 2)
  }

  /** The fields repeated on every chunk of a definition. A class records its own name in
      the class position, its enclosing class as parent, and its plain-name bases joined by
      commas; a function records its name, its enclosing class and its enclosing function. */
  function DefTag(s: Stmt, parentClass: Option<string>, parentFunc: Option<string>): Tag
    requires IsDef(s)
  {
    if s.ClassDef? then Tag(None, Some(s.name), parentClass, Complexity(s), Some(Join(BaseNames(s.bases), ",")))
    else Tag(Some(s.name), parentClass, parentFunc, Complexity(s), None)
  }

  /** Whether the header of a split definition starts with the imports: always for a class,
      and for a function only outside a class. */
  predicate HeaderHasImports(env: Env, s: Stmt, parentClass: Option<string>) {
    env.importsText != "" && (s.ClassDef? || parentClass.None?)
  }

  function HeaderText(env: Env, s: Stmt, parentClass: Option<string>): string
    requires IsDef(s) && 1 <= s.lineno <= |env.lines|
  {
    (if HeaderHasImports(env, s, parentClass) then env.importsText + "\n\n" else "")
      + env.lines[s.lineno - 1] + DocPart(s.docstring)
  }

  function WholeText(env: Env, s: Stmt): string
    requires IsDef(s) && s.lineno >= 1 && s.endLineno.Some?
  {
    Join(Slice(env.lines, s.lineno - 1, s.endLineno.value), "\n")
  }

  function BodyText(env: Env, s: Stmt): string
    requires IsDef(s) && s.endLineno.Some?
  {
    Join(Slice(env.lines, s.lineno, s.endLineno.value), "\n")
  }

  /** The chunks of one class or function, not counting nested definitions. */
  function DefChunks(env: Env, s: Stmt, parentClass: Option<string>, parentFunc: Option<string>): (cs: seq<Chunk>)
    requires IsDef(s) && 1 <= s.lineno <= |env.lines| && s.endLineno.Some?
    ensures |cs| >= 1
  {
    var start := s.lineno - 1;
    var end := s.endLineno.value;
    var tag := DefTag(s, parentClass, parentFunc);
    var b := Budget(Complexity(s));
    var whole := WholeText(env, s);
    var n := |env.encode(whole)|;
    if n <= b.0 then [Mk(whole, 0, n, tag, Some(start + 1), Some(end))]
    else
      var header := HeaderText(env, s, parentClass);
      [Mk(header, 0, |env.encode(header)|, tag, Some(start + 1), Some(HeaderEnd(start, s.docstring)))]
        + FromWindows(Windows(env.encode(BodyText(env, s)), env.decode, b.0, b.1), tag, Some(start + 1), Some(end))
  }

  /** A definition that fits its budget is one chunk holding its whole text; one that does
      not is a header chunk followed by windows of its body, none over the budget, which
      itself never exceeds 512 tokens. Every chunk carries the definition's tag. */
  lemma DefChunksWholeOrSplit(env: Env, s: Stmt, parentClass: Option<string>, parentFunc: Option<string>)
    requires IsDef(s) && 1 <= s.lineno <= |env.lines| && s.endLineno.Some?
    ensures var cs := DefChunks(env, s, parentClass, parentFunc);
            var b := Budget(Complexity(s));
            && (forall k :: 0 <= k < |cs| ==> HasTag(cs[k], DefTag(s, parentClass, parentFunc)))
            && (|env.encode(WholeText(env, s))| <= b.0 ==>
                  cs == [Mk(WholeText(env, s), 0, |env.encode(WholeText(env, s))|,
                            DefTag(s, parentClass, parentFunc), Some(s.lineno), s.endLineno)])
            && (|env.encode(WholeText(env, s))| > b.0 ==>
                  cs[0].text == HeaderText(env, s, parentClass)
                  && cs[1..] == FromWindows(Windows(env.encode(BodyText(env, s)), env.decode, b.0, b.1),
                                            DefTag(s, parentClass, parentFunc), Some(s.lineno), s.endLineno)
                  && (forall k :: 1 <= k < |cs| ==> cs[k].tokEnd - cs[k].tokStart <= b.0 <= 512))
  {
    var tag := DefTag(s, parentClass, parentFunc);
    var b := Budget(Complexity(s));
    if |env.encode(WholeText(env, s))| > b.0 {
      DefChunksSplit(env, s, parentClass, parentFunc, tag, b);
    }
  }

  /** The split case: a header chunk, then one chunk per window of the body. */
  lemma DefChunksSplit(env: Env, s: Stmt, parentClass: Option<string>, parentFunc: Option<string>, tag: Tag, b: (nat, nat))
    requires IsDef(s) && 1 <= s.lineno <= |env.lines| && s.endLineno.Some?
    requires tag == DefTag(s, parentClass, parentFunc) && b == Budget(Complexity(s))
    requires |env.encode(WholeText(env, s))| > b.0
    ensures var cs := DefChunks(env, s, parentClass, parentFunc);
            cs[0].text == HeaderText(env, s, parentClass)
            && cs[1..] == FromWindows(Windows(env.encode(BodyText(env, s)), env.decode, b.0, b.1), tag, Some(s.lineno), s.endLineno)
            && forall k :: 0 <= k < |cs| ==> HasTag(cs[k], tag) && (k >= 1 ==> cs[k].tokEnd - cs[k].tokStart <= b.0)
  {
    var header := HeaderText(env, s, parentClass);
    var first := Mk(header, 0, |env.encode(header)|, tag, Some(s.lineno), Some(HeaderEnd(s.lineno - 1, s.docstring)));
    var ws := Windows(env.encode(BodyText(env, s)), env.decode, b.0, b.1);
    var rest := FromWindows(ws, tag, Some(s.lineno), s.endLineno);
    var cs := DefChunks(env, s, parentClass, parentFunc);
    assert cs == [first] + rest;
    assert cs[1..] == rest;
    forall k | 0 <= k < |cs| ensures HasTag(cs[k], tag) && (k >= 1 ==> cs[k].tokEnd - cs[k].tokStart <= b.0) {
      if k >= 1 {
        assert cs[k] == rest[k - 1];
      }
    }
  }

  /** The chunks after the header of a split definition cover the token list of its body:
      there are some exactly when the body has tokens; each holds the decoding of its own
      range of at most `b.0` body tokens; the first starts at token 0, the last ends at the
      last token, each next one re-reads exactly `b.1` tokens of the previous one; and
      stitching their ranges gives the body's token list back. */
  lemma DefChunksBodyWindows(env: Env, s: Stmt, parentClass: Option<string>, parentFunc: Option<string>)
    requires IsDef(s) && 1 <= s.lineno <= |env.lines| && s.endLineno.Some?
    requires |env.encode(WholeText(env, s))| > Budget(Complexity(s)).0
    ensures var tail := DefChunks(env, s, parentClass, parentFunc)[1..];
            var ids := env.encode(BodyText(env, s));
            var b := Budget(Complexity(s));
            && (|tail| == 0 <==> |ids| == 0)
            && (forall k :: 0 <= k < |tail| ==>
                  tail[k].tokStart < tail[k].tokEnd <= |ids| && tail[k].tokEnd - tail[k].tokStart <= b.0
                  && tail[k].text == env.decode(ids[tail[k].tokStart..tail[k].tokEnd])
                  && tail[k].startLine == Some(s.lineno as int) && tail[k].endLine == Some(s.endLineno.value as int))
            && (|tail| > 0 ==> tail[0].tokStart == 0 && tail[|tail| - 1].tokEnd == |ids|)
            && (forall k :: 0 <= k < |tail| - 1 ==> tail[k + 1].tokStart + b.1 == tail[k].tokEnd)
            && Stitch(ids, AsWindows(tail), b.1) == ids
  {
    var tag := DefTag(s, parentClass, parentFunc);
    var b := Budget(Complexity(s));
    var ids := env.encode(BodyText(env, s));
    var sl: Option<int>, el: Option<int> := Some(s.lineno as int), Some(s.endLineno.value as int);
    DefChunksSplit(env, s, parentClass, parentFunc, tag, b);
    assert DefChunks(env, s, parentClass, parentFunc)[1..] == FromWindows(Windows(ids, env.decode, b.0, b.1), tag, sl, el);
    WindowChunksCover(ids, env.decode, b.0, b.1, tag, sl, el);
  }

  /** A split method's header starts with its definition line; a split top-level function's
      or any split class's header starts with the imports. */
  lemma HeaderImports(env: Env, s: Stmt, parentClass: Option<string>)
    requires IsDef(s) && 1 <= s.lineno <= |env.lines|
    ensures env.importsText != "" && (s.ClassDef? || parentClass.None?) ==>
              StartsWith(HeaderText(env, s, parentClass), env.importsText + "\n\n")
    ensures s.FunctionDef? && parentClass.Some? ==>
              StartsWith(HeaderText(env, s, parentClass), env.lines[s.lineno - 1])
  {
    var h := HeaderText(env, s, parentClass);
    if HeaderHasImports(env, s, parentClass) {
      assert h == (env.importsText + "\n\n") + (env.lines[s.lineno - 1] + DocPart(s.docstring));
    } else {
      assert h == env.lines[s.lineno - 1] + DocPart(s.docstring);
    }
  }

  // ---------------------------------------------------------------------------
  // The recursive walk over definitions
  // ---------------------------------------------------------------------------

  /** `process_node`: nodes other than classes and functions, and definitions without an
      end line, yield nothing and are not descended into. A class passes itself as parent
      class to its body; a function passes on its parent class and names itself as parent
      function. */
  function ProcessNode(env: Env, s: Stmt, parentClass: Option<string>, parentFunc: Option<string>): seq<Chunk>
    requires WellPlaced(s, |env.lines|)
    decreases s, 1
  {
    if IsDef(s) && s.endLineno.Some? then
      DefChunks(env, s, parentClass, parentFunc)
        + (if s.ClassDef? then ProcessBody(env, s.body, Some(s.name), None)
           else ProcessBody(env, s.body, parentClass, Some(s.name)))
    else []
  }

  function ProcessBody(env: Env, ss: seq<Stmt>, parentClass: Option<string>, parentFunc: Option<string>): seq<Chunk>
    requires forall i :: 0 <= i < |ss| ==> WellPlaced(ss[i], |env.lines|)
    decreases ss, 0
  {
    if |ss| == 0 then [] else ProcessNode(env, ss[0], parentClass, parentFunc) + ProcessBody(env, ss[1..], parentClass, parentFunc)
  }

  /** Line ranges are never inverted: every chunk of the walk names a start line and an
      end line, and the start is not after the end. */
  predicate LinesOrdered(cs: seq<Chunk>) {
    forall k :: 0 <= k < |cs| ==>
      cs[k].startLine.Some? && cs[k].endLine.Some? && cs[k].startLine.value <= cs[k].endLine.value
  }

  lemma DefChunksOrdered(env: Env, s: Stmt, parentClass: Option<string>, parentFunc: Option<string>)
    requires IsDef(s) && 1 <= s.lineno <= |env.lines| && s.endLineno.Some? && s.endLineno.value >= s.lineno
    ensures LinesOrdered(DefChunks(env, s, parentClass, parentFunc))
  {
  }

  lemma {:induction false} ProcessNodeOrdered(env: Env, s: Stmt, parentClass: Option<string>, parentFunc: Option<string>)
    requires WellPlaced(s, |env.lines|)
    ensures LinesOrdered(ProcessNode(env, s, parentClass, parentFunc))
    decreases s, 1
  {
    if IsDef(s) && s.endLineno.Some? {
      DefChunksOrdered(env, s, parentClass, parentFunc);
      if s.ClassDef? {
        ProcessBodyOrdered(env, s.body, Some(s.name), None);
      } else {
        ProcessBodyOrdered(env, s.body, parentClass, Some(s.name));
      }
    }
  }

  lemma {:induction false} ProcessBodyOrdered(env: Env, ss: seq<Stmt>, parentClass: Option<string>, parentFunc: Option<string>)
    requires forall i :: 0 <= i < |ss| ==> WellPlaced(ss[i], |env.lines|)
    ensures LinesOrdered(ProcessBody(env, ss, parentClass, parentFunc))
    decreases ss, 0
  {
    if |ss| > 0 {
      ProcessNodeOrdered(env, ss[0], parentClass, parentFunc);
      ProcessBodyOrdered(env, ss[1..], parentClass, parentFunc);
    }
  }

  /** The chunks of each statement of a body are among the chunks of the body. */
  lemma {:induction false} BodyContains(env: Env, ss: seq<Stmt>, i: nat, parentClass: Option<string>, parentFunc: Option<string>)
    requires forall j :: 0 <= j < |ss| ==> WellPlaced(ss[j], |env.lines|)
    requires i < |ss|
    ensures forall x :: x in ProcessNode(env, ss[i], parentClass, parentFunc) ==> x in ProcessBody(env, ss, parentClass, parentFunc)
  {
    var head := ProcessNode(env, ss[0], parentClass, parentFunc);
    var rs := ss[1..];
    assert forall j :: 0 <= j < |rs| ==> WellPlaced(rs[j], |env.lines|) by {
      forall j | 0 <= j < |rs| ensures WellPlaced(rs[j], |env.lines|) { assert rs[j] == ss[j + 1]; }
    }
    var tail := ProcessBody(env, rs, parentClass, parentFunc);
    assert ProcessBody(env, ss, parentClass, parentFunc) == head + tail;
    if i > 0 {
      assert rs[i - 1] == ss[i];
      BodyContains(env, rs, i - 1, parentClass, parentFunc);
    }
  }

  /** A class is chunked as its own chunks followed by its body's, with the class as parent
      class and no parent function; so the chunks of a function defined directly in a class
      are among the class's chunks, and they carry the class name and no parent function. */
  lemma MethodsOfClass(env: Env, c: Stmt, i: nat, parentClass: Option<string>, parentFunc: Option<string>)
    requires c.ClassDef? && WellPlaced(c, |env.lines|) && c.endLineno.Some?
    requires i < |c.body| && c.body[i].FunctionDef? && c.body[i].endLineno.Some?
    ensures var all := ProcessNode(env, c, parentClass, parentFunc);
            all == DefChunks(env, c, parentClass, parentFunc) + ProcessBody(env, c.body, Some(c.name), None)
    ensures var m := c.body[i];
            var own := DefChunks(env, m, Some(c.name), None);
            var all := ProcessNode(env, c, parentClass, parentFunc);
            forall k :: 0 <= k < |own| ==>
              own[k] in all && own[k].funcName == Some(m.name) && own[k].className == Some(c.name) && own[k].parent.None?
  {
    var m := c.body[i];
    var own := DefChunks(env, m, Some(c.name), None);
    var node := ProcessNode(env, m, Some(c.name), None);
    var all := ProcessNode(env, c, parentClass, parentFunc);
    DefChunksWholeOrSplit(env, m, Some(c.name), None);
    assert node == own + ProcessBody(env, m.body, Some(c.name), Some(m.name));
    BodyContains(env, c.body, i, Some(c.name), None);
    forall k | 0 <= k < |own|
      ensures own[k] in all
    {
      assert own[k] in node;
    }
  }

  // ---------------------------------------------------------------------------
  // The whole file
  // ---------------------------------------------------------------------------

  /** The source lines of each top-level `import`/`from … import` statement, joined. */
  function ImportTexts(lines: seq<string>, tree: seq<Stmt>): seq<string> {
    if |tree| == 0 then []
    else if tree[0].Import? then
      var start := if tree[0].lineno >= 1 then tree[0].lineno - 1 else 0;
      var end := if tree[0].endLineno.Some? then tree[0].endLineno.value else |lines|;
      [Join(Slice(lines, start, end), "\n")] + ImportTexts(lines, tree[1..])
    else ImportTexts(lines, tree[1..])
  }

  /** `chunk_python_functions`: one chunk for the whole source when parsing fails; otherwise
      the chunks of the top-level definitions in order, or token windows of 256 with an
      overlap of 64 over the whole source when there are none. */
  function ChunkPython(source: string, parsed: Option<seq<Stmt>>,
                       encode: string -> seq<int>, decode: seq<int> -> string): (cs: seq<Chunk>)
    requires parsed.Some? ==> forall i :: 0 <= i < |parsed.value| ==> WellPlaced(parsed.value[i], |SplitLines(source)|)
  {
    var lines := SplitLines(source);
    var fallback := Tag(None, None, None, 0, None);
    if parsed.None? then
      [Mk(source, 0, |encode(source)|, fallback, Some(1), Some(|lines|))]
    else
      var env := Env(lines, Join(ImportTexts(lines, parsed.value), "\n"), encode, decode);
      var structural := ProcessBody(env, parsed.value, None, None);
      if |structural| > 0 then structural
      else FromWindows(Windows(encode(source), decode, 256, 64), fallback, Some(1), Some(|lines|))
  }

  /** A source whose encoding is not empty always yields at least one chunk. */
  lemma ChunkPythonNonEmpty(source: string, parsed: Option<seq<Stmt>>,
                            encode: string -> seq<int>, decode: seq<int> -> string)
    requires parsed.Some? ==> forall i :: 0 <= i < |parsed.value| ==> WellPlaced(parsed.value[i], |SplitLines(source)|)
    requires |encode(source)| > 0
    ensures |ChunkPython(source, parsed, encode, decode)| > 0
  {
    WindowsTile(encode(source), decode, 256, 64);
  }

  /** Every chunk of a non-empty source names a start line not after its end line. */
  lemma ChunkPythonOrdered(source: string, parsed: Option<seq<Stmt>>,
                           encode: string -> seq<int>, decode: seq<int> -> string)
    requires parsed.Some? ==> forall i :: 0 <= i < |parsed.value| ==> WellPlaced(parsed.value[i], |SplitLines(source)|)
    requires source != ""
    ensures LinesOrdered(ChunkPython(source, parsed, encode, decode))
  {
    var lines := SplitLines(source);
    assert |lines| >= 1;
    if parsed.Some? {
      var env := Env(lines, Join(ImportTexts(lines, parsed.value), "\n"), encode, decode);
      ProcessBodyOrdered(env, parsed.value, None, None);
    }
  }

  /** When parsing fails the whole source is one chunk spanning all its tokens and lines. */
  lemma ParseFailureSingleChunk(source: string, encode: string -> seq<int>, decode: seq<int> -> string)
    ensures var cs := ChunkPython(source, None, encode, decode);
            |cs| == 1 && cs[0].text == source && cs[0].tokStart == 0 && cs[0].tokEnd == |encode(source)|
            && cs[0].startLine == Some(1) && cs[0].endLine == Some(|SplitLines(source)|)
            && cs[0].funcName.None? && cs[0].className.None? && cs[0].complexity == 0
  {
  }
}

=== FILE: repo_url.dfy ===
/** `extract_repo_info`, which the fetcher class and the stand-alone repository viewer define
    identically: the URL is trimmed, trailing slashes and one `.git` suffix are removed, and
    owner and repository are the two path segments after the first `github.com` segment. */
module RepoUrl {
  import opened Wrappers
  import opened Text

  datatype RepoInfo = RepoInfo(owner: string, repo: string, path: Option<string>)

  /** `url.strip().rstrip('/')`, then one trailing `.git` cut off. */
  function NormalizeUrl(url: string): (u: string)
    ensures |u| <= |url|
  {
    var t := RStripChar(Strip(url), '/');
    if EndsWith(t, ".git") then t[..|t| - 4] else t
  }

  /** `parts.index(x)`, or -1 where Python would raise. */
  function IndexOf(parts: seq<string>, x: string): (i: int)
    ensures i == -1 <==> x !in parts
    ensures i != -1 ==> 0 <= i < |parts| && parts[i] == x && x !in parts[..i]
  {
    if |parts| == 0 then -1
    else if parts[0] == x then 0
    else
      var j := IndexOf(parts[1..], x);
      assert j != -1 ==> parts[1..][..j] == parts[1..j + 1];
      if j == -1 then -1 else j + 1
  }

  /** `(owner, repo, path)` or, for `(None, None, None)`, `None`. The path is the segments
      after the repository joined by `/`, or `None` when there are none. */
  function ExtractRepoInfo(url: string): (r: Option<RepoInfo>)
    ensures "github.com" !in Split(NormalizeUrl(url), '/') ==> r.None?
    ensures r.Some? ==> '/' !in r.value.owner && '/' !in r.value.repo
  {
    var parts := Split(NormalizeUrl(url), '/');
    var g := IndexOf(parts, "github.com");
    if g == -1 || |parts| < g + 3 then None
    else Some(RepoInfo(parts[g + 1], parts[g + 2],
                       if |parts| > g + 3 then Some(Join(parts[g + 3..], "/")) else None))
  }

  /** The parts of `https://github.com/owner/repo/seg/...`. */
  function UrlParts(owner: string, repo: string, segs: seq<string>): seq<string> {
    ["https:", "", "github.com", owner, repo] + segs
  }

  /** The last segment decides how normalisation treats the end of the URL. */
  predicate CleanLast(last: string) {
    last != [] && !IsSpace(last[|last| - 1]) && last[|last| - 1] != '/' && !EndsWith(last, ".git")
  }

  /** A string ending in a slash and a slash-free segment ends in `.git` only if that
      segment does. */
  lemma EndsWithGitAfterSlash(init: string, last: string)
    requires '/' !in last && !EndsWith(last, ".git")
    ensures !EndsWith(init + "/" + last, ".git")
  {
    var s := init + "/" + last;
    if |last| >= 4 {
      assert s[|s| - 4..] == last[|last| - 4..];
    } else if |s| >= 4 {
      assert s[|s| - 4..][3 - |last|] == '/';
    }
  }

  /** Joining keeps the separator between a prefix and one more part. */
  lemma {:induction false} JoinSnoc(init: seq<string>, last: string, sep: string)
    requires |init| >= 1
    ensures Join(init + [last], sep) == Join(init, sep) + sep + last
    decreases |init|
  {
    if |init| == 1 {
      assert (init + [last])[1..] == [last];
    } else {
      assert (init + [last])[1..] == init[1..] + [last];
      JoinSnoc(init[1..], last, sep);
    }
  }

  /** A trimmed URL that does not end in `/` or `.git` is left alone by normalisation. */
  lemma NormalizeClean(url: string)
    requires url != [] && !IsSpace(url[0]) && !IsSpace(url[|url| - 1])
    requires url[|url| - 1] != '/' && !EndsWith(url, ".git")
    ensures NormalizeUrl(url) == url
  {
    StripNoop(url);
  }

  /** The joined URL starts with its first part and ends with its last. */
  lemma JoinEnds(parts: seq<string>, sep: string)
    requires |parts| >= 2
    ensures Join(parts, sep) == parts[0] + sep + Join(parts[1..], sep)
    ensures Join(parts, sep) == Join(parts[..|parts| - 1], sep) + sep + parts[|parts| - 1]
  {
    var init, last := parts[..|parts| - 1], parts[|parts| - 1];
    assert init + [last] == parts;
    JoinSnoc(init, last, sep);
  }

  /** A URL built from owner, repository and path segments is read back as exactly those,
      the path being the segments joined by `/`. */
  lemma ExtractRoundTrip(owner: string, repo: string, segs: seq<string>)
    requires forall k :: 0 <= k < |UrlParts(owner, repo, segs)| ==> '/' !in UrlParts(owner, repo, segs)[k]
    requires CleanLast(UrlParts(owner, repo, segs)[|UrlParts(owner, repo, segs)| - 1])
    ensures ExtractRepoInfo(Join(UrlParts(owner, repo, segs), "/"))
            == Some(RepoInfo(owner, repo, if segs == [] then None else Some(Join(segs, "/"))))
  {
    var parts := UrlParts(owner, repo, segs);
    var url := Join(parts, "/");
    var last := parts[|parts| - 1];
    var init := Join(parts[..|parts| - 1], "/");
    JoinEnds(parts, "/");
    assert url == "https:" + "/" + Join(parts[1..], "/");
    assert url[0] == 'h';
    assert url == init + "/" + last;
    assert url[|url| - 1] == last[|last| - 1];
    EndsWithGitAfterSlash(init, last);
    NormalizeClean(url);
    JoinSplit(parts, '/');
    assert Split(NormalizeUrl(url), '/') == parts;
    assert parts[0] != "github.com" && parts[1] != "github.com" && parts[2] == "github.com";
    assert IndexOf(parts, "github.com") == 2;
    assert parts[5..] == segs;
  }

  /** One `.git` suffix is ignored. */
  lemma DropGitSuffix(u: string)
    requires u != [] && !IsSpace(u[0]) && CleanLast(u)
    ensures ExtractRepoInfo(u + ".git") == ExtractRepoInfo(u)
  {
    var g := u + ".git";
    assert g[0] == u[0] && g[|g| - 1] == 't';
    StripNoop(g);
    assert RStripChar(g, '/') == g;
    assert EndsWith(g, ".git");
    assert g[..|g| - 4] == u;
    assert NormalizeUrl(g) == u;
    NormalizeClean(u);
  }

  /** `main` of the viewer keeps asking until owner and repository are both non-empty. */
  predicate Accepted(url: string) {
    var r := ExtractRepoInfo(url);
    r.Some? && r.value.owner != "" && r.value.repo != ""
  }

  /** A path typed as `all`, in any case, selects the whole repository. */
  predicate SelectsAll(path: string) {
    Lower(path) == "all"
  }

  lemma AcceptedRoundTrip(owner: string, repo: string, segs: seq<string>)
    requires owner != "" && repo != ""
    requires forall k :: 0 <= k < |UrlParts(owner, repo, segs)| ==> '/' !in UrlParts(owner, repo, segs)[k]
    requires CleanLast(UrlParts(owner, repo, segs)[|UrlParts(owner, repo, segs)| - 1])
    ensures Accepted(Join(UrlParts(owner, repo, segs), "/"))
  {
    ExtractRoundTrip(owner, repo, segs);
  }

  /** A URL with an empty owner segment, such as `https://github.com//r`, is refused. */
  lemma EmptyOwnerRejected(repo: string, segs: seq<string>)
    requires forall k :: 0 <= k < |UrlParts("", repo, segs)| ==> '/' !in UrlParts("", repo, segs)[k]
    requires CleanLast(UrlParts("", repo, segs)[|UrlParts("", repo, segs)| - 1])
    ensures !Accepted(Join(UrlParts("", repo, segs), "/"))
  {
    ExtractRoundTrip("", repo, segs);
  }

  lemma EmptyOwnerExample()
    ensures !Accepted("https://github.com//r")
  {
    var parts := UrlParts("", "r", []);
    assert Join(parts, "/") == "https://github.com//r";
    assert CleanLast(parts[4]) by {
      assert !EndsWith("r", ".git");
    }
    EmptyOwnerRejected("r", []);
  }

  /** Exactly the three-letter paths spelling `all` in any mix of cases select everything. */
  lemma SelectsAllIff(path: string)
    ensures SelectsAll(path) <==> |path| == 3 && path[0] in "aA" && path[1] in "lL" && path[2] in "lL"
  {
    if SelectsAll(path) {
      assert LowerChar(path[0]) == 'a' && LowerChar(path[1]) == 'l' && LowerChar(path[2]) == 'l';
    }
    if |path| == 3 && path[0] in "aA" && path[1] in "lL" && path[2] in "lL" {
      assert Lower(path) == [LowerChar(path[0]), LowerChar(path[1]), LowerChar(path[2])];
    }
  }

  lemma SelectsAllExamples()
    ensures SelectsAll("all") && SelectsAll("ALL") && SelectsAll("All")
    ensures !SelectsAll("al") && !SelectsAll("all/")
  {
    SelectsAllIff("all");
    SelectsAllIff("ALL");
    SelectsAllIff("All");
    SelectsAllIff("al");
    SelectsAllIff("all/");
  }
}

=== FILE: repo_viewer.dfy ===
/** The stand-alone repository viewer's contents requests, mapped from the HTTP response to
    the value they return, and the two URL and extension checks its tests define.

    A request that raises is `None` as the response; a body that is not JSON is `None` as the
    decoded body. Base64 and UTF-8 decoding are an oracle. The URL parsing the viewer shares
    with the fetcher is in `RepoUrl`. */
module RepoViewer {
  import opened Wrappers
  import opened Text
  import RepoUrl

  /** A decoded JSON value as far as the viewer looks into it; `OtherScalar` is a boolean or
      a float. */
  datatype Json = Null | Str(s: string) | Num(n: int) | OtherScalar
                | Object(fields: map<string, Json>) | List(items: seq<Json>)

  /** The status and the decoded body (`None` when `response.json()` raises). */
  datatype Response = Response(status: int, json: Option<Json>)

  /** `get_repo_content`: the decoded body on 200, whatever its shape; `None` on 403, 404, any
      other status, a failed request, a body that does not decode, or a JSON `null` body
      (which Python returns as `None`). */
  function GetRepoContent(resp: Option<Response>): (r: Option<Json>)
    ensures r.Some? <==> resp.Some? && resp.value.status == 200 && resp.value.json.Some? && resp.value.json.value != Null
    ensures r.Some? ==> r.value == resp.value.json.value
  {
    if resp.None? then None
    else if resp.value.status == 403 then None
    else if resp.value.status == 404 then None
    else if resp.value.status != 200 then None
    else match resp.value.json
      case Some(Null) => None
      case other => other
  }

  /** `get_repo_directory_contents`: a list body on 200, whatever its items; `None` otherwise. */
  function GetDirectoryContents(resp: Option<Response>): (r: Option<seq<Json>>)
    ensures r.Some? <==> GetRepoContent(resp).Some? && GetRepoContent(resp).value.List?
    ensures r.Some? ==> r.value == GetRepoContent(resp).value.items
  {
    if resp.None? || resp.value.status != 200 then None
    else match resp.value.json
      case Some(List(items)) => Some(items)
      case _ => None
  }

  /** A `null` body is no content; a list of mixed items is a directory listing as it stands. */
  lemma BodyShapes(items: seq<Json>)
    ensures GetRepoContent(Some(Response(200, Some(Null)))).None?
    ensures GetDirectoryContents(Some(Response(200, Some(List(items))))) == Some(items)
    ensures GetDirectoryContents(Some(Response(200, Some(Object(map[]))))).None?
  {
  }

  /** The metadata fields copied from the contents object, `content` aside. */
  const MetaKeys: seq<string> := ["name", "path", "sha", "size", "url", "html_url", "git_url",
                                  "download_url", "type"]

  /** `dict.get(key)`: the value, or null when absent. */
  function Get(fields: map<string, Json>, key: string): Json {
    if key in fields then fields[key] else Null
  }

  /** The copied fields with `content` set. */
  function MetaOf(fields: map<string, Json>, content: Json): (m: map<string, Json>)
    ensures m.Keys == (set k | k in MetaKeys) + {"content"}
    ensures m["content"] == content
    ensures forall i :: 0 <= i < |MetaKeys| ==> m[MetaKeys[i]] == Get(fields, MetaKeys[i])
  {
    var m := map k | k in MetaKeys :: Get(fields, k);
    assert "content" !in MetaKeys;
    m["content" := content]
  }

  /** `get_repo_content_with_metadata`: on 200 with an object body, the nine metadata fields
      and the decoded `content` (null when absent or when decoding fails); `{}` otherwise.
      `decode` is base64 followed by UTF-8, `None` where either raises. */
  function GetRepoContentWithMetadata(resp: Option<Response>, decode: Json -> Option<string>): (r: map<string, Json>)
    ensures r != map[] <==> GetRepoContent(resp).Some? && GetRepoContent(resp).value.Object?
    ensures r != map[] ==> r.Keys == (set k | k in MetaKeys) + {"content"}
    ensures r != map[] ==>
              var fields := GetRepoContent(resp).value.fields;
              (forall i :: 0 <= i < |MetaKeys| ==> r[MetaKeys[i]] == Get(fields, MetaKeys[i]))
              && r["content"] == (if "content" in fields && decode(fields["content"]).Some?
                                  then Str(decode(fields["content"]).value) else Null)
  {
    if resp.None? || resp.value.status == 403 || resp.value.status == 404 || resp.value.status != 200 then map[]
    else match resp.value.json
      case Some(Object(fields)) =>
        var content := if "content" in fields then
                         (match decode(fields["content"]) case Some(text) => Str(text) case None => Null)
                       else Null;
        var m := MetaOf(fields, content);
        assert "content" in m;
        m
      case _ => map[]
  }

  /** The two file requests fail together: whenever the plain request gives `None`, the
      metadata request gives `{}`, whatever the status. */
  lemma FailuresAgree(resp: Option<Response>, decode: Json -> Option<string>)
    ensures GetRepoContent(resp).None? ==> GetRepoContentWithMetadata(resp, decode) == map[]
    ensures resp.Some? && resp.value.status != 200 ==>
              GetRepoContent(resp).None? && GetDirectoryContents(resp).None?
              && GetRepoContentWithMetadata(resp, decode) == map[]
  {
  }

  /** A file whose content does not decode keeps its metadata, with a null content. */
  lemma UndecodableContent(fields: map<string, Json>, decode: Json -> Option<string>)
    requires "content" in fields && decode(fields["content"]).None?
    ensures var r := GetRepoContentWithMetadata(Some(Response(200, Some(Object(fields)))), decode);
            r["content"] == Null && r["name"] == Get(fields, "name")
  {
    assert MetaKeys[0] == "name";
  }

  // ---------------------------------------------------------------------------
  // The checks the viewer's tests define
  // ---------------------------------------------------------------------------

  /** `is_valid_repo_url`: an HTTPS GitHub URL, an SSH GitHub URL, or anything ending in
      `.git`. */
  predicate IsValidRepoUrl(url: string) {
    StartsWith(url, "https://github.com/") || StartsWith(url, "git@github.com:") || EndsWith(url, ".git")
  }

  const ValidExtensions: seq<string> := [".py", ".js", ".md", ".json", ".yml", ".yaml"]

  /** `is_valid_file_extension`: the lower-cased extension is one of six. */
  predicate IsValidFileExtension(ext: string) {
    Lower(ext) in ValidExtensions
  }

  /** The URLs the tests accept. */
  lemma ValidUrlExamples()
    ensures IsValidRepoUrl("https://github.com/username/repo")
    ensures IsValidRepoUrl("https://github.com/username/repo.git")
    ensures IsValidRepoUrl("git@github.com:username/repo.git")
  {
    assert "https://github.com/username/repo"[..19] == "https://github.com/";
    assert "https://github.com/username/repo.git"[..19] == "https://github.com/";
    assert "git@github.com:username/repo.git"[..15] == "git@github.com:";
  }

  /** A URL that starts with neither prefix (told apart by its first, fourth and fifth
      characters) and whose fourth character from the end is not a dot is rejected. */
  lemma Rejected(url: string)
    requires |url| >= 5 && url[|url| - 4] != '.'
    requires url[0] != 'h' || url[4] != 's'
    requires url[0] != 'g' || url[3] != '@'
    ensures !IsValidRepoUrl(url)
  {
    assert "https://github.com/"[0] == 'h' && "https://github.com/"[4] == 's';
    assert "git@github.com:"[0] == 'g' && "git@github.com:"[3] == '@';
    if |url| >= 19 {
      assert url[..19][0] == url[0] && url[..19][4] == url[4];
    }
    if |url| >= 15 {
      assert url[..15][0] == url[0] && url[..15][3] == url[3];
    }
    assert url[|url| - 4..][0] == url[|url| - 4];
  }

  /** The URLs the tests reject: text that is not a URL, a host other than GitHub, and a
      GitHub address without a scheme. */
  lemma InvalidUrlExamples()
    ensures !IsValidRepoUrl("잘못된 URL")
    ensures !IsValidRepoUrl("http://not-github.com/repo")
    ensures !IsValidRepoUrl("github.com/username/repo")
  {
    Rejected("잘못된 URL");
    Rejected("http://not-github.com/repo");
    Rejected("github.com/username/repo");
  }

  /** Lower-casing twice is lower-casing once. */
  lemma LowerIdempotent(s: string)
    ensures Lower(Lower(s)) == Lower(s)
  {
  }

  /** Text without ASCII capitals is its own lower case. */
  lemma LowerNoCapitals(s: string)
    requires forall i :: 0 <= i < |s| ==> !('A' <= s[i] <= 'Z')
    ensures Lower(s) == s
  {
  }

  /** Case does not matter: an extension is valid exactly when its lower-case form is. */
  lemma ExtensionCaseInsensitive(ext: string)
    ensures IsValidFileExtension(ext) <==> IsValidFileExtension(Lower(ext))
  {
    LowerIdempotent(ext);
  }

  /** The extensions the tests accept. */
  lemma ValidExtensionExamples()
    ensures IsValidFileExtension(".py") && IsValidFileExtension(".js") && IsValidFileExtension(".md")
    ensures IsValidFileExtension(".json") && IsValidFileExtension(".yml") && IsValidFileExtension(".yaml")
  {
    ListedValid(0);
    ListedValid(1);
    ListedValid(2);
    ListedValid(3);
    ListedValid(4);
    ListedValid(5);
  }

  /** Each listed extension is written without capitals, so it is valid as it stands. */
  lemma ListedValid(k: nat)
    requires k < |ValidExtensions|
    ensures IsValidFileExtension(ValidExtensions[k])
  {
    var ext := ValidExtensions[k];
    assert forall i :: 0 <= i < |ext| ==> !('A' <= ext[i] <= 'Z');
    LowerNoCapitals(ext);
  }

  /** Text whose second character starts none of the six extensions, or a four-character text
      with `p` there, is not one of them. */
  lemma NotValidExtension(l: string)
    requires |l| >= 2
    requires (l[1] != 'p' && l[1] != 'j' && l[1] != 'm' && l[1] != 'y') || (|l| == 4 && l[1] == 'p')
    ensures l !in ValidExtensions
  {
    forall k | 0 <= k < |ValidExtensions| ensures ValidExtensions[k] != l {
      var e := ValidExtensions[k];
      assert |e| != |l| || e[1] != l[1];
    }
  }

  /** The extensions the tests reject. */
  lemma InvalidExtensionExamples()
    ensures !IsValidFileExtension(".txt") && !IsValidFileExtension(".doc")
    ensures !IsValidFileExtension(".pdf") && !IsValidFileExtension(".exe")
  {
    LowerNoCapitals(".txt");
    LowerNoCapitals(".doc");
    LowerNoCapitals(".pdf");
    LowerNoCapitals(".exe");
    NotValidExtension(".txt");
    NotValidExtension(".doc");
    NotValidExtension(".pdf");
    NotValidExtension(".exe");
  }

  /** Upper-case extensions are accepted too. */
  lemma UpperExtensionExample()
    ensures IsValidFileExtension(".PY")
  {
    assert Lower(".PY") == ".py";
  }

  /** Every HTTPS URL the viewer reads back as owner and repository passes the test's URL
      check. */
  lemma BuiltUrlValid(owner: string, repo: string, segs: seq<string>)
    ensures IsValidRepoUrl(Join(RepoUrl.UrlParts(owner, repo, segs), "/"))
  {
    var parts := RepoUrl.UrlParts(owner, repo, segs);
    var tail := Join(parts[3..], "/");
    JoinThree(parts, "/");
    var head := "https:" + "/" + "" + "/" + "github.com" + "/";
    assert head == "https://github.com/";
    assert (head + tail)[..|head|] == head;
  }

  /** The first three parts of a join, each followed by the separator, then the rest. */
  lemma JoinThree(parts: seq<string>, sep: string)
    requires |parts| >= 4
    ensures Join(parts, sep) == parts[0] + sep + parts[1] + sep + parts[2] + sep + Join(parts[3..], sep)
  {
    var a, b, c, t := parts[0], parts[1], parts[2], Join(parts[3..], sep);
    assert parts[1..][1..] == parts[2..] && parts[2..][1..] == parts[3..];
    assert Join(parts[2..], sep) == c + sep + t;
    assert Join(parts[1..], sep) == b + sep + Join(parts[2..], sep);
    assert Join(parts, sep) == a + sep + (b + sep + (c + sep + t));
    assert a + sep + (b + sep + (c + sep + t)) == a + sep + b + sep + c + sep + t;
  }
}

=== FILE: scope.dfy ===
/** `extract_scope_from_question`: the file names, function names, class names and directory
    names a question mentions, found by four `re.findall` scans.

    Each pattern is a run of characters followed by a fixed tail, and the backtracking of the
    greedy run is written out: `FindAll` is the left-to-right, non-overlapping scan of
    `re.findall`, and `MatchAt` the match (if any) that starts at one position. `\w` is the
    approximation in `Text.IsWordChar`, which takes in the Hangul syllables, so `함수` and
    `클래스` are themselves word characters. */
module Scope {
  import opened Wrappers
  import opened Text

  /** The four patterns: `([\w_\-/]+\.\w+)`, `(\w+) ?<tail>` for the two tails, and
      `([\w_\-/]+)/`. */
  datatype Kind = File | Named(tail: string) | Dir

  const FunctionKind := Named("함수")
  const ClassKind := Named("클래스")

  /** The class `[\w_\-/]`. */
  predicate IsPathChar(c: char) {
    IsWordChar(c) || c == '-' || c == '/'
  }

  /** The end of the longest run of path characters starting at `i`. */
  function PathRunEnd(s: string, i: nat): (j: nat)
    requires i <= |s|
    ensures i <= j <= |s|
    ensures forall k :: i <= k < j ==> IsPathChar(s[k])
    ensures j < |s| ==> !IsPathChar(s[j])
    decreases |s| - i
  {
    if i < |s| && IsPathChar(s[i]) then PathRunEnd(s, i + 1) else i
  }

  /** The end of the longest run of word characters starting at `i`. */
  function WordRunEnd(s: string, i: nat): (j: nat)
    requires i <= |s|
    ensures i <= j <= |s|
    ensures forall k :: i <= k < j ==> IsWordChar(s[k])
    ensures j < |s| ==> !IsWordChar(s[j])
    decreases |s| - i
  {
    if i < |s| && IsWordChar(s[i]) then WordRunEnd(s, i + 1) else i
  }

  /** The last `/` in `s[lo..hi]`: where the greedy run of `([\w_\-/]+)/` backs off to. */
  function LastSlash(s: string, lo: nat, hi: nat): (r: Option<nat>)
    requires lo <= hi <= |s|
    ensures r.Some? ==> lo <= r.value < hi && s[r.value] == '/'
    ensures r.Some? ==> forall k :: r.value < k < hi ==> s[k] != '/'
    ensures r.None? ==> forall k :: lo <= k < hi ==> s[k] != '/'
    decreases hi - lo
  {
    if hi == lo then None
    else if s[hi - 1] == '/' then Some(hi - 1)
    else LastSlash(s, lo, hi - 1)
  }

  /** The tail, with or without one space before it, starts at `k`. */
  predicate TailAt(s: string, tail: string, k: nat) {
    OccursAt(s, " " + tail, k) || OccursAt(s, tail, k)
  }

  /** The last cut `k` in `lo..hi` after which the tail follows: where the greedy `\w+` of
      `(\w+) ?<tail>` backs off to. */
  function LastCut(s: string, tail: string, lo: nat, hi: nat): (r: Option<nat>)
    requires lo <= hi + 1
    ensures r.Some? ==> lo <= r.value <= hi && TailAt(s, tail, r.value)
    ensures r.None? ==> forall k :: lo <= k <= hi ==> !TailAt(s, tail, k)
    decreases hi + 1 - lo
  {
    if hi + 1 == lo then None
    else if TailAt(s, tail, hi) then Some(hi)
    else if hi == lo then None
    else LastCut(s, tail, lo, hi - 1)
  }

  /** A file name: a run of path characters up to a dot, then a non-empty run of word
      characters. */
  predicate FileShape(g: string) {
    var d := PathRunEnd(g, 0);
    0 < d && d + 1 < |g| && g[d] == '.' && forall k :: d < k < |g| ==> IsWordChar(g[k])
  }

  /** `g` occurs in `s` at `q` and is not empty. */
  predicate GroupAt(s: string, q: nat, g: string) {
    0 < |g| && q + |g| <= |s| && s[q..q + |g|] == g
  }

  /** `g` is what the pattern of `kind` captures when it matches at `q` in `s`. */
  predicate Matched(kind: Kind, s: string, q: nat, g: string) {
    GroupAt(s, q, g)
    && match kind
       case File => FileShape(g)
       case Named(tail) => (forall k :: 0 <= k < |g| ==> IsWordChar(g[k])) && TailAt(s, tail, q + |g|)
       case Dir => (forall k :: 0 <= k < |g| ==> IsPathChar(g[k])) && q + |g| < |s| && s[q + |g|] == '/'
  }

  /** The shortest text a match of `kind` can hinge on, at position `p`: a path character
      before `.` and a word character; a word character before the tail; a path character
      before `/`. */
  predicate Anchor(kind: Kind, s: string, p: nat) {
    match kind
    case File => p + 2 < |s| && IsPathChar(s[p]) && s[p + 1] == '.' && IsWordChar(s[p + 2])
    case Named(tail) => p < |s| && IsWordChar(s[p]) && TailAt(s, tail, p + 1)
    case Dir => p + 1 < |s| && IsPathChar(s[p]) && s[p + 1] == '/'
  }

  /** The match of the file pattern at `i`: the longest run of path characters must stop at
      a dot that a word character follows, and the extension is the longest word run. */
  function FileMatch(s: string, i: nat): (r: Option<(string, nat)>)
    requires i < |s|
    ensures r.Some? ==> i < r.value.1 <= |s| && i + |r.value.0| <= r.value.1
    ensures r.Some? ==> Matched(File, s, i, r.value.0)
  {
    var j := PathRunEnd(s, i);
    if j > i && j + 1 < |s| && s[j] == '.' && IsWordChar(s[j + 1]) then
      var e := WordRunEnd(s, j + 1);
      PathRunEndOf(s[i..e], s, i, j);
      Some((s[i..e], e))
    else None
  }

  /** The match of `(\w+) ?<tail>` at `i`: the word run backs off to the last cut the tail
      follows; the optional space is taken when it is there. */
  function NamedMatch(tail: string, s: string, i: nat): (r: Option<(string, nat)>)
    requires i < |s|
    ensures r.Some? ==> i < r.value.1 <= |s| && i + |r.value.0| <= r.value.1
    ensures r.Some? ==> Matched(Named(tail), s, i, r.value.0)
  {
    var j := WordRunEnd(s, i);
    match LastCut(s, tail, i + 1, j)
    case None => None
    case Some(k) => Some((s[i..k], if OccursAt(s, " " + tail, k) then k + 1 + |tail| else k + |tail|))
  }

  /** The match of `([\w_\-/]+)/` at `i`: the path run backs off to its last slash. */
  function DirMatch(s: string, i: nat): (r: Option<(string, nat)>)
    requires i < |s|
    ensures r.Some? ==> i < r.value.1 <= |s| && i + |r.value.0| <= r.value.1
    ensures r.Some? ==> Matched(Dir, s, i, r.value.0)
  {
    var j := PathRunEnd(s, i);
    if j == i then None
    else match LastSlash(s, i + 1, j)
      case None => None
      case Some(k) => Some((s[i..k], k + 1))
  }

  /** The match of the pattern starting at `i`: the captured group and where the scan
      resumes. */
  function MatchAt(kind: Kind, s: string, i: nat): (r: Option<(string, nat)>)
    requires i < |s|
    ensures r.Some? ==> i < r.value.1 <= |s| && i + |r.value.0| <= r.value.1
    ensures r.Some? ==> Matched(kind, s, i, r.value.0)
  {
    match kind
    case File => FileMatch(s, i)
    case Named(tail) => NamedMatch(tail, s, i)
    case Dir => DirMatch(s, i)
  }

  /** The run of path characters of a slice ends where the run in the whole text does. */
  lemma PathRunEndOf(g: string, s: string, i: nat, j: nat)
    requires i <= j < i + |g| <= |s| && g == s[i..i + |g|]
    requires j == PathRunEnd(s, i)
    ensures PathRunEnd(g, 0) == j - i
  {
    PathRunEndIs(g, 0, j - i);
  }

  /** A run of path characters that stops at a non-path character (or the end) is the longest
      one. */
  lemma {:induction false} PathRunEndIs(s: string, i: nat, m: nat)
    requires i <= m <= |s|
    requires forall k :: i <= k < m ==> IsPathChar(s[k])
    requires m < |s| ==> !IsPathChar(s[m])
    ensures PathRunEnd(s, i) == m
    decreases m - i
  {
    if i < m {
      PathRunEndIs(s, i + 1, m);
    }
  }

  /** The scan of `re.findall` from `i` on: each match's group and the position it starts at;
      after a match the scan resumes where the match ends, and a position where nothing
      matches is skipped. */
  function Scan(kind: Kind, s: string, i: nat): seq<(string, nat)>
    decreases |s| - i
  {
    if i >= |s| then []
    else match MatchAt(kind, s, i)
      case Some((g, e)) => [(g, i)] + Scan(kind, s, e)
      case None => Scan(kind, s, i + 1)
  }

  /** `re.findall` with one group: the groups of the scan. */
  function FindAll(kind: Kind, s: string, i: nat): (r: seq<string>)
    ensures |r| == |Scan(kind, s, i)|
    ensures forall n :: 0 <= n < |r| ==> r[n] == Scan(kind, s, i)[n].0
  {
    var hits := Scan(kind, s, i);
    seq(|hits|, n requires 0 <= n < |hits| => hits[n].0)
  }

  /** The four lists `extract_scope_from_question` returns, under the keys `file`, `function`,
      `class` and `directory`. */
  datatype ScopeInfo = ScopeInfo(files: seq<string>, functions: seq<string>, classes: seq<string>, directories: seq<string>)

  function ExtractScope(question: string): ScopeInfo {
    ScopeInfo(FindAll(File, question, 0), FindAll(FunctionKind, question, 0),
              FindAll(ClassKind, question, 0), FindAll(Dir, question, 0))
  }

  /** Every hit of the scan is a match of the pattern at its position, and the positions
      increase. */
  lemma {:induction false} ScanSound(kind: Kind, s: string, i: nat)
    ensures forall n :: 0 <= n < |Scan(kind, s, i)| ==>
              i <= Scan(kind, s, i)[n].1 && Matched(kind, s, Scan(kind, s, i)[n].1, Scan(kind, s, i)[n].0)
    ensures forall n :: 0 < n < |Scan(kind, s, i)| ==>
              Scan(kind, s, i)[n - 1].1 + |Scan(kind, s, i)[n - 1].0| <= Scan(kind, s, i)[n].1
    decreases |s| - i
  {
    if i < |s| {
      match MatchAt(kind, s, i)
      case Some((g, e)) =>
        ScanSound(kind, s, e);
        HitsCons(kind, s, i, g, e, Scan(kind, s, e));
      case None =>
        ScanSound(kind, s, i + 1);
    }
  }

  /** A match at `i` ending by `e`, put in front of sound hits from `e` on, gives sound hits
      from `i` on. */
  lemma HitsCons(kind: Kind, s: string, i: nat, g: string, e: nat, t: seq<(string, nat)>)
    requires Matched(kind, s, i, g) && i + |g| <= e
    requires forall n :: 0 <= n < |t| ==> e <= t[n].1 && Matched(kind, s, t[n].1, t[n].0)
    requires forall n :: 0 < n < |t| ==> t[n - 1].1 + |t[n - 1].0| <= t[n].1
    ensures forall n :: 0 <= n < |[(g, i)] + t| ==>
              i <= ([(g, i)] + t)[n].1 && Matched(kind, s, ([(g, i)] + t)[n].1, ([(g, i)] + t)[n].0)
    ensures forall n :: 0 < n < |[(g, i)] + t| ==>
              ([(g, i)] + t)[n - 1].1 + |([(g, i)] + t)[n - 1].0| <= ([(g, i)] + t)[n].1
  {
    var h := [(g, i)] + t;
    forall n | 0 <= n < |h| ensures i <= h[n].1 && Matched(kind, s, h[n].1, h[n].0) {
      if n > 0 {
        assert h[n] == t[n - 1];
      }
    }
    forall n | 0 < n < |h| ensures h[n - 1].1 + |h[n - 1].0| <= h[n].1 {
      assert h[n] == t[n - 1];
      if n > 1 {
        assert h[n - 1] == t[n - 2];
      }
    }
  }

  /** A match hinges on an anchor inside it. */
  lemma MatchedAnchor(kind: Kind, s: string, q: nat, g: string)
    requires Matched(kind, s, q, g)
    ensures exists p :: q <= p < |s| && Anchor(kind, s, p)
  {
    match kind
    case File =>
      var d := PathRunEnd(g, 0);
      assert s[q + d - 1] == g[d - 1] && s[q + d] == g[d] && s[q + d + 1] == g[d + 1];
      assert Anchor(kind, s, q + d - 1);
    case Named(tail) =>
      assert s[q + |g| - 1] == g[|g| - 1];
      assert Anchor(kind, s, q + |g| - 1);
    case Dir =>
      assert s[q + |g| - 1] == g[|g| - 1];
      assert Anchor(kind, s, q + |g| - 1);
  }

  /** At an anchor the pattern matches. */
  lemma AnchorMatches(kind: Kind, s: string, p: nat)
    requires Anchor(kind, s, p)
    ensures MatchAt(kind, s, p).Some?
  {
  }

  /** The scan from `i` finds something exactly when some anchor lies at or after `i`. */
  lemma {:induction false} ScanNonEmpty(kind: Kind, s: string, i: nat)
    ensures Scan(kind, s, i) != [] <==> exists p :: i <= p < |s| && Anchor(kind, s, p)
    decreases |s| - i
  {
    if i < |s| {
      match MatchAt(kind, s, i)
      case Some((g, e)) =>
        MatchedAnchor(kind, s, i, g);
      case None =>
        ScanNonEmpty(kind, s, i + 1);
        if Anchor(kind, s, i) {
          AnchorMatches(kind, s, i);
        }
    }
  }

  /** The question mentions a function exactly when some word character is followed by
      `함수`, with at most one space between; likewise for classes, directories and files. */
  lemma ScopeNonEmpty(question: string)
    ensures ExtractScope(question).functions != [] <==> exists p :: 0 <= p < |question| && Anchor(FunctionKind, question, p)
    ensures ExtractScope(question).classes != [] <==> exists p :: 0 <= p < |question| && Anchor(ClassKind, question, p)
    ensures ExtractScope(question).directories != [] <==> exists p :: 0 <= p < |question| && Anchor(Dir, question, p)
    ensures ExtractScope(question).files != [] <==> exists p :: 0 <= p < |question| && Anchor(File, question, p)
  {
    ScanNonEmpty(FunctionKind, question, 0);
    ScanNonEmpty(ClassKind, question, 0);
    ScanNonEmpty(Dir, question, 0);
    ScanNonEmpty(File, question, 0);
  }

  /** Every name `findall` returns is the group of a match of its pattern, at increasing,
      non-overlapping positions. */
  lemma FindAllSound(kind: Kind, s: string)
    ensures |FindAll(kind, s, 0)| == |Scan(kind, s, 0)|
    ensures forall n :: 0 <= n < |FindAll(kind, s, 0)| ==>
              FindAll(kind, s, 0)[n] == Scan(kind, s, 0)[n].0 && Matched(kind, s, Scan(kind, s, 0)[n].1, FindAll(kind, s, 0)[n])
    ensures forall n :: 0 < n < |FindAll(kind, s, 0)| ==>
              Scan(kind, s, 0)[n - 1].1 + |FindAll(kind, s, 0)[n - 1]| <= Scan(kind, s, 0)[n].1
  {
    ScanSound(kind, s, 0);
  }

  /** A run of word characters that stops at a non-word character (or the end) is the
      longest one. */
  lemma {:induction false} WordRunEndIs(s: string, i: nat, m: nat)
    requires i <= m <= |s|
    requires forall k :: i <= k < m ==> IsWordChar(s[k])
    requires m < |s| ==> !IsWordChar(s[m])
    ensures WordRunEnd(s, i) == m
    decreases m - i
  {
    if i < m {
      WordRunEndIs(s, i + 1, m);
    }
  }

  /** A question that is a name, a space and the tail mentions that one name. */
  lemma NamedMention(w: string, tail: string)
    requires |w| > 0 && forall k :: 0 <= k < |w| ==> IsWordChar(w[k])
    ensures FindAll(Named(tail), w + " " + tail, 0) == [w]
  {
    var s := w + " " + tail;
    WordRunEndIs(s, 0, |w|);
    assert s[|w|..|w| + |" " + tail|] == " " + tail;
    assert TailAt(s, tail, |w|);
    assert LastCut(s, tail, 1, |w|) == Some(|w|);
    assert s[0..|w|] == w;
    var m := MatchAt(Named(tail), s, 0);
    assert m == Some((w, |s| as nat));
    assert FindAll(Named(tail), s, 0) == [w] + FindAll(Named(tail), s, |s|);
  }

  /** A question that is a name, a space and `함수` mentions that one function, and one
      that is a name, a space and `클래스` that one class. */
  lemma FunctionMention(w: string)
    requires |w| > 0 && forall k :: 0 <= k < |w| ==> IsWordChar(w[k])
    ensures ExtractScope(w + " 함수").functions == [w]
    ensures ExtractScope(w + " 클래스").classes == [w]
  {
    NamedMention(w, "함수");
    assert w + " 함수" == w + " " + "함수";
    NamedMention(w, "클래스");
    assert w + " 클래스" == w + " " + "클래스";
  }

  /** A path followed by `/` mentions that one directory, the part before its last slash. */
  lemma DirMention(p: string)
    requires |p| > 0 && forall k :: 0 <= k < |p| ==> IsPathChar(p[k])
    ensures FindAll(Dir, p + "/", 0) == [p]
  {
    var s := p + "/";
    PathRunEndIs(s, 0, |s|);
    assert LastSlash(s, 1, |s|) == Some(|p|);
    assert s[..|p|] == p;
    assert MatchAt(Dir, s, 0) == Some((p, |s| as nat));
    assert Scan(Dir, s, 0) == [(p, 0)] + Scan(Dir, s, |s|);
  }

  /** A name, a dot and an extension is one file name, extension and all. */
  lemma FileMention(p: string, x: string)
    requires |p| > 0 && forall k :: 0 <= k < |p| ==> IsPathChar(p[k])
    requires |x| > 0 && forall k :: 0 <= k < |x| ==> IsWordChar(x[k])
    ensures FindAll(File, p + "." + x, 0) == [p + "." + x]
  {
    var s := p + "." + x;
    PathRunEndIs(s, 0, |p|);
    assert forall k :: |p| + 1 <= k < |s| ==> s[k] == x[k - |p| - 1];
    WordRunEndIs(s, |p| + 1, |s|);
    assert s[0..|s|] == s;
    var m := MatchAt(File, s, 0);
    assert m == Some((s, |s| as nat));
    assert FindAll(File, s, 0) == [s] + FindAll(File, s, |s|);
  }
}

=== FILE: text.dfy ===
/** The Python string built-ins the system relies on, given their CPython meaning:
    `str.isspace`, `strip`, `rstrip(c)`, `split(sep)`, `split()`, `join`, `splitlines`,
    `find`, `startswith`/`endswith`, `in`, `count`, `lower` and `str(int)`. */
module Text {

  // ---------------------------------------------------------------------------
  // Whitespace
  // ---------------------------------------------------------------------------

  /** Python's `str.isspace()` for one code point. `strip()`, `split()` and the regex
      class `\s` on `str` patterns all use this set. */
  predicate IsSpace(c: char) {
    || c == ' '
    || ('\t' <= c <= '\r')
    || ('\U{1c}' <= c <= '\U{1f}')
    || c == '\U{85}' || c == '\U{a0}' || c == '\U{1680}'
    || ('\U{2000}' <= c <= '\U{200a}')
    || c == '\U{2028}' || c == '\U{2029}' || c == '\U{202f}' || c == '\U{205f}' || c == '\U{3000}'
  }

  predicate NoSpace(s: string) {
    forall i :: 0 <= i < |s| ==> !IsSpace(s[i])
  }

  predicate AllSpace(s: string) {
    forall i :: 0 <= i < |s| ==> IsSpace(s[i])
  }

  /** `s.lstrip()`: drops the longest all-whitespace prefix. */
  function LStrip(s: string): (r: string)
    ensures |r| <= |s| && r == s[|s| - |r|..]
    ensures AllSpace(s[..|s| - |r|])
    ensures r == [] || !IsSpace(r[0])
  {
    if |s| > 0 && IsSpace(s[0]) then
      var t := s[1..];
      var r := LStrip(t);
      assert t[|t| - |r|..] == s[|s| - |r|..];
      assert s[..|s| - |r|] == [s[0]] + t[..|t| - |r|];
      AllSpaceCons(s[0], t[..|t| - |r|]);
      r
    else s
  }

  lemma AllSpaceCons(c: char, s: string)
    requires IsSpace(c) && AllSpace(s)
    ensures AllSpace([c] + s)
  {
    forall i | 0 <= i < |[c] + s| ensures IsSpace(([c] + s)[i]) {
      if i > 0 {
        assert ([c] + s)[i] == s[i - 1];
      }
    }
  }

  /** `s.rstrip()`: drops the longest all-whitespace suffix. */
  function RStrip(s: string): (r: string)
    ensures |r| <= |s| && r == s[..|r|]
    ensures AllSpace(s[|r|..])
    ensures r == [] || !IsSpace(r[|r| - 1])
  {
    if |s| > 0 && IsSpace(s[|s| - 1]) then
      var t := s[..|s| - 1];
      var r := RStrip(t);
      assert t[..|r|] == s[..|r|];
      forall j | 0 <= j < |s| - |r|
        ensures IsSpace(s[|r|..][j])
      {
        if j < |s| - 1 - |r| {
          assert s[|r|..][j] == t[|r|..][j];
        } else {
          assert s[|r|..][j] == s[|s| - 1];
        }
      }
      r
    else s
  }

  /** `s.strip()`: leading whitespace, then trailing whitespace, removed. The result is the
      slice of `s` that starts after its leading whitespace (the part `LStrip` drops), with
      only whitespace after it. */
  function Strip(s: string): (r: string)
    ensures |r| <= |s|
    ensures r == [] || (!IsSpace(r[0]) && !IsSpace(r[|r| - 1]))
    ensures SpaceFramed(s, |s| - |LStrip(s)|, r)
  {
    var l := LStrip(s);
    var r := RStrip(l);
    StripSlices(s, l, r);
    r
  }

  /** `r` is the slice of `s` that starts at `i`, with only whitespace before and after it. */
  predicate SpaceFramed(s: string, i: int, r: string) {
    0 <= i && i + |r| <= |s| && r == s[i..i + |r|] && AllSpace(s[..i]) && AllSpace(s[i + |r|..])
  }

  /** Cutting whitespace from the end of the suffix of `s` that follows its leading
      whitespace leaves a slice of `s` with only whitespace on either side. */
  lemma StripSlices(s: string, l: string, r: string)
    requires |l| <= |s| && l == s[|s| - |l|..] && AllSpace(s[..|s| - |l|])
    requires |r| <= |l| && r == l[..|r|] && AllSpace(l[|r|..])
    requires l == [] || !IsSpace(l[0])
    requires r == [] || !IsSpace(r[|r| - 1])
    ensures |r| <= |s|
    ensures r == [] || (!IsSpace(r[0]) && !IsSpace(r[|r| - 1]))
    ensures SpaceFramed(s, |s| - |l|, r)
  {
    var i := |s| - |l|;
    assert r != [] ==> r[0] == l[0];
    assert s[i + |r|..] == l[|r|..];
  }

  /** A string that already has no surrounding whitespace is its own strip. */
  lemma StripNoop(s: string)
    requires s == [] || (!IsSpace(s[0]) && !IsSpace(s[|s| - 1]))
    ensures Strip(s) == s
  {
  }

  /** `s.rstrip(c)`: drops every trailing occurrence of `c`. */
  function RStripChar(s: string, c: char): (r: string)
    ensures |r| <= |s| && r == s[..|r|]
    ensures forall i :: |r| <= i < |s| ==> s[i] == c
    ensures r == [] || r[|r| - 1] != c
  {
    if |s| > 0 && s[|s| - 1] == c then RStripChar(s[..|s| - 1], c) else s
  }

  // ---------------------------------------------------------------------------
  // Prefixes, suffixes, search
  // ---------------------------------------------------------------------------

  predicate StartsWith(s: string, p: string) {
    |p| <= |s| && s[..|p|] == p
  }

  predicate EndsWith(s: string, p: string) {
    |p| <= |s| && s[|s| - |p|..] == p
  }

  /** `p` occurs in `s` starting at index `i`. */
  predicate OccursAt(s: string, p: string, i: int) {
    0 <= i && i + |p| <= |s| && s[i..i + |p|] == p
  }

  /** A pattern does not occur where its first character is missing. */
  lemma NotOccursAt(s: string, p: string, i: nat)
    requires |p| > 0 && i < |s| && s[i] != p[0]
    ensures !OccursAt(s, p, i)
  {
  }

  /** The first index at or after `i` holding `c`, or the end of `s`. */
  function NextIndexOf(s: string, c: char, i: nat): (j: nat)
    requires i <= |s|
    ensures i <= j <= |s|
    ensures forall k :: i <= k < j ==> s[k] != c
    ensures j < |s| ==> s[j] == c
    decreases |s| - i
  {
    if i == |s| || s[i] == c then i else NextIndexOf(s, c, i + 1)
  }

  /** The next `c` from `i` is at `e` when `e` holds `c` (or is the end) and nothing
      between does. */
  lemma NextIndexOfAt(s: string, c: char, i: nat, e: nat)
    requires i <= e <= |s| && (e == |s| || s[e] == c)
    requires forall k :: i <= k < e ==> s[k] != c
    ensures NextIndexOf(s, c, i) == e
  {
  }

  /** `p in s` for strings: `p` occurs somewhere in `s`. */
  predicate Contains(s: string, p: string) {
    exists i :: 0 <= i <= |s| && OccursAt(s, p, i)
  }

  /** `s.find(p, from)`: the first index at or after `from` where `p` occurs, or -1. */
  function Find(s: string, p: string, from: nat): (r: int)
    ensures r == -1 || (from <= r && OccursAt(s, p, r))
    ensures r == -1 ==> forall i :: from <= i ==> !OccursAt(s, p, i)
    ensures r != -1 ==> forall i :: from <= i < r ==> !OccursAt(s, p, i)
    decreases |s| - from
  {
    if from + |p| > |s| then -1
    else if s[from..from + |p|] == p then from
    else Find(s, p, from + 1)
  }

  /** The first index of character `c` in `s`, or -1. */
  function IndexOfChar(s: string, c: char): (r: int)
    ensures r == -1 ==> c !in s
    ensures r != -1 ==> 0 <= r < |s| && s[r] == c && c !in s[..r]
  {
    if |s| == 0 then -1
    else if s[0] == c then 0
    else
      var k := IndexOfChar(s[1..], c);
      if k == -1 then -1 else k + 1
  }

  /** `s.count(c)` for a single character. */
  function CountChar(s: string, c: char): nat {
    if |s| == 0 then 0 else (if s[0] == c then 1 else 0) + CountChar(s[1..], c)
  }

  lemma CountCharAppend(a: string, b: string, c: char)
    ensures CountChar(a + b, c) == CountChar(a, c) + CountChar(b, c)
  {
    if |a| > 0 {
      assert (a + b)[1..] == a[1..] + b;
      CountCharAppend(a[1..], b, c);
    } else {
      assert a + b == b;
    }
  }

  /** Python slicing `s[i:j]` with non-negative bounds: bounds past the end are clamped. */
  function Slice<T>(s: seq<T>, i: nat, j: nat): (r: seq<T>)
    ensures |r| <= |s|
    ensures i <= j <= |s| ==> r == s[i..j]
    ensures j <= i || |s| <= i ==> r == []
  {
    var lo := if i < |s| then i else |s|;
    var hi := if j < |s| then j else |s|;
    if hi <= lo then [] else s[lo..hi]
  }

  // ---------------------------------------------------------------------------
  // split / join
  // ---------------------------------------------------------------------------

  /** `sep.join(parts)`. */
  function Join(parts: seq<string>, sep: string): string {
    if |parts| == 0 then ""
    else if |parts| == 1 then parts[0]
    else parts[0] + sep + Join(parts[1..], sep)
  }

  /** `s.split(sep)` for a one-character separator: never empty, and no part holds `sep`. */
  function Split(s: string, sep: char): (parts: seq<string>)
    ensures |parts| >= 1
    ensures forall k :: 0 <= k < |parts| ==> sep !in parts[k]
    decreases |s|
  {
    var i := IndexOfChar(s, sep);
    if i == -1 then [s] else [s[..i]] + Split(s[i + 1..], sep)
  }

  /** Splitting and re-joining with the same separator gives the string back. */
  lemma {:induction false} SplitJoin(s: string, sep: char)
    ensures Join(Split(s, sep), [sep]) == s
    decreases |s|
  {
    var i := IndexOfChar(s, sep);
    if i != -1 {
      var rest := Split(s[i + 1..], sep);
      SplitJoin(s[i + 1..], sep);
      var parts := Split(s, sep);
      assert parts == [s[..i]] + rest;
      assert parts[0] == s[..i] && parts[1..] == rest && |parts| >= 2;
      assert Join(parts, [sep]) == s[..i] + [sep] + Join(rest, [sep]);
      assert s == s[..i] + [sep] + s[i + 1..];
    }
  }

  /** Joining separator-free parts and splitting again gives the parts back. */
  lemma {:induction false} JoinSplit(parts: seq<string>, sep: char)
    requires |parts| >= 1
    requires forall k :: 0 <= k < |parts| ==> sep !in parts[k]
    ensures Split(Join(parts, [sep]), sep) == parts
    decreases |parts|
  {
    if |parts| > 1 {
      var tail := Join(parts[1..], [sep]);
      var s := parts[0] + [sep] + tail;
      assert Join(parts, [sep]) == s;
      assert s[..|parts[0]|] == parts[0];
      assert s[|parts[0]|] == sep;
      IndexOfCharAt(s, sep, |parts[0]|);
      assert s[|parts[0]| + 1..] == tail;
      JoinSplit(parts[1..], sep);
      assert parts == [parts[0]] + parts[1..];
    } else {
      assert Join(parts, [sep]) == parts[0];
    }
  }

  lemma IndexOfCharAt(s: string, c: char, k: nat)
    requires k < |s| && s[k] == c && c !in s[..k]
    ensures IndexOfChar(s, c) == k
  {
  }

  // ---------------------------------------------------------------------------
  // str.split() and whitespace normalisation
  // ---------------------------------------------------------------------------

  /** The index of the first whitespace character of `s`, or `|s|`. */
  function FirstSpace(s: string): (k: nat)
    ensures k <= |s| && NoSpace(s[..k])
    ensures k < |s| ==> IsSpace(s[k])
  {
    if |s| == 0 || IsSpace(s[0]) then 0 else 1 + FirstSpace(s[1..])
  }

  predicate IsWord(w: string) {
    |w| > 0 && NoSpace(w)
  }

  /** `s.split()` with no argument: the maximal runs of non-whitespace, in order. */
  function Words(s: string): (ws: seq<string>)
    ensures forall k :: 0 <= k < |ws| ==> IsWord(ws[k])
    decreases |s|
  {
    var t := LStrip(s);
    if t == [] then []
    else
      var k := FirstSpace(t);
      assert k > 0 by {
        assert !IsSpace(t[0]);
      }
      var rest := Words(t[k..]);
      AllWordsCons(t[..k], rest);
      [t[..k]] + rest
  }

  lemma AllWordsCons(w: string, rest: seq<string>)
    requires IsWord(w) && forall k :: 0 <= k < |rest| ==> IsWord(rest[k])
    ensures forall k :: 0 <= k < |[w] + rest| ==> IsWord(([w] + rest)[k])
  {
    forall k | 0 <= k < |[w] + rest| ensures IsWord(([w] + rest)[k]) {
      if k > 0 {
        assert ([w] + rest)[k] == rest[k - 1];
      }
    }
  }

  /** A non-empty sequence is its head followed by its tail. */
  lemma HeadTail<T>(s: seq<T>)
    requires |s| > 0
    ensures s == [s[0]] + s[1..]
  {
  }

  /** Splitting single-space-joined words on whitespace recovers the words. */
  lemma {:induction false} WordsOfJoin(ws: seq<string>)
    requires forall k :: 0 <= k < |ws| ==> IsWord(ws[k])
    ensures Words(Join(ws, " ")) == ws
    decreases |ws|
  {
    if |ws| == 1 {
      WordsSingle(ws[0]);
    } else if |ws| > 1 {
      var w := ws[0];
      var tail := ws[1..];
      assert forall k :: 0 <= k < |tail| ==> tail[k] == ws[k + 1];
      var rest := Join(tail, " ");
      assert Join(ws, " ") == w + (" " + rest);
      WordsCons(w, " " + rest);
      LStripSpaceThenWord(tail);
      WordsOfJoin(tail);
      assert Words(Join(ws, " ")) == [w] + Words(" " + rest);
      assert Words(" " + rest) == tail;
      HeadTail(ws);
    }
  }

  lemma WordsSingle(w: string)
    requires IsWord(w)
    ensures Words(w) == [w]
  {
    WordsCons(w, "");
    assert w + "" == w;
    assert LStrip([]) == [];
  }

  /** A word followed by nothing or by whitespace is split off as the first word. */
  lemma WordsCons(w: string, tail: string)
    requires IsWord(w)
    requires tail == [] || IsSpace(tail[0])
    ensures Words(w + tail) == [w] + Words(tail)
  {
    var s := w + tail;
    assert LStrip(s) == s;
    FirstSpaceOfWord(w, tail);
    assert s[..|w|] == w && s[|w|..] == tail;
  }

  lemma FirstSpaceOfWord(w: string, tail: string)
    requires IsWord(w)
    requires tail == [] || IsSpace(tail[0])
    ensures FirstSpace(w + tail) == |w|
  {
    var s := w + tail;
    assert s[..|w|] == w;
    assert |w| < |s| ==> s[|w|] == tail[0];
    FirstSpaceAt(s, |w|);
  }

  /** The first whitespace is at `k` when none comes before and `k` is whitespace or the end. */
  lemma {:induction false} FirstSpaceAt(s: string, k: nat)
    requires k <= |s| && NoSpace(s[..k]) && (k < |s| ==> IsSpace(s[k]))
    ensures FirstSpace(s) == k
  {
    if k > 0 {
      assert s[..k][0] == s[0];
      assert s[1..][..k - 1] == s[..k][1..];
      assert k - 1 < |s| - 1 ==> s[1..][k - 1] == s[k];
      FirstSpaceAt(s[1..], k - 1);
    }
  }

  lemma LStripSpaceThenWord(ws: seq<string>)
    requires |ws| >= 1
    requires forall k :: 0 <= k < |ws| ==> IsWord(ws[k])
    ensures Words(" " + Join(ws, " ")) == Words(Join(ws, " "))
  {
    JoinStartsWithWord(ws);
    LeadingSpaceWords(Join(ws, " "));
  }

  /** One space before a text that starts with a non-space changes none of its words. */
  lemma LeadingSpaceWords(t: string)
    requires t != [] && !IsSpace(t[0])
    ensures Words(" " + t) == Words(t)
  {
    assert (" " + t)[1..] == t;
    assert LStrip(" " + t) == LStrip(t);
    WordsSameStrip(" " + t, t);
  }

  /** The words of a text depend only on the text without its leading whitespace. */
  lemma WordsSameStrip(a: string, b: string)
    requires LStrip(a) == LStrip(b)
    ensures Words(a) == Words(b)
  {
  }

  lemma JoinStartsWithWord(ws: seq<string>)
    requires |ws| >= 1
    requires forall k :: 0 <= k < |ws| ==> IsWord(ws[k])
    ensures |Join(ws, " ")| > 0 && !IsSpace(Join(ws, " ")[0])
  {
    if |ws| > 1 {
      assert Join(ws, " ") == ws[0] + " " + Join(ws[1..], " ");
      assert Join(ws, " ")[0] == ws[0][0];
    }
  }

  /** Words joined by single spaces: no surrounding whitespace, every whitespace
      character is a plain space, and no two spaces are adjacent. */
  predicate SingleSpaced(s: string) {
    && (s == [] || (!IsSpace(s[0]) && !IsSpace(s[|s| - 1])))
    && (forall i :: 0 <= i < |s| && IsSpace(s[i]) ==> s[i] == ' ')
    && (forall i :: 0 <= i < |s| - 1 ==> !(IsSpace(s[i]) && IsSpace(s[i + 1])))
  }

  lemma {:induction false} JoinWordsSingleSpaced(ws: seq<string>)
    requires forall k :: 0 <= k < |ws| ==> IsWord(ws[k])
    ensures SingleSpaced(Join(ws, " "))
    decreases |ws|
  {
    if |ws| > 1 {
      var w := ws[0];
      var rest := Join(ws[1..], " ");
      JoinWordsSingleSpaced(ws[1..]);
      JoinStartsWithWord(ws[1..]);
      var s := w + " " + rest;
      assert Join(ws, " ") == s;
      forall i | 0 <= i < |s| && IsSpace(s[i])
        ensures s[i] == ' '
      {
        if i > |w| { assert s[i] == rest[i - |w| - 1]; }
      }
      forall i | 0 <= i < |s| - 1
        ensures !(IsSpace(s[i]) && IsSpace(s[i + 1]))
      {
        if i < |w| - 1 { assert s[i] == w[i]; }
        else if i == |w| - 1 { assert s[i] == w[i]; }
        else if i == |w| { assert s[i + 1] == rest[0]; }
        else { assert s[i] == rest[i - |w| - 1] && s[i + 1] == rest[i - |w|]; }
      }
      assert s[|s| - 1] == rest[|rest| - 1];
    }
  }

  // ---------------------------------------------------------------------------
  // Lines
  // ---------------------------------------------------------------------------

  /** The line boundaries of `str.splitlines()`. */
  predicate IsLineBreak(c: char) {
    || c == '\n' || c == '\r' || c == '\U{0b}' || c == '\U{0c}'
    || ('\U{1c}' <= c <= '\U{1e}')
    || c == '\U{85}' || c == '\U{2028}' || c == '\U{2029}'
  }

  function FirstLineBreak(s: string): (k: nat)
    ensures k <= |s|
    ensures forall i :: 0 <= i < k ==> !IsLineBreak(s[i])
    ensures k < |s| ==> IsLineBreak(s[k])
  {
    if |s| == 0 || IsLineBreak(s[0]) then 0 else 1 + FirstLineBreak(s[1..])
  }

  /** `s.splitlines()`: lines without their terminators; "\r\n" is one terminator and a
      final terminator does not open an empty last line. */
  function SplitLines(s: string): (lines: seq<string>)
    ensures forall k, i :: 0 <= k < |lines| && 0 <= i < |lines[k]| ==> !IsLineBreak(lines[k][i])
    ensures s == [] <==> lines == []
    decreases |s|
  {
    if s == [] then []
    else
      var k := FirstLineBreak(s);
      if k == |s| then [s]
      else
        var width := if s[k] == '\r' && k + 1 < |s| && s[k + 1] == '\n' then 2 else 1;
        [s[..k]] + SplitLines(s[k + width..])
  }

  /** Every line terminator written as one `\n`: `\r\n` is one terminator, and any other
      break character is one terminator on its own. */
  function UnifyBreaks(s: string): (u: string)
    ensures forall i :: 0 <= i < |u| && IsLineBreak(u[i]) ==> u[i] == '\n'
    decreases |s|
  {
    if s == [] then []
    else if |s| >= 2 && s[0] == '\r' && s[1] == '\n' then "\n" + UnifyBreaks(s[2..])
    else [if IsLineBreak(s[0]) then '\n' else s[0]] + UnifyBreaks(s[1..])
  }

  /** Text with no break character is unchanged by unifying the breaks. */
  lemma {:induction false} UnifyNoBreak(s: string)
    requires forall i :: 0 <= i < |s| ==> !IsLineBreak(s[i])
    ensures UnifyBreaks(s) == s
    decreases |s|
  {
    if s != [] {
      UnifyNoBreak(s[1..]);
    }
  }

  /** Unifying distributes over a break-free prefix. */
  lemma {:induction false} UnifyPrefix(s: string, k: nat)
    requires k <= |s| && forall i :: 0 <= i < k ==> !IsLineBreak(s[i])
    ensures UnifyBreaks(s) == s[..k] + UnifyBreaks(s[k..])
    decreases k
  {
    if k > 0 {
      UnifyPrefix(s[1..], k - 1);
      assert s[1..][k - 1..] == s[k..];
      assert s[..k] == [s[0]] + s[1..][..k - 1];
    }
  }

  /** Whether the text ends with a line terminator, which then opens no further line. */
  predicate EndsWithBreak(s: string) {
    s != [] && IsLineBreak(s[|s| - 1])
  }

  /** The lines of `splitlines()` are the text between consecutive terminators: joined by
      `\n`, with a final `\n` when the text ends with a terminator, they give the text with
      every terminator written as `\n`. There is one line per terminator, plus one for text
      after the last terminator. */
  lemma SplitLinesJoin(s: string)
    ensures Join(SplitLines(s), "\n") + (if EndsWithBreak(s) then "\n" else "") == UnifyBreaks(s)
    ensures |SplitLines(s)| == CountChar(UnifyBreaks(s), '\n') + (if s == [] || EndsWithBreak(s) then 0 else 1)
  {
    SplitLinesText(s);
    SplitLinesCount(s);
  }

  /** The first terminator of text that has one: its position, its width, and the unified
      text as the line before it, `\n`, and the unified rest. */
  lemma FirstBreakStep(s: string) returns (k: nat, width: nat)
    requires FirstLineBreak(s) < |s|
    ensures k == FirstLineBreak(s) && k + width <= |s|
    ensures width == if s[k] == '\r' && k + 1 < |s| && s[k + 1] == '\n' then 2 else 1
    ensures SplitLines(s) == [s[..k]] + SplitLines(s[k + width..])
    ensures UnifyBreaks(s) == s[..k] + "\n" + UnifyBreaks(s[k + width..])
    ensures CountChar(s[..k], '\n') == 0
    ensures EndsWithBreak(s) == (s[k + width..] == [] || EndsWithBreak(s[k + width..]))
  {
    k := FirstLineBreak(s);
    width := if s[k] == '\r' && k + 1 < |s| && s[k + 1] == '\n' then 2 else 1;
    UnifyAround(s, k, width);
    NoBreakNoNewline(s[..k]);
    EndsWithBreakAfter(s, k + width);
  }

  /** Unifying text whose first terminator sits at `k` and is `width` long gives the text
      before it, `\n`, and the unified rest. */
  lemma UnifyAround(s: string, k: nat, width: nat)
    requires k < |s| && IsLineBreak(s[k]) && forall i :: 0 <= i < k ==> !IsLineBreak(s[i])
    requires width == if s[k] == '\r' && k + 1 < |s| && s[k + 1] == '\n' then 2 else 1
    ensures UnifyBreaks(s) == s[..k] + "\n" + UnifyBreaks(s[k + width..])
  {
    var before, rest := s[..k], UnifyBreaks(s[k + width..]);
    UnifyPrefix(s, k);
    UnifyAtBreak(s[k..]);
    assert s[k..][width..] == s[k + width..];
    assert UnifyBreaks(s) == before + ("\n" + rest);
    AroundBreak(before, rest);
  }

  /** A line, `\n` and a rest, read either way round. */
  lemma AroundBreak(line: string, rest: string)
    ensures line + "\n" + rest == line + ("\n" + rest)
  {
    var b := "\n";
    assert line + b + rest == line + (b + rest);
  }

  /** Text whose character before `j` is a terminator ends with one exactly when the text
      from `j` on is empty or ends with one. */
  lemma EndsWithBreakAfter(s: string, j: nat)
    requires 0 < j <= |s| && IsLineBreak(s[j - 1])
    ensures EndsWithBreak(s) == (s[j..] == [] || EndsWithBreak(s[j..]))
  {
    if s[j..] != [] {
      assert s[|s| - 1] == s[j..][|s[j..]| - 1];
    }
  }

  /** A terminator at the front is unified to one `\n`. */
  lemma UnifyAtBreak(u: string)
    requires u != [] && IsLineBreak(u[0])
    ensures var w := if u[0] == '\r' && 1 < |u| && u[1] == '\n' then 2 else 1;
            UnifyBreaks(u) == "\n" + UnifyBreaks(u[w..])
  {
  }

  lemma {:induction false} SplitLinesText(s: string)
    ensures Join(SplitLines(s), "\n") + (if EndsWithBreak(s) then "\n" else "") == UnifyBreaks(s)
    decreases |s|
  {
    if s != [] {
      if FirstLineBreak(s) == |s| {
        UnifyNoBreak(s);
      } else {
        var k, width := FirstBreakStep(s);
        var t := s[k + width..];
        SplitLinesText(t);
        if t != [] {
          assert ([s[..k]] + SplitLines(t))[1..] == SplitLines(t);
        }
      }
    }
  }

  /** Text without a terminator is one line, and unifying adds no `\n`. */
  lemma OneLine(s: string)
    requires s != [] && FirstLineBreak(s) == |s|
    ensures SplitLines(s) == [s] && CountChar(UnifyBreaks(s), '\n') == 0 && !EndsWithBreak(s)
  {
    UnifyNoBreak(s);
    NoBreakNoNewline(s);
  }

  /** A line without `\n`, a `\n` and the rest hold one `\n` more than the rest. */
  lemma CountAfterBreak(line: string, rest: string)
    requires CountChar(line, '\n') == 0
    ensures CountChar(line + "\n" + rest, '\n') == 1 + CountChar(rest, '\n')
  {
    var nr := "\n" + rest;
    assert line + "\n" + rest == line + nr;
    CountCharAppend(line, nr, '\n');
    assert nr[1..] == rest;
  }

  lemma {:induction false} SplitLinesCount(s: string)
    ensures |SplitLines(s)| == CountChar(UnifyBreaks(s), '\n') + (if s == [] || EndsWithBreak(s) then 0 else 1)
    decreases |s|
  {
    if s != [] {
      if FirstLineBreak(s) == |s| {
        OneLine(s);
      } else {
        var k, width := FirstBreakStep(s);
        var t := s[k + width..];
        SplitLinesCount(t);
        CountAfterBreak(s[..k], UnifyBreaks(t));
      }
    }
  }

  lemma NoBreakNoNewline(s: string)
    requires forall i :: 0 <= i < |s| ==> !IsLineBreak(s[i])
    ensures CountChar(s, '\n') == 0
  {
    if s != [] {
      NoBreakNoNewline(s[1..]);
    }
  }

  /** For text whose only terminator is `\n`, the lines joined by `\n` give the text back. */
  lemma SplitLinesUnix(s: string)
    requires forall i :: 0 <= i < |s| && IsLineBreak(s[i]) ==> s[i] == '\n'
    ensures Join(SplitLines(s), "\n") + (if EndsWithBreak(s) then "\n" else "") == s
    ensures |SplitLines(s)| == CountChar(s, '\n') + (if s == [] || EndsWithBreak(s) then 0 else 1)
  {
    SplitLinesJoin(s);
    UnifyUnix(s);
  }

  lemma {:induction false} UnifyUnix(s: string)
    requires forall i :: 0 <= i < |s| && IsLineBreak(s[i]) ==> s[i] == '\n'
    ensures UnifyBreaks(s) == s
    decreases |s|
  {
    if s != [] {
      UnifyUnix(s[1..]);
    }
  }

  /** The last index of `c` in `s`, or -1. */
  function LastIndexOf(s: string, c: char): (r: int)
    ensures r == -1 ==> c !in s
    ensures r != -1 ==> 0 <= r < |s| && s[r] == c && c !in s[r + 1..]
  {
    if |s| == 0 then -1
    else if s[|s| - 1] == c then |s| - 1
    else
      var r := LastIndexOf(s[..|s| - 1], c);
      assert r != -1 ==> s[r + 1..] == s[..|s| - 1][r + 1..] + [s[|s| - 1]];
      r
  }

  /** The last path component holds a dot after some character that is not a dot. */
  predicate LastComponentDotted(p: string) {
    exists k, i :: LastIndexOf(p, '/') < k < i < |p| && p[k] != '.' && p[i] == '.'
  }

  /** `os.path.splitext(p)[1]` with `/` as separator: from the last dot of the last path
      component to the end, unless that dot is preceded only by dots in the component. */
  function SplitExt(p: string): (ext: string)
    ensures ext == [] || (ext[0] == '.' && EndsWith(p, ext) && '/' !in ext && '.' !in ext[1..])
    ensures ext != [] <==> LastComponentDotted(p)
    ensures ext != [] ==> ext == p[LastIndexOf(p, '.')..]
  {
    var sep := LastIndexOf(p, '/');
    var dot := LastIndexOf(p, '.');
    DottedIff(p);
    if dot > sep && HasStem(p, sep, dot) then
      ExtShape(p);
      p[dot..]
    else ""
  }

  /** Some character strictly between `sep` and `dot` is not a dot. */
  predicate HasStem(p: string, sep: int, dot: int)
    requires -1 <= sep && dot <= |p|
  {
    exists k :: sep + 1 <= k < dot && p[k] != '.'
  }

  /** The last component is dotted exactly when its last dot follows the last slash and has
      a non-dot character between them. */
  lemma DottedIff(p: string)
    ensures LastComponentDotted(p) <==>
              LastIndexOf(p, '.') > LastIndexOf(p, '/') && HasStem(p, LastIndexOf(p, '/'), LastIndexOf(p, '.'))
  {
    var sep := LastIndexOf(p, '/');
    if LastComponentDotted(p) {
      var k, i :| sep < k < i < |p| && p[k] != '.' && p[i] == '.';
      LastIndexOfBound(p, '.', i);
    }
  }

  /** The text from the last dot on, when that dot follows the last slash, is a dot followed
      by text with no dot and no slash, and ends the path. */
  lemma ExtShape(p: string)
    requires LastIndexOf(p, '.') > LastIndexOf(p, '/')
    ensures var e := p[LastIndexOf(p, '.')..];
            e[0] == '.' && EndsWith(p, e) && '/' !in e && '.' !in e[1..]
  {
    var sep := LastIndexOf(p, '/');
    var dot := LastIndexOf(p, '.');
    var e := p[dot..];
    assert e[1..] == p[dot + 1..];
    assert p[|p| - |e|..] == e;
    SuffixAfterLast(p, '/', dot);
  }

  /** A suffix that starts after the last `c` holds no `c`. */
  lemma SuffixAfterLast(p: string, c: char, j: int)
    requires LastIndexOf(p, c) < j <= |p|
    ensures c !in p[j..]
  {
    var i := LastIndexOf(p, c);
    if i != -1 {
      assert p[j..] == p[i + 1..][j - i - 1..];
    }
  }

  /** Text without `c` appended after `a` leaves the last index of `c` where it was. */
  lemma {:induction false} LastIndexOfAppend(a: string, b: string, c: char)
    requires c !in b
    ensures LastIndexOf(a + b, c) == LastIndexOf(a, c)
    decreases |b|
  {
    if b != [] {
      var b' := b[..|b| - 1];
      assert (a + b)[..|a + b| - 1] == a + b';
      LastIndexOfAppend(a, b', c);
    } else {
      assert a + b == a;
    }
  }

  /** A name that does not start with a dot, followed by an extension (a dot and dot-free
      text), gives that extension, whatever directory it sits in. */
  lemma SplitExtOfName(dir: string, stem: string, ext: string)
    requires dir == [] || dir[|dir| - 1] == '/'
    requires stem != [] && stem[0] != '.' && '/' !in stem
    requires ext != [] && ext[0] == '.' && '.' !in ext[1..] && '/' !in ext
    ensures SplitExt(dir + (stem + ext)) == ext
  {
    var tail := stem + ext;
    var p := dir + tail;
    var d := |dir| + |stem|;
    assert p[d] == ext[0] && p[|dir|] == stem[0];
    assert p[d..] == ext;
    assert forall m :: d < m < |p| ==> p[m] != '.' by {
      forall m | d < m < |p|
        ensures p[m] != '.'
      {
        assert p[m] == ext[1..][m - d - 1];
      }
    }
    LastIndexOfIs(p, '.', d);
    LastIndexOfAppend(dir, tail, '/');
    SplitExtWhen(p, |dir|);
  }

  /** An occurrence of `c` with none after it is the last one. */
  lemma LastIndexOfIs(s: string, c: char, j: nat)
    requires j < |s| && s[j] == c
    requires forall m :: j < m < |s| ==> s[m] != c
    ensures LastIndexOf(s, c) == j
  {
    LastIndexOfBound(s, c, j);
    var r := LastIndexOf(s, c);
    assert s[r] == c;
  }

  /** A character other than a dot between the last slash and the last dot makes the
      extension run from that dot. */
  lemma SplitExtWhen(p: string, k: nat)
    requires LastIndexOf(p, '/') < k < LastIndexOf(p, '.') && p[k] != '.'
    ensures SplitExt(p) == p[LastIndexOf(p, '.')..]
  {
    assert p[LastIndexOf(p, '.')] == '.';
  }

  /** Every occurrence of `c` is at or before its last index. */
  lemma LastIndexOfBound(s: string, c: char, j: nat)
    requires j < |s| && s[j] == c
    ensures j <= LastIndexOf(s, c)
  {
  }

  /** A hidden file's name, a dot followed by dot-free text, has no extension. */
  lemma DotFileNoExt(dir: string, rest: string)
    requires dir == [] || dir[|dir| - 1] == '/'
    requires '.' !in rest && '/' !in rest
    ensures SplitExt(dir + "." + rest) == ""
  {
    var p := dir + "." + rest;
    if dir != [] {
      assert p[|dir| - 1] == '/';
      LastIndexOfBound(p, '/', |dir| - 1);
    }
    forall k, i | LastIndexOf(p, '/') < k < i < |p| && p[k] != '.'
      ensures p[i] != '.'
    {
      assert p[i] == rest[i - |dir| - 1];
    }
  }

  // ---------------------------------------------------------------------------
  // Case and numbers
  // ---------------------------------------------------------------------------

  /** `c.lower()` for ASCII letters; every other code point is left alone. */
  function LowerChar(c: char): char {
    if 'A' <= c <= 'Z' then (c as int + 32) as char else c
  }

  function Lower(s: string): (r: string)
    ensures |r| == |s|
    ensures forall i :: 0 <= i < |s| ==> r[i] == LowerChar(s[i])
  {
    if |s| == 0 then "" else [LowerChar(s[0])] + Lower(s[1..])
  }

  predicate IsDigit(c: char) {
    '0' <= c <= '9'
  }

  /** The regex class `\w`: letters, digits and `_`. Letters are the ASCII ones and the
      precomposed Hangul syllables; the rest of Unicode's alphabet is not modelled. */
  predicate IsWordChar(c: char) {
    IsDigit(c) || ('a' <= c <= 'z') || ('A' <= c <= 'Z') || c == '_' || ('\U{ac00}' <= c <= '\U{d7a3}')
  }

  /** The longest prefix of `s` made of word characters. */
  function WordPrefix(s: string): (w: string)
    ensures |w| <= |s| && w == s[..|w|]
    ensures forall i :: 0 <= i < |w| ==> IsWordChar(w[i])
    ensures |w| < |s| ==> !IsWordChar(s[|w|])
  {
    if |s| > 0 && IsWordChar(s[0]) then [s[0]] + WordPrefix(s[1..]) else ""
  }

  /** `str(n)` for a natural number: decimal digits, no leading zero. */
  function NatToString(n: nat): (r: string)
    ensures |r| >= 1
    ensures forall i :: 0 <= i < |r| ==> IsDigit(r[i])
    ensures n >= 10 ==> |r| >= 2
  {
    if n < 10 then [(48 + n) as char]
    else NatToString(n / 10) + [(48 + n % 10) as char]
  }

  /** Different numbers print differently. */
  lemma {:induction false} NatToStringInjective(a: nat, b: nat)
    requires NatToString(a) == NatToString(b)
    ensures a == b
    decreases a
  {
    var sa, sb := NatToString(a), NatToString(b);
    assert sa[|sa| - 1] == sb[|sb| - 1];
    if a >= 10 && b >= 10 {
      assert sa[..|sa| - 1] == NatToString(a / 10);
      assert sb[..|sb| - 1] == NatToString(b / 10);
      NatToStringInjective(a / 10, b / 10);
    }
  }

  /** `str(i)` for any integer. */
  function IntToString(i: int): (r: string)
    ensures |r| >= 1
    ensures i >= 0 ==> r == NatToString(i)
    ensures i < 0 ==> r[0] == '-'
  {
    if i < 0 then "-" + NatToString(-i) else NatToString(i)
  }
}

=== FILE: token_windows.dfy ===
/** Sliding token windows: the `split_by_tokens(text, max_tokens, overlap)` helper that every
    chunker falls back on. The tokenizer is a pair of oracles: `encode` maps text to token
    ids and `decode` maps a run of ids back to text. */
module TokenWindows {

  /** One window: the decoded text of `ids[start..end]` together with the token positions. */
  datatype Window = Window(text: string, start: nat, end: nat)

  function Min(a: int, b: int): int {
    if a <= b then a else b
  }

  /** The windows produced once the loop has reached token position `start`. */
  function WindowsFrom(ids: seq<int>, decode: seq<int> -> string, start: nat,
                       maxTokens: nat, overlap: nat): seq<Window>
    requires overlap < maxTokens
    decreases |ids| - start
  {
    if start >= |ids| then []
    else
      var end := Min(start + maxTokens, |ids|);
      [Window(decode(ids[start..end]), start, end)]
        + (if end == |ids| then [] else WindowsFrom(ids, decode, start + maxTokens - overlap, maxTokens, overlap))
  }

  /** The first window from `start`, then the windows from the next start unless it
      reached the end. */
  lemma WindowsFromStep(ids: seq<int>, decode: seq<int> -> string, start: nat, maxTokens: nat, overlap: nat)
    requires overlap < maxTokens && start < |ids|
    ensures var end := Min(start + maxTokens, |ids|);
            WindowsFrom(ids, decode, start, maxTokens, overlap)
            == [Window(decode(ids[start..end]), start, end)]
               + (if end == |ids| then [] else WindowsFrom(ids, decode, start + maxTokens - overlap, maxTokens, overlap))
  {
  }

  /** Every window starts at or after `start`, holds between one and `maxTokens` ids of
      `ids`, and its text is the decoding of those ids. */
  predicate WellFormed(ids: seq<int>, decode: seq<int> -> string, ws: seq<Window>, start: nat, maxTokens: nat) {
    forall k :: 0 <= k < |ws| ==>
      start <= ws[k].start < ws[k].end <= |ids| && ws[k].end - ws[k].start <= maxTokens
      && ws[k].text == decode(ids[ws[k].start..ws[k].end])
  }

  lemma {:induction false} WindowsFromWellFormed(ids: seq<int>, decode: seq<int> -> string, start: nat,
                                                 maxTokens: nat, overlap: nat)
    requires overlap < maxTokens
    ensures WellFormed(ids, decode, WindowsFrom(ids, decode, start, maxTokens, overlap), start, maxTokens)
    decreases |ids| - start
  {
    if start < |ids| {
      var end := Min(start + maxTokens, |ids|);
      var w := Window(decode(ids[start..end]), start, end);
      WindowsFromStep(ids, decode, start, maxTokens, overlap);
      if end < |ids| {
        var next := start + maxTokens - overlap;
        WindowsFromWellFormed(ids, decode, next, maxTokens, overlap);
        ConsWellFormed(ids, decode, w, WindowsFrom(ids, decode, next, maxTokens, overlap), start, next, maxTokens);
      } else {
        ConsWellFormed(ids, decode, w, [], start, start, maxTokens);
      }
    }
  }

  lemma ConsWellFormed(ids: seq<int>, decode: seq<int> -> string, w: Window, rest: seq<Window>,
                       start: nat, next: nat, maxTokens: nat)
    requires start <= w.start < w.end <= |ids| && w.end - w.start <= maxTokens
    requires w.text == decode(ids[w.start..w.end])
    requires start <= next && WellFormed(ids, decode, rest, next, maxTokens)
    ensures WellFormed(ids, decode, [w] + rest, start, maxTokens)
  {
    var ws := [w] + rest;
    forall k | 0 <= k < |ws|
      ensures start <= ws[k].start < ws[k].end <= |ids| && ws[k].end - ws[k].start <= maxTokens
              && ws[k].text == decode(ids[ws[k].start..ws[k].end])
    {
      if k > 0 {
        assert ws[k] == rest[k - 1];
      }
    }
  }

  /** `split_by_tokens`: windows of at most `maxTokens` ids; each next window starts
      `overlap` ids before the previous one ended. The source loops forever when
      `overlap >= maxTokens`, so that is excluded. */
  function Windows(ids: seq<int>, decode: seq<int> -> string, maxTokens: nat, overlap: nat): (ws: seq<Window>)
    requires overlap < maxTokens
    ensures forall k :: 0 <= k < |ws| ==>
              ws[k].start < ws[k].end <= |ids| && ws[k].end - ws[k].start <= maxTokens
              && ws[k].text == decode(ids[ws[k].start..ws[k].end])
  {
    WindowsFromWellFormed(ids, decode, 0, maxTokens, overlap);
    var ws := WindowsFrom(ids, decode, 0, maxTokens, overlap);
    assert WellFormed(ids, decode, ws, 0, maxTokens);
    ws
  }

  /** Every window but the last is full, and the next one re-reads its last `overlap` ids
      and reaches further. */
  predicate Linked(ws: seq<Window>, maxTokens: nat, overlap: nat) {
    forall k :: 0 <= k < |ws| - 1 ==>
      ws[k].end - ws[k].start == maxTokens && ws[k + 1].start + overlap == ws[k].end
      && ws[k].end < ws[k + 1].end
  }

  /** The shape of the window list: none exactly when there are no ids; the first starts at
      0, the last ends at the last id; the windows are linked. */
  predicate Tiles(ws: seq<Window>, n: nat, maxTokens: nat, overlap: nat) {
    && (|ws| == 0 <==> n == 0)
    && (|ws| > 0 ==> ws[0].start == 0 && ws[|ws| - 1].end == n)
    && Linked(ws, maxTokens, overlap)
  }

  lemma ConsLinked(w: Window, rest: seq<Window>, maxTokens: nat, overlap: nat)
    requires |rest| > 0 && w.end - w.start == maxTokens && rest[0].start + overlap == w.end && w.end < rest[0].end
    requires Linked(rest, maxTokens, overlap)
    ensures Linked([w] + rest, maxTokens, overlap)
  {
    var ws := [w] + rest;
    assert ws[0] == w && ws[1] == rest[0];
    forall k | 0 <= k < |ws| - 1
      ensures ws[k].end - ws[k].start == maxTokens && ws[k + 1].start + overlap == ws[k].end
              && ws[k].end < ws[k + 1].end
    {
      if k > 0 {
        assert ws[k] == rest[k - 1] && ws[k + 1] == rest[k];
      }
    }
  }

  lemma {:induction false} WindowsFromTile(ids: seq<int>, decode: seq<int> -> string, start: nat,
                                           maxTokens: nat, overlap: nat)
    requires overlap < maxTokens && start < |ids|
    ensures var ws := WindowsFrom(ids, decode, start, maxTokens, overlap);
            |ws| > 0 && ws[0].start == start && ws[|ws| - 1].end == |ids| && Linked(ws, maxTokens, overlap)
    decreases |ids| - start
  {
    var end := Min(start + maxTokens, |ids|);
    var w := Window(decode(ids[start..end]), start, end);
    var ws := WindowsFrom(ids, decode, start, maxTokens, overlap);
    if end < |ids| {
      var next := start + maxTokens - overlap;
      WindowsFromTile(ids, decode, next, maxTokens, overlap);
      var rest := WindowsFrom(ids, decode, next, maxTokens, overlap);
      WindowsFromStep(ids, decode, start, maxTokens, overlap);
      WindowsFromStep(ids, decode, next, maxTokens, overlap);
      assert rest[0].end == Min(next + maxTokens, |ids|);
      ConsLinked(w, rest, maxTokens, overlap);
      assert ws[|ws| - 1] == rest[|rest| - 1];
    } else {
      WindowsFromStep(ids, decode, start, maxTokens, overlap);
    }
  }

  lemma WindowsTile(ids: seq<int>, decode: seq<int> -> string, maxTokens: nat, overlap: nat)
    requires overlap < maxTokens
    ensures Tiles(Windows(ids, decode, maxTokens, overlap), |ids|, maxTokens, overlap)
  {
    if |ids| > 0 {
      WindowsFromTile(ids, decode, 0, maxTokens, overlap);
    }
  }

  /** Every token id lies in at least one window. */
  lemma {:induction false} WindowsCover(ids: seq<int>, decode: seq<int> -> string,
                                        maxTokens: nat, overlap: nat, t: nat)
    requires overlap < maxTokens && t < |ids|
    ensures var ws := Windows(ids, decode, maxTokens, overlap);
            exists k :: 0 <= k < |ws| && ws[k].start <= t < ws[k].end
  {
    var ws := Windows(ids, decode, maxTokens, overlap);
    WindowsTile(ids, decode, maxTokens, overlap);
    var k := 0;
    while ws[k].end <= t
      invariant 0 <= k < |ws| && ws[k].start <= t
      decreases |ws| - k
    {
      k := k + 1;
    }
  }

  /** `ids[a..b]`, or nothing when that is not a range of `ids`. */
  function Part(ids: seq<int>, a: nat, b: nat): seq<int> {
    if a <= b <= |ids| then ids[a..b] else []
  }

  /** The ids each later window adds: its own ids minus the first `overlap` of them. */
  function Fresh(ids: seq<int>, ws: seq<Window>, overlap: nat): seq<int> {
    if |ws| == 0 then [] else Part(ids, ws[0].start + overlap, ws[0].end) + Fresh(ids, ws[1..], overlap)
  }

  /** The first window in full followed by what every later window adds. */
  function Stitch(ids: seq<int>, ws: seq<Window>, overlap: nat): seq<int> {
    if |ws| == 0 then [] else Part(ids, ws[0].start, ws[0].end) + Fresh(ids, ws[1..], overlap)
  }

  /** Windows in increasing order where each one starts `overlap` ids before the previous
      one ended, all inside `ids`. */
  predicate Chained(ids: seq<int>, ws: seq<Window>, overlap: nat) {
    && (forall k :: 0 <= k < |ws| ==> ws[k].start < ws[k].end <= |ids|)
    && (forall k :: 0 <= k < |ws| - 1 ==>
          ws[k + 1].start + overlap == ws[k].end && ws[k].end < ws[k + 1].end)
  }

  lemma {:induction false} StitchChain(ids: seq<int>, ws: seq<Window>, overlap: nat)
    requires |ws| > 0 && Chained(ids, ws, overlap) && ws[|ws| - 1].end == |ids|
    ensures Stitch(ids, ws, overlap) == ids[ws[0].start..]
    decreases |ws|
  {
    var w := ws[0];
    if |ws| > 1 {
      var r0 := ws[1];
      var f := Fresh(ids, ws[2..], overlap);
      assert r0.start + overlap == w.end && r0.end <= |ids|;
      ChainedTail(ids, ws, overlap);
      StitchChain(ids, ws[1..], overlap);
      StitchCons(ids, ws, overlap);
      JoinStep(ids, w.start, w.end, r0.start, r0.end, f);
    } else {
      assert Fresh(ids, ws[1..], overlap) == [];
      assert ids[w.start..w.end] == ids[w.start..];
    }
  }

  /** The stitch of two or more windows, and of its tail, unfolded once. */
  lemma StitchCons(ids: seq<int>, ws: seq<Window>, overlap: nat)
    requires |ws| > 1 && ws[0].start <= ws[0].end <= |ids| && ws[1].start + overlap == ws[0].end
    requires ws[0].end <= ws[1].end <= |ids|
    ensures Stitch(ids, ws, overlap)
            == ids[ws[0].start..ws[0].end] + (ids[ws[0].end..ws[1].end] + Fresh(ids, ws[2..], overlap))
    ensures Stitch(ids, ws[1..], overlap) == ids[ws[1].start..ws[1].end] + Fresh(ids, ws[2..], overlap)
  {
    var t := ws[1..];
    assert t[0] == ws[1] && t[1..] == ws[2..];
    assert Fresh(ids, t, overlap) == ids[ws[0].end..ws[1].end] + Fresh(ids, ws[2..], overlap) by {
      FreshCons(ids, t, overlap);
    }
    StitchCons1(ids, ws, overlap);
    StitchCons1(ids, t, overlap);
  }

  lemma FreshCons(ids: seq<int>, ws: seq<Window>, overlap: nat)
    requires |ws| > 0
    ensures Fresh(ids, ws, overlap) == Part(ids, ws[0].start + overlap, ws[0].end) + Fresh(ids, ws[1..], overlap)
  {
  }

  lemma StitchCons1(ids: seq<int>, ws: seq<Window>, overlap: nat)
    requires |ws| > 0
    ensures Stitch(ids, ws, overlap) == Part(ids, ws[0].start, ws[0].end) + Fresh(ids, ws[1..], overlap)
  {
  }

  /** One step of the stitch: the first window's ids followed by the fresh part of the
      second and the rest give the suffix from the first window's start. */
  lemma JoinStep(ids: seq<int>, a: nat, b: nat, c: nat, d: nat, rest: seq<int>)
    requires a <= b && c <= b <= d <= |ids| && ids[c..d] + rest == ids[c..]
    ensures ids[a..b] + (ids[b..d] + rest) == ids[a..]
  {
    Splice(ids, c, b, d, rest);
    assert ids[a..] == ids[a..b] + ids[b..];
  }

  /** In a chain every window after the first holds at least the overlap. */
  lemma ChainedFits(ids: seq<int>, ws: seq<Window>, overlap: nat)
    requires Chained(ids, ws, overlap)
    ensures forall k :: 0 < k < |ws| ==> ws[k].start + overlap <= ws[k].end
  {
    forall k | 0 < k < |ws| ensures ws[k].start + overlap <= ws[k].end {
      assert ws[k].start + overlap == ws[k - 1].end && ws[k - 1].end <= ws[k].end;
    }
  }

  lemma ChainedTail(ids: seq<int>, ws: seq<Window>, overlap: nat)
    requires |ws| > 0 && Chained(ids, ws, overlap)
    ensures Chained(ids, ws[1..], overlap)
  {
    var rest := ws[1..];
    forall k | 0 <= k < |rest| - 1
      ensures rest[k + 1].start + overlap == rest[k].end && rest[k].end < rest[k + 1].end
    {
      assert rest[k] == ws[k + 1] && rest[k + 1] == ws[k + 2];
    }
  }

  /** If `ids[a..c] + tail` is the suffix from `a`, then `ids[b..c] + tail` is the suffix
      from `b`, for any `b` between them. */
  lemma Splice(ids: seq<int>, a: nat, b: nat, c: nat, tail: seq<int>)
    requires a <= b <= c <= |ids| && ids[a..c] + tail == ids[a..]
    ensures ids[b..c] + tail == ids[b..]
  {
    var d := b - a;
    assert ids[a..c] == ids[a..b] + ids[b..c];
    assert ids[a..] == ids[a..b] + ids[b..];
    assert (ids[a..c] + tail)[d..] == ids[b..c] + tail;
    assert ids[a..][d..] == ids[b..];
  }

  /** The windows lose no id and repeat none beyond the declared overlap. */
  lemma WindowsStitch(ids: seq<int>, decode: seq<int> -> string, maxTokens: nat, overlap: nat)
    requires overlap < maxTokens
    ensures var ws := Windows(ids, decode, maxTokens, overlap);
            (forall k :: 0 < k < |ws| ==> ws[k].start + overlap <= ws[k].end)
            && Stitch(ids, ws, overlap) == ids
  {
    var ws := Windows(ids, decode, maxTokens, overlap);
    WindowsTile(ids, decode, maxTokens, overlap);
    ChainedFits(ids, ws, overlap);
    if |ids| > 0 {
      StitchChain(ids, ws, overlap);
    }
  }

  /** The loop of `split_by_tokens`, producing exactly the windows defined above. */
  method SplitByTokens(ids: seq<int>, decode: seq<int> -> string, maxTokens: nat, overlap: nat)
    returns (ws: seq<Window>)
    requires overlap < maxTokens
    ensures ws == Windows(ids, decode, maxTokens, overlap)
    ensures Tiles(ws, |ids|, maxTokens, overlap)
  {
    ws := [];
    var start := 0;
    while start < |ids|
      invariant ws + WindowsFrom(ids, decode, start, maxTokens, overlap) == WindowsFrom(ids, decode, 0, maxTokens, overlap)
      decreases |ids| - start
    {
      var end := Min(start + maxTokens, |ids|);
      var w := Window(decode(ids[start..end]), start, end);
      var next := start + maxTokens - overlap;
      var rest := if end == |ids| then [] else WindowsFrom(ids, decode, next, maxTokens, overlap);
      WindowsFromStep(ids, decode, start, maxTokens, overlap);
      AppendStep(ws, w, rest, WindowsFrom(ids, decode, start, maxTokens, overlap), WindowsFrom(ids, decode, 0, maxTokens, overlap));
      ws := ws + [w];
      if end == |ids| {
        assert ws + [] == ws;
        break;
      }
      start := next;
    }
    assert ws == WindowsFrom(ids, decode, 0, maxTokens, overlap);
    WindowsTile(ids, decode, maxTokens, overlap);
  }

  lemma AppendStep<T>(done: seq<T>, x: T, rest: seq<T>, todo: seq<T>, all: seq<T>)
    requires done + todo == all && todo == [x] + rest
    ensures (done + [x]) + rest == all
  {
    assert done + ([x] + rest) == (done + [x]) + rest;
  }
}

=== FILE: wrappers.dfy ===
/** Optional values and results with an error, as used throughout the model for Python's
    `None` returns and for exceptions that a caller catches. */
module Wrappers {

  datatype Option<T> = None | Some(value: T) {
    /** The contained value, or `default` when there is none. */
    function GetOr(default: T): T {
      match this
      case Some(v) => v
      case None => default
    }
  }

  datatype Result<T, E> = Ok(value: T) | Err(error: E)
}
